=== FILE: README.md ===
# Taxonomy tools and UV trimming, modelled in Dafny

This project models two self-contained parts of a Python code base for ship-product data.

**The UV trimming pipeline** (`tesselate/multi_nurbs_intersectioning.py`). A curve in the global UV parameter space of a surface is clipped by a closed trim curve. The surface is a grid of Bézier patches.

The model covers:
- Bernstein weights and tensor-product patch evaluation.
- How `MultiBezierSurface` cuts a control grid into patches, and how it looks a patch up by integer coordinates.
- The polyline fallback of `GlobalUVSpline.evaluate_uv`.
- The UV-to-patch mapping of `evaluate3D`, whose off-grid result is a datatype variant instead of a NaN triple.
- `segment_intersection_2d` and `point_in_polygon`.
- The orchestration in `clip_spline_by_geomdl_trim`: seeding, sorting, clustering, the partition of [0, 1] and the selection of inside segments.

Everything is stated over exact `real` arithmetic.

**The taxonomy tools** (`compit/taxonomy/`). A taxonomy is an insertion-ordered dictionary from IDs to records. The model covers:
- Validating a taxonomy sheet.
- Loading taxonomies, attributes and sub-graphs.
- Descendant enumeration and the coverage reports that count mapped and unmapped descendants per dimension.
- The mapping-string classification: `prefix:name`, `elem@type#value` and `base=[a, b]`.
- Chart helpers: URL, colours, depth and node filter.
- Camel-case conversion.
- The node, attribute and ID bookkeeping of the OCX taxonomy builder.

Python dictionaries become `Dicts.Dict`, a key sequence in insertion order together with a map. Records are maps from field names to optional strings, so that a missing field surfaces as the same `KeyError` the source raises.

Spreadsheets become sequences of rows of cells:
- `Missing` for NaN;
- `Text` for a string;
- `Flag` for a boolean;
- `Number` for a numeric cell: the text `str()` prints and whether it is zero.

Exceptions become `Failure` values of a `Result`. Unbounded Python recursion on a cyclic parent chain becomes a `RecursionLimit` failure (or `None`). The model finds it by carrying the set of nodes being expanded.

Module layout:

| module | models |
|---|---|
| `Wrappers` | result and option types |
| `Dicts` | ordered dictionaries |
| `Strings` | ASCII string helpers (`strip`, `split`, `lower`, `capitalize`) |
| `Chains` | parent chains and cycles |
| `TaxonomyModel` | cells, rows, records, coverage percentage |
| `Hierarchy` | recursive descendant enumeration |
| `Validation` | `validation.py` |
| `LoadTaxonomy` | `load_taxonomy.py` |
| `Mappings` | `mappings.py` |
| `TaxonomyChart` | the helpers and `doc_coverage_report` of `taxonomy.py` |
| `CaseConversion` | `taxonomy_common.py` |
| `OcxTaxonomy` | `ocx_taxonomy.py` |
| `Bezier` | Bernstein weights and patch evaluation |
| `PatchGrid` | `MultiBezierSurface` |
| `UVCurve` | `GlobalUVSpline` |
| `Geometry2D` | `segment_intersection_2d` and `point_in_polygon` |
| `Trimming` | `clip_spline_by_geomdl_trim` |

Two behaviours of the code are modelled as written:
- `has_cycle` leaves the last node of an acyclic chain in `path`. It does not restore `path` on every return. `Validation.HasCycleFromPath` states exactly what it leaves behind. Every top-level call starts from a fresh set, so this does not change any answer.
- The docstring of `add_children` says "Add all child nodes recursively". On a cyclic taxonomy, however, it does not reach every descendant of the sub-graph node. A descendant reached only through an ancestor that is already in the filtered map is skipped. `LoadTaxonomy.SubGraphDescendants` proves completeness under the hypothesis that no cycle passes through the sub-graph node. `LoadTaxonomy.SubGraphDescendantsAcyclic` proves it for acyclic taxonomies.

## Model

| member | source | states |
|---|---|---|
| Bezier.BinomialAbove | tesselate/multi_nurbs_intersectioning.py:16-18 | `math.comb(n, i)` is 0 when i > n, so the Bernstein weight of a missing index vanishes |
| Bezier.BernsteinEnds | tesselate/multi_nurbs_intersectioning.py:16-18 | at t = 0 only weight 0 is nonzero and equals 1; at t = 1 only weight n is, and equals 1 |
| Bezier.CombineUnit | tesselate/multi_nurbs_intersectioning.py:24-26 | a weighted sum whose weights are one unit vector selects exactly that control point |
| Bezier.SelectEnds | tesselate/multi_nurbs_intersectioning.py:16-26 | the Bézier curve passes through its first control point at t = 0 and its last at t = 1 |
| Bezier.PatchCorners | tesselate/multi_nurbs_intersectioning.py:20-27 | a patch evaluated at (0,0), (1,0), (0,1), (1,1) returns exactly ctrl[0][0], ctrl[m][0], ctrl[0][n], ctrl[m][n] |
| Bezier.EdgeAtV | tesselate/multi_nurbs_intersectioning.py:20-27 | the patch's v = 0 and v = 1 boundaries are the Bézier curves of its first and last control columns |
| PatchGrid.Block | tesselate/multi_nurbs_intersectioning.py:41-43 | the slice `ctrlgrid[i:i+p, j:j+p]` is a p×p block whose entry (a, b) is grid point (i+a, j+b) |
| PatchGrid.BlockFits | tesselate/multi_nurbs_intersectioning.py:35-43 | with floor-divided patch counts, the last block of a row or column still lies inside the grid (no short slice) |
| PatchGrid.Build | tesselate/multi_nurbs_intersectioning.py:29-47 | patch size 1 fails with a division by zero; otherwise px = (nx-1) div step and py = (ny-1) div step, patch (pi,pj) has index pi·py + pj, and its control block starts at (pi·step, pj·step) |
| PatchGrid.BuildRow | tesselate/multi_nurbs_intersectioning.py:40-47 | one pass of the inner loop appends py patches and indexes exactly the coordinates of the next row |
| PatchGrid.PatchLookup | tesselate/multi_nurbs_intersectioning.py:48-49 | `patch_from_coord` is None exactly outside [0,px)×[0,py); otherwise it returns pi·py + pj, whose patch holds the block at (pi·step, pj·step) |
| PatchGrid.AssembledWellIndexed | tesselate/multi_nurbs_intersectioning.py:37-49 | on a built surface every index in the coordinate table names a patch with a square control block |
| PatchGrid.SharedBorder | tesselate/multi_nurbs_intersectioning.py:39-43 | neighbouring patches in v share their border column of control points, because the step is patch_size - 1 |
| UVCurve.EvaluateUV | tesselate/multi_nurbs_intersectioning.py:62-76 | evaluation has no value exactly for a polyline with no points, where `np.interp` raises |
| UVCurve.InterpPiece | tesselate/multi_nurbs_intersectioning.py:72-74 | `np.interp` on knots k/(n-1) is the linear blend of values k and k+1 on that piece |
| UVCurve.PolylinePiece | tesselate/multi_nurbs_intersectioning.py:72-75 | between knots k/(n-1) and (k+1)/(n-1) the polyline interpolates points k and k+1 linearly |
| UVCurve.PolylineKnot | tesselate/multi_nurbs_intersectioning.py:72-75 | at knot k/(n-1) the polyline returns control point k |
| UVCurve.PolylineEnds | tesselate/multi_nurbs_intersectioning.py:68-75 | one control point is returned for every t; with more, the first is returned for t ≤ 0 and the last for t ≥ 1 |
| UVCurve.TwoPointFallback | tesselate/multi_nurbs_intersectioning.py:72-75 | a two-point polyline is the segment between them, with the midpoint at t = 0.5 |
| UVCurve.LocalCoord | tesselate/multi_nurbs_intersectioning.py:94-95 | the local coordinate U - floor(U) lies in [0, 1), so the clip to [0, 1] never changes it |
| UVCurve.MapUV | tesselate/multi_nurbs_intersectioning.py:93-100 | the NaN sentinel appears exactly when `patch_from_coord(floor U, floor V)` is None |
| UVCurve.MapUVDomain | tesselate/multi_nurbs_intersectioning.py:89-101 | on a built surface the sentinel appears exactly when floor(U), floor(V) leave [0,px)×[0,py); otherwise the point is that patch evaluated at the local coordinates |
| UVCurve.GridPointSample | tesselate/multi_nurbs_intersectioning.py:89-101 | the UV point (i, j) maps to control point (i·step, j·step), the corner of patch (i, j) |
| Geometry2D.SegmentIntersection | tesselate/multi_nurbs_intersectioning.py:113-124 | None when \|r×s\| < 1e-12; any returned (t, u) lies in [0,1]² and satisfies p + t·r = q + u·s exactly |
| Geometry2D.CramerSolves | tesselate/multi_nurbs_intersectioning.py:119-121 | the two cross-product quotients solve the 2×2 system t·r - u·s = q - p |
| Geometry2D.SegmentIntersectionComplete | tesselate/multi_nurbs_intersectioning.py:113-124 | for non-parallel segments every crossing with parameters in [0,1]² is the one returned |
| Geometry2D.ToggleCounts | tesselate/multi_nurbs_intersectioning.py:128-134 | the toggling loop ends in the start flag xor the parity of the crossed edges |
| Geometry2D.PointInPolygonParity | tesselate/multi_nurbs_intersectioning.py:126-134 | a point is inside exactly when the ray crosses an odd number of edges (i, i+1 mod n) |
| Geometry2D.EdgesRotate | tesselate/multi_nurbs_intersectioning.py:130-131 | rotating the vertex list rotates the edge list (i, i+1 mod n) the same way |
| Geometry2D.PointInPolygonRotation | tesselate/multi_nurbs_intersectioning.py:126-134 | the answer is the same for every cyclic rotation of the vertex list |
| Trimming.Linspace | tesselate/multi_nurbs_intersectioning.py:166-167 | `linspace(a, b, n)` has n values, starting at a and, for n ≥ 2, ending at b |
| Trimming.LinspaceMonotone | tesselate/multi_nurbs_intersectioning.py:166-167 | for a ≤ b the samples are non-decreasing and lie in [a, b] |
| Trimming.RowSeeds | tesselate/multi_nurbs_intersectioning.py:171-179 | the inner loop yields only crossings of spine segment i with trim segments from j on |
| Trimming.AllSeeds | tesselate/multi_nurbs_intersectioning.py:169-179 | the double loop yields only genuine segment crossings |
| Trimming.RowSeedsComplete | tesselate/multi_nurbs_intersectioning.py:171-179 | every crossing of spine segment i with a later trim segment is yielded by the inner loop |
| Trimming.AllSeedsComplete | tesselate/multi_nurbs_intersectioning.py:169-179 | every crossing of a spine segment with a trim segment is yielded |
| Trimming.Clamp01 | tesselate/multi_nurbs_intersectioning.py:193 | `max(0, min(1, t))` lies in [0,1], is the identity on [0,1] and sends values outside it to the nearer end |
| Trimming.Refine | tesselate/multi_nurbs_intersectioning.py:136-161 | whatever the Newton iteration does, the refined (t, s) lie in [0,1]², as the source clips them |
| Trimming.SeedStartBetween | tesselate/multi_nurbs_intersectioning.py:176-177 | the Newton start values lie between the sample parameters of the crossing segments |
| Trimming.RefineAll | tesselate/multi_nurbs_intersectioning.py:175-179 | one refined crossing is appended per seed, in seed order, from that seed's start values |
| Trimming.InsertByT | tesselate/multi_nurbs_intersectioning.py:180 | inserting into a t-sorted list keeps it sorted and adds exactly that crossing |
| Trimming.SortByT | tesselate/multi_nurbs_intersectioning.py:180 | `sorted(key=t)` returns a permutation of the crossings, sorted by t |
| Trimming.InsertByTStable | tesselate/multi_nurbs_intersectioning.py:180 | insertion puts the new crossing after every crossing with the same t and keeps the others in order |
| Trimming.SortByTStable | tesselate/multi_nurbs_intersectioning.py:180 | the sort is stable: for every value v, the crossings with t = v appear in the same order as in the input |
| Trimming.ClusterProps | tesselate/multi_nurbs_intersectioning.py:181-191 | on sorted input the clustered list is no longer than the input, empty only for empty input, keeps only input crossings, and keeps consecutive t at least 1e-6 apart |
| Trimming.ClusterStepProps | tesselate/multi_nurbs_intersectioning.py:183-190 | one loop step keeps the list separated; it grows by at most one element and holds only earlier elements or the new item |
| Trimming.ClusterIdentity | tesselate/multi_nurbs_intersectioning.py:181-191 | a list whose t values are already 1e-6 apart passes through clustering unchanged |
| Trimming.ClusterIdempotent | tesselate/multi_nurbs_intersectioning.py:181-191 | clustering a clustered list changes nothing |
| Trimming.InsertUnique | tesselate/multi_nurbs_intersectioning.py:193 | adding a value to a strictly increasing list keeps it strictly increasing, with exactly the old members and the new value |
| Trimming.SortedSet | tesselate/multi_nurbs_intersectioning.py:193 | `sorted(set(xs))` is strictly increasing with exactly the members of xs |
| Trimming.StrictlyIncreasingUnique | tesselate/multi_nurbs_intersectioning.py:193 | two strictly increasing lists with the same members are equal, so `sorted(set(.))` has one answer |
| Trimming.Breakpoints | tesselate/multi_nurbs_intersectioning.py:192-193 | `t_vals` is strictly increasing within [0,1], starts at 0.0, ends at 1.0, and holds exactly 0, 1 and the clamped crossing parameters |
| Trimming.MakeSegment | tesselate/multi_nurbs_intersectioning.py:202-206 | an emitted segment carries its ends and n samples of t, of the UV curve and of the 3D map |
| Trimming.KeptSpans | tesselate/multi_nurbs_intersectioning.py:194-201 | for the span test it is given, the kept intervals come in increasing, non-overlapping order; each is non-empty, passes the test and lies within the partition |
| Trimming.SegmentsOf | tesselate/multi_nurbs_intersectioning.py:202-206 | one segment per kept interval, in order, carrying that interval's ends and n samples of the spline between them |
| Trimming.SpansExact | tesselate/multi_nurbs_intersectioning.py:194-201 | an interval between consecutive breakpoints is kept exactly when it passes the span test |
| Trimming.ClipSpanKept | tesselate/multi_nurbs_intersectioning.py:194-206 | with the clip's test, a partition interval is emitted exactly when it is at least 1e-12 long and its midpoint is inside the trim polygon |
| Trimming.SegmentOfSpan | tesselate/multi_nurbs_intersectioning.py:202-206 | a segment runs between two parameters exactly when that pair is one of the kept intervals |
| Trimming.SegmentExactAt | tesselate/multi_nurbs_intersectioning.py:194-206 | over any increasing breakpoints, the interval between breakpoints q and q+1 is a segment exactly when it passes the span test |
| Trimming.ClipSegmentsExact | tesselate/multi_nurbs_intersectioning.py:192-206 | over the breakpoints built from the clustered crossings, every interval passing the span test becomes a segment and no other interval does |
| Trimming.SpansConsecutive | tesselate/multi_nurbs_intersectioning.py:194-201 | every kept interval is one interval between consecutive breakpoints |
| Trimming.SampleCurve | tesselate/multi_nurbs_intersectioning.py:108-111 | `sample_parametric_curve` evaluates the curve at every sample parameter, in order |
| Trimming.SortAndCluster | tesselate/multi_nurbs_intersectioning.py:180-191 | the kept crossings are sorted, 1e-6 apart, no more than found, and keep their parameters in [0,1] |
| Trimming.ClipSplineByTrim | tesselate/multi_nurbs_intersectioning.py:163-207 | fails only for an empty polyline; the spine and trim polylines are the curves sampled at N+1 and M+1 evenly spaced parameters; the crossings are the refined seeds of all segment pairs, sorted and clustered, in [0,1]²; a segment spans two consecutive breakpoints exactly when that interval is at least 1e-12 long with its midpoint inside the trim polygon, and each segment samples the spline over its own interval |
| TaxonomyModel.CleanCell | compit/taxonomy/load_taxonomy.py:106 | a cell is read as None exactly when it is NaN |
| TaxonomyModel.MissingColumns | compit/taxonomy/validation.py:37-42 | the missing header fields are exactly the required fields absent from the columns |
| TaxonomyModel.ParentLinks | compit/taxonomy/load_taxonomy.py:119-126 | a node has a parent link exactly when its `parent_id` is a non-empty string, and the link is that string |
| TaxonomyModel.Coverage | compit/taxonomy/mappings.py:98-99 | coverage is 0.0 for an empty dimension, otherwise mapped·100/total, and always within [0, 100] |
| Hierarchy.Descendants | compit/taxonomy/mappings.py:17-24 | an answer lists every child of the node, lists each node after its parent, is closed under children and never contains the node being expanded |
| Hierarchy.AllDescendants | compit/taxonomy/mappings.py:17-24 | an answer lists every child, lists each descendant after its parent, and does not contain the node itself |
| Hierarchy.PrecedeSound | compit/taxonomy/mappings.py:19-24 | every listed node is a strict descendant |
| Hierarchy.ClosedComplete | compit/taxonomy/mappings.py:19-24 | every strict descendant is listed |
| Hierarchy.AllDescendantsExact | compit/taxonomy/mappings.py:17-24 | a finished enumeration lists exactly the strict descendants of the node |
| Hierarchy.DescendantsAcyclic | compit/taxonomy/mappings.py:17-24 | without parent cycles the enumeration always finishes (the interpreter's depth limit aside) |
| Hierarchy.DescendantsOnCycle | compit/taxonomy/mappings.py:17-24 | from a node on a parent cycle the recursion never finishes |
| Hierarchy.DescendantsNoDuplicates | compit/taxonomy/mappings.py:19-24 | with distinct keys, an answer lists no node twice: the subtrees of different children are disjoint |
| Hierarchy.AllDescendantsNoDuplicates | compit/taxonomy/mappings.py:17-24 | `get_all_descendants` lists every descendant once |
| Hierarchy.DescendantsFromSiblingOrder | compit/taxonomy/mappings.py:19-22 | the children of the node appear in the answer in the order of the dictionary keys |
| Hierarchy.AllDescendantsSiblingOrder | compit/taxonomy/mappings.py:17-24 | `get_all_descendants` lists the children of the node in dictionary order |
| Validation.NormalizeParent | compit/taxonomy/validation.py:68-75 | a NaN, empty or whitespace-only parent becomes None; any other is the stripped text |
| Validation.BlankParentIsRoot | compit/taxonomy/validation.py:68-75 | a parent cell of only whitespace is recorded as a root |
| Validation.ScanRow | compit/taxonomy/validation.py:45-85 | an empty ID adds one error and changes neither `ids` nor `parents`; otherwise the ID joins `ids`, its parent is recorded, and a repeat adds one duplicate error |
| Validation.ScanRowsParents | compit/taxonomy/validation.py:45-85 | an ID is in `ids` iff some row has it, and `parents` keeps the parent of the last such row |
| Validation.ScanRowsDuplicates | compit/taxonomy/validation.py:77-81 | an ID occurring k > 0 times yields exactly k - 1 duplicate errors |
| Validation.ScanRowsEmpty | compit/taxonomy/validation.py:50-53 | there is exactly one empty-ID error per row with an empty ID |
| Validation.HasCycleIff | compit/taxonomy/validation.py:95-106 | `has_cycle(n)` is true iff the parent chain from n revisits a node; it is false when the chain ends at None or an unknown ID |
| Validation.HasCycleFromPath | compit/taxonomy/validation.py:95-106 | on True the path set is as it was; on False it has gained exactly the chain's last node, which has no parent |
| Validation.MissingParents | compit/taxonomy/validation.py:88-92 | one error per child whose non-empty parent is not among the IDs, no other errors, and no error twice |
| Validation.Cycles | compit/taxonomy/validation.py:109-111 | one cycle error per ID whose chain is cyclic, no other errors, and no error twice |
| Validation.StructureChecks | compit/taxonomy/validation.py:88-111 | the structural errors are exactly the missing-parent and the cycle errors, each once |
| Validation.ValidateTaxonomy | compit/taxonomy/validation.py:16-118 | a missing column gives exactly the two header errors; row errors suppress the structural checks; otherwise the result is exactly the missing-parent and cycle errors, each once |
| Validation.HeaderShortCircuit | compit/taxonomy/validation.py:37-42 | with a column missing, the rows are never looked at |
| LoadTaxonomy.GetChildren | compit/taxonomy/load_taxonomy.py:19-27 | exactly the keys whose `parent` field equals the parent ID, in dictionary order; a KeyError when some record has no `parent` field |
| LoadTaxonomy.ExpandNodes | compit/taxonomy/load_taxonomy.py:151-172 | the taxonomy is never changed, because every child found is already a key; it fails only on a record without `parent` |
| LoadTaxonomy.CellTruth | compit/taxonomy/load_taxonomy.py:66-67 | `required` is False for a NaN cell, and otherwise the truth of its value: non-empty text, the boolean itself, a non-zero number |
| LoadTaxonomy.AddAttributeRow | compit/taxonomy/load_taxonomy.py:58-78 | a row without an attribute name is skipped; otherwise exactly the (id, name) entry is set and every other ID keeps its attributes |
| LoadTaxonomy.AttributeRowsLastWins | compit/taxonomy/load_taxonomy.py:58-80 | the stored attribute for (id, name) is the one from the last row naming it, and there is none if no row does |
| LoadTaxonomy.LoadTaxonomyAttributes | compit/taxonomy/load_taxonomy.py:30-80 | a missing required column raises, naming the missing and found columns; otherwise every row is aggregated |
| LoadTaxonomy.NodeOfRow | compit/taxonomy/load_taxonomy.py:103-110 | a record has exactly the taxonomy fields, read as cleaned cells, plus the attributes of its ID, or none |
| LoadTaxonomy.FullTaxonomy | compit/taxonomy/load_taxonomy.py:102-111 | every record has exactly the taxonomy fields, and the IDs are ordered by their first row |
| LoadTaxonomy.FullTaxonomyLastWins | compit/taxonomy/load_taxonomy.py:102-111 | the full taxonomy holds, for each ID, the record of the last row with that ID |
| LoadTaxonomy.FirstMissing | compit/taxonomy/load_taxonomy.py:105-107 | the first field a row lookup raises KeyError for is a required field absent from the header |
| LoadTaxonomy.AddParents | compit/taxonomy/load_taxonomy.py:119-126 | the filtered map only grows, and stays a sub-map of the full taxonomy with identical values |
| LoadTaxonomy.AddChildren | compit/taxonomy/load_taxonomy.py:128-134 | the filtered map only grows within the full taxonomy; every child of the node is added, and every new node has its children added |
| LoadTaxonomy.AddChildrenOnlyDescendants | compit/taxonomy/load_taxonomy.py:128-134 | every node `add_children` adds is a strict descendant of the node along the parent field |
| LoadTaxonomy.AddParentsOnlyAncestors | compit/taxonomy/load_taxonomy.py:119-126 | `add_parents` adds only ancestors of the node |
| LoadTaxonomy.AddParentsAncestors | compit/taxonomy/load_taxonomy.py:119-126 | `add_parents` adds every existing ancestor along `parent_id` |
| LoadTaxonomy.SubGraph | compit/taxonomy/load_taxonomy.py:136-145 | an unknown ID raises; otherwise the result is a sub-map of the full taxonomy that holds the node, every existing ancestor and every child, and nothing but the node, its ancestors and its descendants |
| LoadTaxonomy.SubGraphDescendants | compit/taxonomy/load_taxonomy.py:128-142 | when no cycle passes through the node, the sub-graph holds every descendant |
| LoadTaxonomy.SubGraphDescendantsAcyclic | compit/taxonomy/load_taxonomy.py:128-142 | on an acyclic taxonomy the sub-graph holds every descendant |
| LoadTaxonomy.LoadTaxonomyFrom | compit/taxonomy/load_taxonomy.py:83-148 | every error is wrapped as a read error; without `sub_graph` the full taxonomy is returned; with it, the result is the sub-graph of that ID, its failure wrapped as a read error, so it fails exactly for an unknown ID |
| LoadTaxonomy.SubGraphFor | compit/taxonomy/load_taxonomy.py:266-270 | file i uses `sub_graphs[i]` when i < len(sub_graphs), and None otherwise |
| LoadTaxonomy.LoadMultipleGraphs | compit/taxonomy/load_taxonomy.py:253-274 | one graph per file, each loaded with its own sub-graph ID; it fails exactly when some file's load fails, with the first failing file's error |
| Mappings.GetAllDescendants | compit/taxonomy/mappings.py:17-24 | lists exactly the strict descendants, each once and after its parent, with the children in dictionary order; it finishes on every acyclic taxonomy |
| Mappings.ElementTag | compit/taxonomy/mappings.py:85 | `{ns[prefix] or ''}name` from the text around the first colon; an IndexError without a colon |
| Mappings.QualifiedTag | compit/taxonomy/mappings.py:85 | for `prefix:name` the tag is `{ns[prefix]}name` |
| Mappings.EnumValid | compit/taxonomy/mappings.py:57-65 | an enumeration mapping raises IndexError exactly when its element has no colon or it has no `#` |
| Mappings.Substitutes | compit/taxonomy/mappings.py:70-71 | the substitute list is never empty and no entry holds a comma |
| Mappings.LastPrefixed | compit/taxonomy/mappings.py:73-78 | the last substitute with a colon, or none when every substitute lacks one |
| Mappings.LastSubstituteDecides | compit/taxonomy/mappings.py:73-78 | only the last prefixed substitute decides validity; unprefixed ones are skipped, and with none the flag stays as it was |
| Mappings.SubstitutionValid | compit/taxonomy/mappings.py:66-78 | a second `=` raises ValueError; otherwise validity is that of the last prefixed substitute, and False without one |
| Mappings.OcxValid | compit/taxonomy/mappings.py:56-86 | dispatches on `@` without `=`, on `=` with `[`, and on a plain name; a plain name raises without a colon |
| Mappings.PlainMappingValid | compit/taxonomy/mappings.py:83-86 | a plain `prefix:name` mapping is valid iff its tag is a known element |
| Mappings.EnumMappingValid | compit/taxonomy/mappings.py:57-65 | `elem@type#value` is valid iff the element is known, the type is a known enumeration and the value is one of its values |
| Mappings.Classify | compit/taxonomy/mappings.py:42-95 | each descendant gives exactly one item; it is mapped iff its mapping chain is valid; the no-taxonomy-mapping and no-OCX-mapping cases carry those texts |
| Mappings.ClassifyAsWritten | compit/taxonomy/mappings.py:42-95 | the loop body as written fails for exactly the same nodes as the intended one |
| Mappings.AsWrittenCountsSubstitutionTwice | compit/taxonomy/mappings.py:66-91 | as written, a node with a substitution-group mapping is appended twice; every other node is appended once |
| Mappings.TallyNodes | compit/taxonomy/mappings.py:42-95 | one item per descendant; mapped items have valid chains and not-mapped items do not |
| Mappings.TallyCovers | compit/taxonomy/mappings.py:42-95 | every descendant appears among the items |
| Mappings.DimensionReportOf | compit/taxonomy/mappings.py:97-113 | "Total items" is #mapped + #not mapped and equals the number of descendants; "# mapped" is the number of descendants whose mapping chain is valid; coverage is mapped / total × 100, and 0.0 for an empty dimension; "Dimension" is `dim:label` and "Not mapped ids" lists the unmapped items; it fails exactly when the descendant search or a classification fails, or the dimension has no record or label |
| Mappings.ReportOver | compit/taxonomy/mappings.py:34-116 | one row per dimension, in order of first listing; the totals sum the descendant counts and the mapped total sums, over the dimensions, the descendants whose mapping chain is valid |
| Mappings.EndToEndCoverageReport | compit/taxonomy/mappings.py:27-118 | the aggregate is [total, mapped, total - mapped]: total is the number of descendants over all dimensions, mapped the number of them whose mapping chain is valid; each row holds its dimension's counts and coverage |
| TaxonomyChart.Url | compit/taxonomy/taxonomy.py:50-58 | '' for None or ''; otherwise the wiki base followed by the type up to its first '@' |
| TaxonomyChart.UrlOfEnumeration | compit/taxonomy/taxonomy.py:55-57 | an enumeration `type@value` links to the page of its type |
| TaxonomyChart.MapColor | compit/taxonomy/taxonomy.py:60-66 | a colour only for 'AP215', 'AP218' and 'Root', and None for every other reference |
| TaxonomyChart.MapColorInjective | compit/taxonomy/taxonomy.py:60-66 | distinct references get distinct colours |
| TaxonomyChart.GetNodeColor | compit/taxonomy/taxonomy.py:33-48 | the default when colouring is off or the key is empty; otherwise the map's colour for a key in the map, and the default for a key not in it |
| TaxonomyChart.GetNodeDepth | compit/taxonomy/taxonomy.py:82-87 | 0 for an unknown node; fails exactly on a cyclic parent chain; otherwise the number of steps to the first node without a parent |
| TaxonomyChart.DepthChain | compit/taxonomy/taxonomy.py:82-87 | the recursion along the chain fails iff the chain is cyclic, and otherwise stops at its first node without a parent |
| TaxonomyChart.DepthOfChild | compit/taxonomy/taxonomy.py:82-87 | a node's depth is its parent's depth + 1 |
| TaxonomyChart.ShouldIncludeNode | compit/taxonomy/taxonomy.py:69-73 | false when depth > max_depth; otherwise true iff there is no filter or the reference equals it, with a KeyError when the reference field is absent |
| TaxonomyChart.ShouldIncludeMonotone | compit/taxonomy/taxonomy.py:69-73 | a node included at some depth limit is included at every larger limit |
| TaxonomyChart.Partition | compit/taxonomy/taxonomy.py:539-550 | every node lands in exactly one of mapped and not_mapped; it is mapped iff its mapping is non-empty and a key of the target |
| TaxonomyChart.CollectNodes | compit/taxonomy/taxonomy.py:539-550 | fails on a node without a label (the log line reads it); otherwise appends the mapped and not-mapped nodes to the bucket |
| TaxonomyChart.DimensionNodes | compit/taxonomy/taxonomy.py:525-534 | a record without `parent_id` raises KeyError; every node found is a key |
| TaxonomyChart.DimensionNodesExact | compit/taxonomy/taxonomy.py:525-534 | the nodes found are exactly the descendants of the dimension, each once, with its children in dictionary order; the search finishes on acyclic taxonomies |
| TaxonomyChart.CollectDims | compit/taxonomy/taxonomy.py:523-550 | each dimension's bucket holds its descendants' classification, once per occurrence of the dimension in the list |
| TaxonomyChart.CollectDimsFails | compit/taxonomy/taxonomy.py:523-550 | the first loop raises exactly when, for some listed dimension, `get_children` raises or one of its descendants has no label for the log line |
| TaxonomyChart.DocRowOf | compit/taxonomy/taxonomy.py:558-569 | "Total items" is #mapped + #not mapped; coverage is mapped / total × 100, and 0.0 for an empty dimension; "Dimension" is `dim:label` and "Not mapped ids" is `id:label, ` per unmapped node; a dimension without a record or label raises |
| TaxonomyChart.SumOverAgree | compit/taxonomy/taxonomy.py:570-572 | sums over the same listing of dimensions agree when their terms agree dimension by dimension |
| TaxonomyChart.SumOverTotal | compit/taxonomy/taxonomy.py:565-572 | over rows whose total is mapped + not mapped, the summed totals are the summed mapped plus the summed not-mapped counts |
| TaxonomyChart.ReportDims | compit/taxonomy/taxonomy.py:552-574 | one row per dimension, in order of first listing, with its bucket's counts; the aggregate mapped and not-mapped counts are the sums of the buckets' counts over the listing, once per listing, and the total is their sum |
| TaxonomyChart.DocCoverageReport | compit/taxonomy/taxonomy.py:514-574 | a missing `parent_id` column raises first; each entry of the triple [total, mapped, not mapped] is the sum of the rows' entry over the listed dimensions, once per listing, and total = mapped + not mapped; there is one row per dimension in order of first listing; it fails exactly when collecting some dimension fails (`get_children` raises, or a descendant has no label) or some dimension has no record or label |
| TaxonomyChart.DocCoverageRow | compit/taxonomy/taxonomy.py:519-567 | a dimension's row counts its mapped and not-mapped descendants, multiplied by how often the dimension is listed (the lists are shared defaultdict entries), and its coverage is mapped / total × 100 |
| TaxonomyChart.DocCoverageCountsOnce | compit/taxonomy/taxonomy.py:534-565 | a dimension listed once has "Total items" equal to its number of descendants |
| CaseConversion.InsertsRemove | compit/taxonomy/taxonomy_common.py:19-20 | deleting the inserted separators undoes the insertion |
| CaseConversion.SplitWordsFrom | compit/taxonomy/taxonomy_common.py:19 | the `(.)([A-Z][a-z]+)` substitution only inserts separators, each right before an upper-case letter that a lower-case letter follows, and changes nothing in text without upper-case letters |
| CaseConversion.SplitBoundariesFrom | compit/taxonomy/taxonomy_common.py:20 | the `([a-z0-9])([A-Z])` substitution only inserts separators and leaves no lower/digit-then-upper pair |
| CaseConversion.SplitBoundariesExact | compit/taxonomy/taxonomy_common.py:20 | the `([a-z0-9])([A-Z])` scan puts a separator inside exactly every lower/digit-then-upper pair: matches never overlap, so none is skipped |
| CaseConversion.Separate | compit/taxonomy/taxonomy_common.py:19-20 | both substitutions together only insert separators, keep the first character and leave no camel-case boundary; the result separates every boundary of a word-start insertion into the name |
| CaseConversion.CamelToSnake | compit/taxonomy/taxonomy_common.py:16-20 | the result has no upper-case letter, is the lower-cased name with only '_' inserted, and is never shorter than the name; before lower-casing, the '_' stand before capitalised words and after every lower/digit-then-upper pair |
| CaseConversion.CamelToSnakeNoUpper | compit/taxonomy/taxonomy_common.py:19-20 | a name without upper-case letters is returned unchanged |
| CaseConversion.CamelToSnakeIdempotent | compit/taxonomy/taxonomy_common.py:16-20 | converting twice is converting once |
| CaseConversion.CamelToSnakeRemove | compit/taxonomy/taxonomy_common.py:16-20 | dropping every '_' from the result gives the lower-cased name without its own '_' |
| CaseConversion.CamelToSnakeAcronym | compit/taxonomy/taxonomy_common.py:16-20 | `HTTPServer` becomes `http_server`: the acronym stays whole and the word after it is split off |
| CaseConversion.CamelToSnakeCamelCase | compit/taxonomy/taxonomy_common.py:16-20 | `camelCase` becomes `camel_case` |
| CaseConversion.CamelToSentence | compit/taxonomy/taxonomy_common.py:22-26 | the first character is upper-cased and all others lower-cased; up to case, the result is the name with only ' ' inserted, before capitalised words and after every lower/digit-then-upper pair |
| OcxTaxonomy.IterChildren | compit/taxonomy/ocx_taxonomy.py:48-58 | every child is yielded in order whatever `filter` and `filter_type` are, because both branches yield |
| OcxTaxonomy.Qualified | compit/taxonomy/ocx_taxonomy.py:71 | `prefix:name` splits back into prefix and name when neither holds a colon |
| OcxTaxonomy.AttributeOf | compit/taxonomy/ocx_taxonomy.py:82-89 | `required` iff use is "req."; the data type is 'enum' iff the type mentions 'Restriction of type xs:string', and 'string' otherwise |
| OcxTaxonomy.AddAttribute | compit/taxonomy/ocx_taxonomy.py:80-91 | exactly one record is appended and nothing else changes |
| OcxTaxonomy.AddAttributes | compit/taxonomy/ocx_taxonomy.py:63-65 | one record per attribute of the element is appended, in order |
| OcxTaxonomy.NodeOf | compit/taxonomy/ocx_taxonomy.py:67-75 | the record has the given parent, the sentence-case label, the mapping `prefix:name` and an empty example and reference |
| OcxTaxonomy.AddNode | compit/taxonomy/ocx_taxonomy.py:60-78 | exactly the key `taxonomy_id` is stored or overwritten, keeping its place when it already exists; the element's attributes are appended |
| OcxTaxonomy.AddNodeOthersUnchanged | compit/taxonomy/ocx_taxonomy.py:60-78 | no other node changes, and the key set gains only `taxonomy_id` |
| OcxTaxonomy.CreateUniqueTaxonomyId | compit/taxonomy/ocx_taxonomy.py:151-160 | `camel_to_snake(name)` when that is not a key; `parent_id + '_' + camel_to_snake(name)` otherwise |
| OcxTaxonomy.UniqueIdMayClash | compit/taxonomy/ocx_taxonomy.py:151-160 | the fallback ID is not checked, so it can be an existing key: "foo" under "bar" when "foo" and "bar_foo" exist |
| OcxTaxonomy.ChooseId | compit/taxonomy/ocx_taxonomy.py:101-104 | in full-graph mode the unique ID; otherwise `prefix + '_' + lower(name)` |
| OcxTaxonomy.CaseVariantsShareId | compit/taxonomy/ocx_taxonomy.py:103-105 | outside full-graph mode, names differing only in case get one ID, and the second node overwrites the first |
| OcxTaxonomy.FullGraphNewNameAddsKey | compit/taxonomy/ocx_taxonomy.py:101-105 | in full-graph mode a new name adds the key `camel_to_snake(name)` at the end |
| OcxTaxonomy.BuildFromName | compit/taxonomy/ocx_taxonomy.py:95-105 | an unknown name changes nothing; otherwise the node is stored under the chosen ID |
| OcxTaxonomy.BuildChild | compit/taxonomy/ocx_taxonomy.py:110-117 | a child that is not a global element, or is the design view, is skipped; any other is the looked-up element, stored under the chosen ID with the given parent |

## Left out

- The external NURBS evaluator (geomdl), `MockTrim`, and the demo construction and plotting (tesselate/multi_nurbs_intersectioning.py:209-319) are foreign calls and graphics. An external UV curve is a function parameter, and the trim curve is a function parameter of `Trimming.ClipSplineByTrim`.
- `refine_intersection_analytic` relies on floating-point norms, linear solves and convergence. It is a function parameter whose result is clamped into [0, 1]², which is where the source's clipping puts it. Its `ok` flag is not modelled.
- Finite-difference derivatives (`derivative_uv`, `derivative3D`) are float-step numerics and are not modelled.
- Floating point throughout: all arithmetic is exact `real`. The NaN triple of `evaluate3D` is the `OutOfDomain` variant.
- `PatchGrid.Build` requires patch size ≥ 1. A size of zero or less makes numpy slice with negative bounds, which is not modelled.
- A polyline that is not N×2 makes the constructor raise. It is not modelled, because points are typed as 2D.
- Excel and CSV reading and writing are not modelled: `serialize_taxonomy`, `save_taxonomy_to_excel`, `ship_taxonomy.py`, and the pandas parsing of a workbook into cells. Sheets are given as sequences of rows, and a file that cannot be read is not modelled.
- The spell check in `validation.py` (an external library) is not modelled, nor are the logging calls.
- In `validate_taxonomy`, Python iterates the `ids` set in hash order, so cycle errors can come in any order. `Validation.ValidateTaxonomy` states which errors appear and that each appears once, but not their order.
- TaxonomyChart.DocRowOf: the coverage string formatted with `:.1f` is modelled as the exact percentage, not as a decimal string.
- Mappings.DimensionReportOf: the same `:.1f` formatting is left out.
- Graphviz, plotly and matplotlib rendering, `format_node_label`, `print_taxonomy` and Rich trees are display code and are not modelled.
- `ocx_coverage_report`, `model_coverage_report`, schema download and transformation (`transform_schema_from_url`, `get_global_element_from_name`), `app.py`, `ai_cli.py` and `triangle_tests.py` depend on external libraries or services and are not modelled. The global-element lookup is a map parameter.
- OcxTaxonomy.BuildChild: the `_build_taxonomy_recursive` recursion is modelled one step at a time. The source has no visited set and recurses until the interpreter's limit on a recursive schema.
- `LxmlElement.namespace_prefix` is represented by the child's `typePrefix` field.
- `is_transformed` checks only log, and are not modelled.
- Mappings.EnumValid: the enumeration is modelled as the set of strings in its `Value` column. The source tests membership in `.to_dict().get('Value', [])`, a dict keyed by the table's index labels, and how that table is indexed is decided by the schema transformer, which is not part of this model.
- TaxonomyModel.Cell: a numeric cell is given by the text `str()` prints for it and whether it is zero. Python's float formatting is not modelled.
- TaxonomyChart.DimensionNodes: a record without `parent_id` is reported as KeyError before any recursion. Python meets that record only when its loop reaches it, so a parent cycle met earlier raises RecursionError instead.
- TaxonomyChart.GetNodeDepth: Python's `not node` also ends the walk at an empty record. Every loaded record carries its `attributes` entry, so the model has no empty record, and a record without `parent_id` raises KeyError.
- Mappings.GetAllDescendants: no duplicates and the dictionary order of the children are stated. That each child is followed directly by its own subtree (pre-order contiguity) is the shape of the definition and is not stated as a separate property.
- CaseConversion.SplitWordsFrom: states where a separator may go (before a capitalised word), not which word starts receive one. A match consumes the character before the next word, so a word start right after a match is skipped, and the set of split word starts depends on the scan.
- CaseConversion.CamelToSnake: the first substitution is characterised as in `SplitWordsFrom`. The second is characterised exactly (`SplitBoundariesExact`), and two inputs are computed exactly.
- Python's recursion-depth limit is not modelled. `get_all_descendants` (compit/taxonomy/mappings.py:17-24), `add_parents`/`add_children` (compit/taxonomy/load_taxonomy.py:119-134), `has_cycle` (compit/taxonomy/validation.py:95-106) and `get_node_depth` (compit/taxonomy/taxonomy.py:82-87) recurse once per level, so Python raises RecursionError on an acyclic chain about 1000 levels deep; in the model an acyclic chain of any depth finishes.
- Case conversion and `lower`/`capitalize` act on ASCII letters only. Python's Unicode case mapping of other letters is not modelled.
- Strings.Strip: removes the ASCII characters for which `str.isspace()` holds. Python also strips Unicode spaces such as U+00A0 and U+2028, which are not modelled.
- The per-dimension counts of `end_to_end_coverage_report` use the intended classification, `Mappings.Classify`. The double count of the code as written is recorded under Findings.

## Findings

| source | as written | input that shows it | evidently intended | confidence | as-written member | corrected member |
|---|---|---|---|---|---|---|
| compit/taxonomy/mappings.py:66-91 | a node whose OCX mapping is a substitution group is appended inside the substitution branch (79-82) and again after the if/elif chain (88-91) | a descendant mapping to a taxonomy node whose OCX mapping is `ocx:Base=[ocx:A]`, with `{ns}A` a known element: it is counted twice as mapped, giving "Total items" 2 for one node | one item per descendant, so that "Total items" is the number of descendants | high; not executed | Mappings.AsWrittenCountsSubstitutionTwice | Mappings.Classify |

=== FILE: bezier.dfy ===
/** Tensor-product Bezier patches over exact reals: the Bernstein basis and
    the evaluation of one patch of control points at local (u, v). */
module Bezier {

  datatype Vec3 = Vec3(x: real, y: real, z: real)

  const Origin := Vec3(0.0, 0.0, 0.0)

  function Add(a: Vec3, b: Vec3): Vec3 {
    Vec3(a.x + b.x, a.y + b.y, a.z + b.z)
  }

  function Scale(w: real, a: Vec3): Vec3 {
    Vec3(w * a.x, w * a.y, w * a.z)
  }

  /** `math.comb(n, i)`: the number of i-subsets of n things, 0 when i > n. */
  function Binomial(n: nat, i: nat): nat
  {
    if i == 0 then 1
    else if n == 0 then 0
    else Binomial(n - 1, i - 1) + Binomial(n - 1, i)
  }

  function Pow(t: real, k: nat): real
  {
    if k == 0 then 1.0 else t * Pow(t, k - 1)
  }

  /** `bernstein_poly(i, n, t)` = C(n, i) t^i (1 - t)^(n - i). */
  function Bernstein(i: nat, n: nat, t: real): real
    requires i <= n
  {
    Binomial(n, i) as real * Pow(t, i) * Pow(1.0 - t, n - i)
  }

  /** The basis weights B(0, n, t) .. B(n, n, t) of one patch direction. */
  function Weights(n: nat, t: real): (ws: seq<real>)
    ensures |ws| == n + 1
  {
    seq(n + 1, i requires 0 <= i <= n => Bernstein(i, n, t))
  }

  /** The weighted sum of points, what `np.tensordot` contracts over one axis. */
  function Combine(ws: seq<real>, ps: seq<Vec3>): Vec3
    requires |ws| == |ps|
  {
    if |ws| == 0 then Origin
    else Add(Scale(ws[0], ps[0]), Combine(ws[1..], ps[1..]))
  }

  /** A non-empty rectangular grid of control points. */
  ghost predicate IsBlock(ctrl: seq<seq<Vec3>>) {
    |ctrl| > 0 && |ctrl[0]| > 0 &&
    forall i :: 0 <= i < |ctrl| ==> |ctrl[i]| == |ctrl[0]|
  }

  /** `make_bezier_surface(ctrl)(u, v)`: contract the v-weights against each
      row of control points, then the u-weights against the row results. */
  function SurfaceEval(ctrl: seq<seq<Vec3>>, u: real, v: real): Vec3
    requires IsBlock(ctrl)
  {
    var m := |ctrl| - 1;
    var n := |ctrl[0]| - 1;
    var rows := seq(m + 1, i requires 0 <= i <= m => Combine(Weights(n, v), ctrl[i]));
    Combine(Weights(m, u), rows)
  }

  /** The 1-D Bezier curve of a control polygon. */
  function CurveEval(ps: seq<Vec3>, t: real): Vec3
    requires |ps| > 0
  {
    Combine(Weights(|ps| - 1, t), ps)
  }

  lemma {:induction false} BinomialDiagonal(n: nat)
    ensures Binomial(n, n) == 1
  {
    if n > 0 {
      BinomialDiagonal(n - 1);
      assert Binomial(n - 1, n) == 0 by { BinomialAbove(n - 1, n); }
    }
  }

  lemma {:induction false} BinomialAbove(n: nat, i: nat)
    requires i > n
    ensures Binomial(n, i) == 0
  {
    if n > 0 {
      BinomialAbove(n - 1, i - 1);
      BinomialAbove(n - 1, i);
    }
  }

  lemma {:induction false} PowOne(k: nat)
    ensures Pow(1.0, k) == 1.0
  {
    if k > 0 {
      PowOne(k - 1);
    }
  }

  /** At t = 0 only the first basis function is non-zero, and it is 1;
      at t = 1 only the last one is. */
  lemma BernsteinEnds(i: nat, n: nat)
    requires i <= n
    ensures Bernstein(i, n, 0.0) == if i == 0 then 1.0 else 0.0
    ensures Bernstein(i, n, 1.0) == if i == n then 1.0 else 0.0
  {
    PowOne(i);
    PowOne(n - i);
    assert 1.0 - 1.0 == 0.0 && 1.0 - 0.0 == 1.0;
    if i == n {
      BinomialDiagonal(n);
    }
  }

  /** A weight vector that is 1 at `k` and 0 elsewhere selects `ps[k]`. */
  lemma {:induction false} CombineUnit(ws: seq<real>, ps: seq<Vec3>, k: nat)
    requires |ws| == |ps| && k < |ws|
    requires ws[k] == 1.0
    requires forall i :: 0 <= i < |ws| && i != k ==> ws[i] == 0.0
    ensures Combine(ws, ps) == ps[k]
  {
    if k == 0 {
      CombineZero(ws[1..], ps[1..]);
    } else {
      CombineUnit(ws[1..], ps[1..], k - 1);
    }
  }

  lemma {:induction false} CombineZero(ws: seq<real>, ps: seq<Vec3>)
    requires |ws| == |ps|
    requires forall i :: 0 <= i < |ws| ==> ws[i] == 0.0
    ensures Combine(ws, ps) == Origin
  {
    if |ws| > 0 {
      CombineZero(ws[1..], ps[1..]);
    }
  }

  /** Weights(n, 0) selects the first control point, Weights(n, 1) the last. */
  lemma SelectEnds(n: nat, ps: seq<Vec3>)
    requires |ps| == n + 1
    ensures Combine(Weights(n, 0.0), ps) == ps[0]
    ensures Combine(Weights(n, 1.0), ps) == ps[n]
  {
    var w0 := Weights(n, 0.0);
    var w1 := Weights(n, 1.0);
    forall i | 0 <= i <= n
      ensures w0[i] == (if i == 0 then 1.0 else 0.0)
      ensures w1[i] == (if i == n then 1.0 else 0.0)
    {
      BernsteinEnds(i, n);
    }
    CombineUnit(w0, ps, 0);
    CombineUnit(w1, ps, n);
  }

  /** Corner interpolation: a patch passes through its four corner control points. */
  lemma PatchCorners(ctrl: seq<seq<Vec3>>)
    requires IsBlock(ctrl)
    ensures SurfaceEval(ctrl, 0.0, 0.0) == ctrl[0][0]
    ensures SurfaceEval(ctrl, 1.0, 0.0) == ctrl[|ctrl| - 1][0]
    ensures SurfaceEval(ctrl, 0.0, 1.0) == ctrl[0][|ctrl[0]| - 1]
    ensures SurfaceEval(ctrl, 1.0, 1.0) == ctrl[|ctrl| - 1][|ctrl[0]| - 1]
  {
    var m := |ctrl| - 1;
    var n := |ctrl[0]| - 1;
    EdgeAtV(ctrl, 0.0);
    EdgeAtV(ctrl, 1.0);
    var col0 := seq(|ctrl|, i requires 0 <= i < |ctrl| => ctrl[i][0]);
    var coln := seq(|ctrl|, i requires 0 <= i < |ctrl| => ctrl[i][|ctrl[0]| - 1]);
    SelectEnds(m, col0);
    SelectEnds(m, coln);
  }

  /** The edges v = 0 and v = 1 of a patch are the Bezier curves of its first
      and last control columns. */
  lemma EdgeAtV(ctrl: seq<seq<Vec3>>, u: real)
    requires IsBlock(ctrl)
    ensures SurfaceEval(ctrl, u, 0.0) ==
            CurveEval(seq(|ctrl|, i requires 0 <= i < |ctrl| => ctrl[i][0]), u)
    ensures SurfaceEval(ctrl, u, 1.0) ==
            CurveEval(seq(|ctrl|, i requires 0 <= i < |ctrl| => ctrl[i][|ctrl[0]| - 1]), u)
  {
    var m := |ctrl| - 1;
    var n := |ctrl[0]| - 1;
    var rows0 := seq(m + 1, i requires 0 <= i <= m => Combine(Weights(n, 0.0), ctrl[i]));
    var rows1 := seq(m + 1, i requires 0 <= i <= m => Combine(Weights(n, 1.0), ctrl[i]));
    forall i | 0 <= i <= m
      ensures rows0[i] == ctrl[i][0] && rows1[i] == ctrl[i][n]
    {
      SelectEnds(n, ctrl[i]);
    }
    assert rows0 == seq(|ctrl|, i requires 0 <= i < |ctrl| => ctrl[i][0]);
    assert rows1 == seq(|ctrl|, i requires 0 <= i < |ctrl| => ctrl[i][n]);
  }
}

=== FILE: case_conversion.dfy ===
/** `camel_to_snake` and `camel_to_sentence` (taxonomy_common.py): two
    regular-expression substitutions that put a separator at the camel-case
    word boundaries, followed by `lower()` or `capitalize()`.

    Both substitutions scan left to right and never overlap their matches,
    as `re.sub` does; each is written as a recursion over the scan position.
    Letters are the ASCII ones, which is what the `[A-Z]`, `[a-z]` and `[0-9]`
    classes of the patterns denote. */
module CaseConversion {
  import opened Strings

  /** `r` is `s` with some copies of `sep` inserted and nothing else changed. */
  predicate Inserts(s: string, r: string, sep: char)
    decreases |r|
  {
    if r == [] then s == []
    else (s != [] && r[0] == s[0] && Inserts(s[1..], r[1..], sep)) || (r[0] == sep && Inserts(s, r[1..], sep))
  }

  /** A character that is neither a letter nor a digit: `_` and ` `. */
  predicate Separator(c: char) {
    !IsLower(c) && !IsUpper(c) && !IsDigit(c)
  }

  /** `s` with every `sep` removed. */
  function Remove(s: string, sep: char): (r: string)
    ensures sep !in r
    ensures forall c :: c in r ==> c in s
    decreases |s|
  {
    if s == [] then [] else (if s[0] == sep then [] else [s[0]]) + Remove(s[1..], sep)
  }

  lemma {:induction false} InsertsLength(s: string, r: string, sep: char)
    requires Inserts(s, r, sep)
    ensures |r| >= |s|
    decreases |r|
  {
    if r != [] {
      if s != [] && r[0] == s[0] && Inserts(s[1..], r[1..], sep) {
        InsertsLength(s[1..], r[1..], sep);
      } else {
        InsertsLength(s, r[1..], sep);
      }
    }
  }

  /** Removing the separators undoes the insertion. */
  lemma {:induction false} InsertsRemove(s: string, r: string, sep: char)
    requires Inserts(s, r, sep)
    ensures Remove(r, sep) == Remove(s, sep)
    decreases |r|
  {
    if r != [] {
      if s != [] && r[0] == s[0] && Inserts(s[1..], r[1..], sep) {
        InsertsRemove(s[1..], r[1..], sep);
      } else {
        InsertsRemove(s, r[1..], sep);
      }
    }
  }

  lemma {:induction false} InsertsLower(s: string, r: string, sep: char)
    requires Inserts(s, r, sep)
    ensures Inserts(Lower(s), Lower(r), ToLower(sep))
    decreases |r|
  {
    if r != [] {
      assert Lower(r)[1..] == Lower(r[1..]);
      if s != [] && r[0] == s[0] && Inserts(s[1..], r[1..], sep) {
        assert Lower(s)[1..] == Lower(s[1..]);
        InsertsLower(s[1..], r[1..], sep);
      } else {
        InsertsLower(s, r[1..], sep);
      }
    }
  }

  lemma {:induction false} InsertsPrefix(p: string, s: string, r: string, sep: char)
    requires Inserts(s, r, sep)
    ensures Inserts(p + s, p + r, sep)
    decreases |p|
  {
    if p != [] {
      InsertsPrefix(p[1..], s, r, sep);
      assert (p + s)[1..] == p[1..] + s;
      assert (p + r)[1..] == p[1..] + r;
      assert (p + s)[0] == p[0] == (p + r)[0];
      assert |p + r| > 0 && |p + s| > 0 && Inserts((p + s)[1..], (p + r)[1..], sep);
    } else {
      assert p + s == s && p + r == r;
    }
  }

  /** Copying `s[i]`, a separator, then `s[i+1..j]` and whatever `rest` the
      scan produces from `j` on. */
  lemma InsertsSplice(s: string, i: nat, j: nat, rest: string, sep: char)
    requires i < j <= |s|
    requires Inserts(s[j..], rest, sep)
    ensures Inserts(s[i..], [s[i], sep] + s[i + 1..j] + rest, sep)
  {
    InsertsPrefix(s[i + 1..j], s[j..], rest, sep);
    assert s[i + 1..j] + s[j..] == s[i + 1..];
    var t := [sep] + (s[i + 1..j] + rest);
    assert t[1..] == s[i + 1..j] + rest;
    assert Inserts(s[i + 1..], t, sep);
    InsertsPrefix([s[i]], s[i + 1..], t, sep);
    assert [s[i]] + s[i + 1..] == s[i..];
    assert [s[i]] + t == [s[i], sep] + s[i + 1..j] + rest;
  }

  /** Copying `s[i]` and whatever `rest` the scan produces from `i + 1` on. */
  lemma InsertsCopy(s: string, i: nat, rest: string, sep: char)
    requires i < |s|
    requires Inserts(s[i + 1..], rest, sep)
    ensures Inserts(s[i..], [s[i]] + rest, sep)
  {
    InsertsPrefix([s[i]], s[i + 1..], rest, sep);
    assert [s[i]] + s[i + 1..] == s[i..];
  }

  /** The rest of the input starts with a capitalised word: an upper-case
      letter followed by a lower-case one. */
  predicate WordAhead(s: string) {
    |s| >= 2 && IsUpper(s[0]) && IsLower(s[1])
  }

  /** Like `Inserts`, but each `sep` stands right before a capitalised word. */
  predicate InsertsBeforeWords(s: string, r: string, sep: char)
    decreases |r|
  {
    if r == [] then s == []
    else
      || (s != [] && r[0] == s[0] && InsertsBeforeWords(s[1..], r[1..], sep))
      || (r[0] == sep && WordAhead(s) && InsertsBeforeWords(s, r[1..], sep))
  }

  lemma {:induction false} InsertsBeforeWordsAny(s: string, r: string, sep: char)
    requires InsertsBeforeWords(s, r, sep)
    ensures Inserts(s, r, sep)
    decreases |r|
  {
    if r != [] {
      if s != [] && r[0] == s[0] && InsertsBeforeWords(s[1..], r[1..], sep) {
        InsertsBeforeWordsAny(s[1..], r[1..], sep);
      } else {
        InsertsBeforeWordsAny(s, r[1..], sep);
      }
    }
  }

  lemma {:induction false} InsertsBeforeWordsPrefix(p: string, s: string, r: string, sep: char)
    requires InsertsBeforeWords(s, r, sep)
    ensures InsertsBeforeWords(p + s, p + r, sep)
    decreases |p|
  {
    if p != [] {
      InsertsBeforeWordsPrefix(p[1..], s, r, sep);
      assert (p + s)[1..] == p[1..] + s;
      assert (p + r)[1..] == p[1..] + r;
      assert (p + s)[0] == p[0] == (p + r)[0];
    } else {
      assert p + s == s && p + r == r;
    }
  }

  /** The first substitution's step: copy `s[i]`, put `sep` before the word at
      `i + 1`, copy the word up to `j`, then `rest`. */
  lemma WordSplice(s: string, i: nat, j: nat, rest: string, sep: char)
    requires i + 2 < |s| && IsUpper(s[i + 1]) && IsLower(s[i + 2]) && i + 2 < j <= |s|
    requires InsertsBeforeWords(s[j..], rest, sep)
    ensures InsertsBeforeWords(s[i..], [s[i], sep] + s[i + 1..j] + rest, sep)
  {
    InsertsBeforeWordsPrefix(s[i + 1..j], s[j..], rest, sep);
    assert s[i + 1..j] + s[j..] == s[i + 1..];
    var t := [sep] + (s[i + 1..j] + rest);
    assert t[1..] == s[i + 1..j] + rest;
    assert WordAhead(s[i + 1..]);
    assert InsertsBeforeWords(s[i + 1..], t, sep);
    InsertsBeforeWordsPrefix([s[i]], s[i + 1..], t, sep);
    assert [s[i]] + s[i + 1..] == s[i..];
    assert [s[i]] + t == [s[i], sep] + s[i + 1..j] + rest;
  }

  lemma WordCopy(s: string, i: nat, rest: string, sep: char)
    requires i < |s|
    requires InsertsBeforeWords(s[i + 1..], rest, sep)
    ensures InsertsBeforeWords(s[i..], [s[i]] + rest, sep)
  {
    InsertsBeforeWordsPrefix([s[i]], s[i + 1..], rest, sep);
    assert [s[i]] + s[i + 1..] == s[i..];
  }

  /** The end of the run of lower-case letters starting at `j`: the greedy
      `[a-z]+`. */
  function LowerRunEnd(s: string, j: nat): (r: nat)
    requires j <= |s|
    ensures j <= r <= |s|
    ensures forall k :: j <= k < r ==> IsLower(s[k])
    ensures r < |s| ==> !IsLower(s[r])
    decreases |s| - j
  {
    if j < |s| && IsLower(s[j]) then LowerRunEnd(s, j + 1) else j
  }

  /** `(.)([A-Z][a-z]+)` matches at `i`. */
  predicate WordStartAt(s: string, i: nat) {
    i + 2 < |s| && s[i] != '\n' && IsUpper(s[i + 1]) && IsLower(s[i + 2])
  }

  /** The substitution of `(.)([A-Z][a-z]+)` by `\1 sep \2`, scanning from
      position `i`. `.` matches any character but a newline. */
  function SplitWordsFrom(s: string, i: nat, sep: char): (r: string)
    requires i <= |s|
    ensures InsertsBeforeWords(s[i..], r, sep)
    ensures i < |s| ==> r != [] && r[0] == s[i]
    ensures (forall k :: i <= k < |s| ==> !IsUpper(s[k])) ==> r == s[i..]
    decreases |s| - i
  {
    if i == |s| then []
    else if WordStartAt(s, i) then
      var j := LowerRunEnd(s, i + 3);
      var rest := SplitWordsFrom(s, j, sep);
      WordSplice(s, i, j, rest, sep);
      [s[i], sep] + s[i + 1..j] + rest
    else
      var rest := SplitWordsFrom(s, i + 1, sep);
      WordCopy(s, i, rest, sep);
      assert (forall k :: i <= k < |s| ==> !IsUpper(s[k])) ==> [s[i]] + s[i + 1..] == s[i..];
      [s[i]] + rest
  }

  /** A lower-case letter or digit directly followed by an upper-case letter:
      what `([a-z0-9])([A-Z])` matches. */
  predicate Boundary(s: string, k: int) {
    0 <= k && k + 1 < |s| && (IsLower(s[k]) || IsDigit(s[k])) && IsUpper(s[k + 1])
  }

  /** The substitution of `([a-z0-9])([A-Z])` by `\1 sep \2`, scanning from
      position `i`. */
  function SplitBoundariesFrom(s: string, i: nat, sep: char): (r: string)
    requires i <= |s|
    requires Separator(sep)
    ensures Inserts(s[i..], r, sep)
    ensures i < |s| ==> r != [] && r[0] == s[i]
    ensures forall k :: !Boundary(r, k)
    ensures (forall k :: i <= k < |s| ==> !IsUpper(s[k])) ==> r == s[i..]
    decreases |s| - i
  {
    if i == |s| then []
    else if Boundary(s, i) then
      var rest := SplitBoundariesFrom(s, i + 2, sep);
      var r := [s[i], sep] + s[i + 1..i + 2] + rest;
      InsertsSplice(s, i, i + 2, rest, sep);
      assert !Boundary(r, 0) && !Boundary(r, 1) && !Boundary(r, 2);
      assert forall k :: 3 <= k ==> (Boundary(r, k) <==> Boundary(rest, k - 3));
      r
    else
      var rest := SplitBoundariesFrom(s, i + 1, sep);
      var r := [s[i]] + rest;
      InsertsCopy(s, i, rest, sep);
      assert !Boundary(r, 0);
      assert forall k :: 1 <= k ==> (Boundary(r, k) <==> Boundary(rest, k - 1));
      r
  }

  /** A reference for the second substitution, position by position: `sep`
      after every boundary. Two boundaries never share a character, so the
      left-to-right scan finds every one of them. */
  function SepAtBoundaries(s: string, sep: char): string
    decreases |s|
  {
    if |s| < 2 then s
    else [s[0]] + (if Boundary(s, 0) then [sep] else []) + SepAtBoundaries(s[1..], sep)
  }

  /** The scan of the second substitution separates exactly the boundaries. */
  lemma {:induction false} SplitBoundariesExact(s: string, i: nat, sep: char)
    requires i <= |s| && Separator(sep)
    ensures SplitBoundariesFrom(s, i, sep) == SepAtBoundaries(s[i..], sep)
    decreases |s| - i
  {
    if i < |s| {
      var t := s[i..];
      assert t[1..] == s[i + 1..];
      assert Boundary(t, 0) == Boundary(s, i);
      if Boundary(s, i) {
        SplitBoundariesExact(s, i + 2, sep);
        var u := s[i + 1..];
        assert u[1..] == s[i + 2..];
        assert !Boundary(u, 0);
        assert SepAtBoundaries(u, sep) == [s[i + 1]] + SepAtBoundaries(s[i + 2..], sep);
      } else {
        SplitBoundariesExact(s, i + 1, sep);
        if |t| < 2 {
          assert s[i + 1..] == [];
        }
      }
    }
  }

  /** Both substitutions with separator `sep`. */
  function Separate(name: string, sep: char): (r: string)
    requires Separator(sep)
    ensures Inserts(name, r, sep)
    ensures name != [] ==> r != [] && r[0] == name[0]
    ensures forall k :: !Boundary(r, k)
    ensures exists s1 :: InsertsBeforeWords(name, s1, sep) && r == SepAtBoundaries(s1, sep)
  {
    var s1 := SplitWordsFrom(name, 0, sep);
    var r := SplitBoundariesFrom(s1, 0, sep);
    assert name[0..] == name && s1[0..] == s1;
    InsertsBeforeWordsAny(name, s1, sep);
    InsertsTrans(name, s1, r, sep);
    SplitBoundariesExact(s1, 0, sep);
    r
  }

  lemma {:induction false} InsertsTrans(a: string, b: string, c: string, sep: char)
    requires Inserts(a, b, sep) && Inserts(b, c, sep)
    ensures Inserts(a, c, sep)
    decreases |c|
  {
    if c != [] {
      if b != [] && c[0] == b[0] && Inserts(b[1..], c[1..], sep) {
        if a != [] && b[0] == a[0] && Inserts(a[1..], b[1..], sep) {
          InsertsTrans(a[1..], b[1..], c[1..], sep);
        } else {
          InsertsTrans(a, b[1..], c[1..], sep);
        }
      } else {
        InsertsTrans(a, b, c[1..], sep);
      }
    }
  }

  /** A name without upper-case letters goes through both substitutions
      unchanged: neither pattern can match. */
  lemma SeparateNoUpper(name: string, sep: char)
    requires Separator(sep)
    requires NoUpper(name)
    ensures Separate(name, sep) == name
  {
    assert name[0..] == name;
    var s1 := SplitWordsFrom(name, 0, sep);
    assert s1 == name;
    assert s1[0..] == s1;
  }

  /** `camel_to_snake(name)`. */
  function CamelToSnake(name: string): (r: string)
    ensures NoUpper(r)
    ensures Inserts(Lower(name), r, '_')
    ensures |r| >= |name|
    ensures exists s :: Inserts(name, s, '_') && (forall k :: !Boundary(s, k)) && r == Lower(s)
    ensures exists s1 :: InsertsBeforeWords(name, s1, '_') && r == Lower(SepAtBoundaries(s1, '_'))
  {
    var s := Separate(name, '_');
    InsertsLower(name, s, '_');
    InsertsLength(Lower(name), Lower(s), '_');
    Lower(s)
  }

  /** A name with no upper-case letter is returned unchanged. */
  lemma CamelToSnakeNoUpper(name: string)
    requires NoUpper(name)
    ensures CamelToSnake(name) == name
  {
    SeparateNoUpper(name, '_');
  }

  /** Converting twice is converting once. */
  lemma CamelToSnakeIdempotent(name: string)
    ensures CamelToSnake(CamelToSnake(name)) == CamelToSnake(name)
  {
    CamelToSnakeNoUpper(CamelToSnake(name));
  }

  /** Dropping the underscores from the result gives the lower-cased name
      without its own underscores. */
  lemma CamelToSnakeRemove(name: string)
    ensures Remove(CamelToSnake(name), '_') == Remove(Lower(name), '_')
  {
    InsertsRemove(Lower(name), CamelToSnake(name), '_');
  }

  /** `camel_to_sentence(name)`. */
  function CamelToSentence(name: string): (r: string)
    ensures name != [] ==> r != [] && r[0] == ToUpper(name[0])
    ensures forall k :: 1 <= k < |r| ==> !IsUpper(r[k])
    ensures Inserts(Lower(name), Lower(r), ' ')
    ensures |r| >= |name|
    ensures exists s :: Inserts(name, s, ' ') && (forall k :: !Boundary(s, k)) && r == Capitalize(s)
    ensures exists s1 :: InsertsBeforeWords(name, s1, ' ') && r == Capitalize(SepAtBoundaries(s1, ' '))
  {
    var s := Separate(name, ' ');
    var r := Capitalize(s);
    InsertsLower(name, s, ' ');
    assert Lower(r) == Lower(s) by {
      if s != [] {
        assert ToLower(ToUpper(s[0])) == ToLower(s[0]);
      }
    }
    InsertsLength(name, s, ' ');
    r
  }

  /** An acronym followed by a word: the word is split off, the acronym kept. */
  /** The first substitution copies a stretch where no match starts. */
  lemma {:induction false} WordsCopyRun(s: string, i: nat, j: nat, sep: char)
    requires i <= j <= |s|
    requires forall k :: i <= k < j ==> !WordStartAt(s, k)
    ensures SplitWordsFrom(s, i, sep) == s[i..j] + SplitWordsFrom(s, j, sep)
    decreases j - i
  {
    if i < j {
      WordsCopyStep(s, i, sep);
      WordsCopyRun(s, i + 1, j, sep);
      PrependAssoc(s[i], s[i + 1..j], SplitWordsFrom(s, j, sep));
      assert [s[i]] + s[i + 1..j] == s[i..j];
    }
  }

  lemma WordsEnd(s: string, sep: char)
    ensures SplitWordsFrom(s, |s|, sep) == []
  {
  }

  lemma PrependAssoc(c: char, a: string, b: string)
    ensures [c] + (a + b) == ([c] + a) + b
  {
  }

  /** One step of the first substitution's scan where no word starts. */
  lemma WordsCopyStep(s: string, i: nat, sep: char)
    requires i < |s| && !WordStartAt(s, i)
    ensures SplitWordsFrom(s, i, sep) == [s[i]] + SplitWordsFrom(s, i + 1, sep)
  {
  }

  /** One step of the first substitution's scan where a word starts. */
  lemma WordsSplitStep(s: string, i: nat, j: nat, sep: char)
    requires WordStartAt(s, i) && j == LowerRunEnd(s, i + 3)
    ensures SplitWordsFrom(s, i, sep) == [s[i], sep] + s[i + 1..j] + SplitWordsFrom(s, j, sep)
  {
  }

  lemma CamelToSnakeAcronym()
    ensures CamelToSnake("HTTPServer") == "http_server"
  {
    AcronymWords("HTTPServer");
    AcronymNoBoundary();
    NoBoundaryFixed("HTTP_Server", '_');
    SplitBoundariesExact("HTTP_Server", 0, '_');
    assert "HTTP_Server"[0..] == "HTTP_Server";
    AcronymLower();
  }

  lemma AcronymWords(n: string)
    requires n == "HTTPServer"
    ensures SplitWordsFrom(n, 0, '_') == "HTTP_Server"
  {
    assert LowerRunEnd(n, 6) == 10;
    WordsSplitStep(n, 3, 10, '_');
    WordsEnd(n, '_');
    var t := SplitWordsFrom(n, 3, '_');
    assert t == "P_Server";
    assert !WordStartAt(n, 0) && !WordStartAt(n, 1) && !WordStartAt(n, 2);
    WordsCopyRun(n, 0, 3, '_');
    assert n[0..3] + t == "HTTP_Server";
  }

  lemma AcronymNoBoundary()
    ensures forall k :: !Boundary("HTTP_Server", k)
  {
    var w := "HTTP_Server";
    forall k | 0 <= k
      ensures !Boundary(w, k)
    {
      if k >= 5 {
        assert k == 5 || k + 1 > 5;
      }
    }
  }

  lemma AcronymLower()
    ensures Lower("HTTP_Server") == "http_server"
  {
    var l := Lower("HTTP_Server");
    assert l[0] == 'h' && l[1] == 't' && l[2] == 't' && l[3] == 'p' && l[5] == 's';
  }

  lemma CamelToSnakeCamelCase()
    ensures CamelToSnake("camelCase") == "camel_case"
  {
    CamelCaseWords("camelCase");
    CamelCaseNoBoundary();
    NoBoundaryFixed("camel_Case", '_');
    SplitBoundariesExact("camel_Case", 0, '_');
    assert "camel_Case"[0..] == "camel_Case";
    CamelCaseLower();
  }

  lemma CamelCaseWords(n: string)
    requires n == "camelCase"
    ensures SplitWordsFrom(n, 0, '_') == "camel_Case"
  {
    assert LowerRunEnd(n, 7) == 9;
    WordsSplitStep(n, 4, 9, '_');
    WordsEnd(n, '_');
    var t := SplitWordsFrom(n, 4, '_');
    assert t == "l_Case";
    assert !WordStartAt(n, 0) && !WordStartAt(n, 1) && !WordStartAt(n, 2) && !WordStartAt(n, 3);
    WordsCopyRun(n, 0, 4, '_');
    assert n[0..4] + t == "camel_Case";
  }

  lemma CamelCaseNoBoundary()
    ensures forall k :: !Boundary("camel_Case", k)
  {
    var w := "camel_Case";
    forall k | 0 <= k
      ensures !Boundary(w, k)
    {
      if k < 5 {
        assert k + 1 < 5 || k + 1 == 5;
      }
    }
  }

  lemma CamelCaseLower()
    ensures Lower("camel_Case") == "camel_case"
  {
    var l := Lower("camel_Case");
    assert l[6] == 'c';
  }

  lemma LowerConcat(a: string, b: string)
    ensures Lower(a + b) == Lower(a) + Lower(b)
  {
    assert forall i :: 0 <= i < |a + b| ==> Lower(a + b)[i] == (Lower(a) + Lower(b))[i];
  }

  /** Without boundaries the second substitution changes nothing. */
  lemma {:induction false} NoBoundaryFixed(s: string, sep: char)
    requires forall k :: !Boundary(s, k)
    ensures SepAtBoundaries(s, sep) == s
    decreases |s|
  {
    if |s| >= 2 {
      assert !Boundary(s, 0);
      forall k
        ensures !Boundary(s[1..], k)
      {
        assert Boundary(s[1..], k) ==> Boundary(s, k + 1);
      }
      NoBoundaryFixed(s[1..], sep);
      assert s == [s[0]] + s[1..];
    }
  }
}

=== FILE: chains.dfy ===
/** Parent chains. A taxonomy stores, for each node, the ID of its parent;
    `pm` holds the parent edges that exist (a root, or a node whose parent
    field is empty, has no entry). `Anc(pm, n, k)` is the node reached from
    `n` after `k` parent steps, or `None` once the chain has left `pm`. */
module Chains {
  import opened Wrappers

  function Anc(pm: map<string, string>, n: string, k: nat): Option<string>
  {
    if k == 0 then Some(n)
    else match Anc(pm, n, k - 1)
      case None => None
      case Some(x) => if x in pm then Some(pm[x]) else None
  }

  /** The chain from `n` never ends: it goes round a cycle. */
  ghost predicate Cyclic(pm: map<string, string>, n: string) {
    forall k: nat :: Anc(pm, n, k).Some?
  }

  /** No node is its own proper ancestor. */
  ghost predicate Acyclic(pm: map<string, string>) {
    forall x: string, k: nat :: 1 <= k ==> Anc(pm, x, k) != Some(x)
  }

  /** Every node of `path` was visited strictly before step `i`. */
  ghost predicate VisitedBefore(pm: map<string, string>, n: string, path: set<string>, i: nat) {
    forall y :: y in path ==> exists j: nat :: j < i && Anc(pm, n, j) == Some(y)
  }

  /** `path` holds exactly the first `i` nodes of the chain from `n0`. */
  ghost predicate ChainPrefix(pm: map<string, string>, n0: string, path: set<string>, i: nat) {
    && VisitedBefore(pm, n0, path, i)
    && forall j: nat :: j < i ==> Anc(pm, n0, j).Some? && Anc(pm, n0, j).value in path
  }

  lemma AncStep(pm: map<string, string>, n: string, i: nat, x: string)
    requires Anc(pm, n, i) == Some(x)
    ensures x in pm ==> Anc(pm, n, i + 1) == Some(pm[x])
    ensures x !in pm ==> Anc(pm, n, i + 1) == None
  {
  }

  /** Once the chain has ended it stays ended. */
  lemma {:induction false} AncAbsorbing(pm: map<string, string>, n: string, i: nat, j: nat)
    requires i <= j && Anc(pm, n, i) == None
    ensures Anc(pm, n, j) == None
    decreases j - i
  {
    if i < j {
      AncAbsorbing(pm, n, i, j - 1);
    }
  }

  /** Walking `i + m` steps from `n` is walking `m` steps from the node reached after `i`. */
  lemma {:induction false} AncCompose(pm: map<string, string>, n: string, i: nat, m: nat, y: string)
    requires Anc(pm, n, i) == Some(y)
    ensures Anc(pm, n, i + m) == Anc(pm, y, m)
    decreases m
  {
    if m > 0 {
      AncCompose(pm, n, i, m - 1, y);
    }
  }

  /** A chain that visits the same node twice never ends. */
  lemma RevisitCyclic(pm: map<string, string>, n: string, i: nat, j: nat)
    requires i < j && Anc(pm, n, i).Some? && Anc(pm, n, i) == Anc(pm, n, j)
    ensures Cyclic(pm, n)
  {
    forall k: nat
      ensures Anc(pm, n, k).Some?
    {
      RevisitSome(pm, n, i, j, k);
    }
  }

  lemma {:induction false} RevisitSome(pm: map<string, string>, n: string, i: nat, j: nat, k: nat)
    requires i < j && Anc(pm, n, i).Some? && Anc(pm, n, i) == Anc(pm, n, j)
    ensures Anc(pm, n, k).Some?
    decreases k
  {
    if k <= j {
      if Anc(pm, n, k).None? {
        AncAbsorbing(pm, n, k, j);
      }
    } else {
      var y := Anc(pm, n, i).value;
      var k' := k - (j - i);
      AncCompose(pm, n, j, k - j, y);
      AncCompose(pm, n, i, k - j, y);
      assert k' == i + (k - j);
      RevisitSome(pm, n, i, j, k');
    }
  }

  /** A chain that ends is not cyclic. */
  lemma EndedNotCyclic(pm: map<string, string>, n: string, k: nat)
    requires Anc(pm, n, k).None?
    ensures !Cyclic(pm, n)
  {
  }

  /** In an acyclic parent map no chain is cyclic. */
  lemma AcyclicNotCyclic(pm: map<string, string>, n: string)
    requires Acyclic(pm)
    ensures !Cyclic(pm, n)
  {
    if Cyclic(pm, n) {
      CyclicRevisits(pm, n);
    }
  }

  /** A never-ending chain eventually revisits a node: pigeonhole on the
      finitely many keys of `pm`. */
  lemma CyclicRevisits(pm: map<string, string>, n: string)
    requires Cyclic(pm, n)
    ensures exists x: string, k: nat :: 1 <= k && Anc(pm, x, k) == Some(x)
  {
    var i, j := Pigeonhole(pm, n, 0, {});
    var y := Anc(pm, n, i).value;
    AncCompose(pm, n, i, j - i, y);
    assert Anc(pm, y, j - i) == Some(y);
  }

  /** Searches the chain from step `i` for a repeat; `seen` holds the nodes
      of the steps before `i`, all of them keys of `pm`. */
  lemma {:induction false} Pigeonhole(pm: map<string, string>, n: string, i: nat, seen: set<string>)
    returns (a: nat, b: nat)
    requires Cyclic(pm, n)
    requires seen <= pm.Keys
    requires VisitedBefore(pm, n, seen, i)
    ensures a < b && Anc(pm, n, a) == Anc(pm, n, b)
    decreases pm.Keys - seen
  {
    var x := Anc(pm, n, i).value;
    if x in seen {
      var j: nat :| j < i && Anc(pm, n, j) == Some(x);
      a, b := j, i;
    } else {
      assert Anc(pm, n, i + 1).Some?;
      assert x in pm;
      var seen' := seen + {x};
      forall y | y in seen'
        ensures exists j: nat :: j < i + 1 && Anc(pm, n, j) == Some(y)
      {
        if y == x {
          assert i < i + 1 && Anc(pm, n, i) == Some(y);
        } else {
          assert y in seen;
          var j: nat :| j < i && Anc(pm, n, j) == Some(y);
          assert j < i + 1 && Anc(pm, n, j) == Some(y);
        }
      }
      assert VisitedBefore(pm, n, seen', i + 1);
      a, b := Pigeonhole(pm, n, i + 1, seen');
    }
  }

  /** Following a chain in a parent map that another one extends gives the
      same nodes, as far as the smaller map's chain goes. */
  lemma {:induction false} AncSubmap(small: map<string, string>, big: map<string, string>, n: string, k: nat)
    requires forall x :: x in small ==> x in big && big[x] == small[x]
    requires Anc(small, n, k).Some?
    ensures Anc(big, n, k) == Anc(small, n, k)
  {
    if k > 0 {
      AncSubmap(small, big, n, k - 1);
    }
  }
}

=== FILE: dicts.dfy ===
/** Insertion-ordered dictionaries, the model of a Python `dict`: the keys in
    insertion order together with the key-value map. Assigning to a present
    key keeps its position; assigning to a new key appends it. */
module Dicts {
  import opened Wrappers

  datatype Dict<K(!new), V> = Dict(keys: seq<K>, m: map<K, V>) {

    /** Keys are listed once each, and exactly the keys of the map. */
    ghost predicate Valid() {
      && (forall i, j :: 0 <= i < j < |keys| ==> keys[i] != keys[j])
      && (forall k :: k in m <==> k in keys)
    }

    /** `d.get(k)` */
    function Get(k: K): (r: Option<V>)
      ensures r.Some? <==> k in m
      ensures r.Some? ==> r.value == m[k]
    {
      if k in m then Some(m[k]) else None
    }

    /** `d[k] = v` */
    function Put(k: K, v: V): (d: Dict<K, V>)
      requires Valid()
      ensures d.Valid()
      ensures d.m == m[k := v]
      ensures k in m ==> d.keys == keys
      ensures k !in m ==> d.keys == keys + [k]
    {
      if k in m then Dict(keys, m[k := v]) else Dict(keys + [k], m[k := v])
    }

    function Size(): nat {
      |keys|
    }
  }

  function Empty<K(!new), V>(): (d: Dict<K, V>)
    ensures d.Valid() && d.keys == [] && d.m == map[]
  {
    Dict([], map[])
  }

  /** The keys of `s` in order of first occurrence: the key order of a
      dictionary assigned the keys of `s` in turn. */
  function Dedup<K(==,!new)>(s: seq<K>): (r: seq<K>)
    ensures forall k :: k in r <==> k in s
    ensures forall i, j :: 0 <= i < j < |r| ==> r[i] != r[j]
    decreases |s|
  {
    if s == [] then []
    else
      var init := s[..|s| - 1];
      var p := Dedup(init);
      assert forall k :: k in s <==> k in init || k == s[|s| - 1];
      if s[|s| - 1] in p then p else p + [s[|s| - 1]]
  }

  /** Every key of `a` is a key of `b` with the same value. */
  ghost predicate SubDict<K(!new), V>(a: Dict<K, V>, b: Dict<K, V>) {
    forall k :: k in a.m ==> k in b.m && a.m[k] == b.m[k]
  }
}

=== FILE: geometry2d.dfy ===
/** Planar predicates of the trimming pipeline over exact reals:
    `segment_intersection_2d` and the ray-casting `point_in_polygon`. */
module Geometry2D {
  import opened Wrappers
  import opened UVCurve

  /** Cross products smaller than this (1e-12) count as parallel segments. */
  const ParallelTol: real := 0.000000000001

  /** Added to the edge's height (1e-30) before dividing by it. */
  const DenomGuard: real := 0.000000000000000000000000000001

  function Abs(x: real): real {
    if x < 0.0 then -x else x
  }

  function Sub(a: Vec2, b: Vec2): Vec2 {
    Vec2(a.u - b.u, a.v - b.v)
  }

  function Cross(a: Vec2, b: Vec2): real {
    a.u * b.v - a.v * b.u
  }

  /** `segment_intersection_2d(p1, p2, q1, q2)`: the parameters (t, u) at which
      p1 + t (p2 - p1) meets q1 + u (q2 - q1), when the segments are not
      (nearly) parallel and both parameters lie in [0, 1]. */
  function SegmentIntersection(p1: Vec2, p2: Vec2, q1: Vec2, q2: Vec2): (res: Option<(real, real)>)
    ensures Abs(Cross(Sub(p2, p1), Sub(q2, q1))) < ParallelTol ==> res.None?
    ensures res.Some? ==>
      && 0.0 <= res.value.0 <= 1.0 && 0.0 <= res.value.1 <= 1.0
      && Lerp(p1, p2, res.value.0) == Lerp(q1, q2, res.value.1)
  {
    var r := Sub(p2, p1);
    var s := Sub(q2, q1);
    var rxs := Cross(r, s);
    if Abs(rxs) < ParallelTol then None
    else
      var qp := Sub(q1, p1);
      var t := Cross(qp, s) / rxs;
      var u := Cross(qp, r) / rxs;
      if 0.0 <= t <= 1.0 && 0.0 <= u <= 1.0 then
        CramerSolves(r, s, qp, t, u);
        LerpMeet(p1, p2, q1, q2, t, u);
        Some((t, u))
      else None
  }

  /** Cramer's rule: t = (w x s) / (r x s) and u = (w x r) / (r x s) solve t r - u s = w. */
  lemma CramerSolves(r: Vec2, s: Vec2, w: Vec2, t: real, u: real)
    requires Cross(r, s) != 0.0
    requires t == Cross(w, s) / Cross(r, s) && u == Cross(w, r) / Cross(r, s)
    ensures t * r.u - u * s.u == w.u && t * r.v - u * s.v == w.v
  {
    var d := Cross(r, s);
    assert t * d == Cross(w, s);
    assert u * d == Cross(w, r);
    assert (t * r.u - u * s.u) * d == Cross(w, s) * r.u - Cross(w, r) * s.u;
    assert Cross(w, s) * r.u - Cross(w, r) * s.u == w.u * d;
    assert (t * r.v - u * s.v) * d == Cross(w, s) * r.v - Cross(w, r) * s.v;
    assert Cross(w, s) * r.v - Cross(w, r) * s.v == w.v * d;
    DivideOut(t * r.u - u * s.u, w.u, d);
    DivideOut(t * r.v - u * s.v, w.v, d);
  }

  lemma DivideOut(a: real, b: real, d: real)
    requires d != 0.0 && a * d == b * d
    ensures a == b
  {
    assert (a - b) * d == 0.0;
  }

  lemma LerpMeet(p1: Vec2, p2: Vec2, q1: Vec2, q2: Vec2, t: real, u: real)
    requires t * (p2.u - p1.u) - u * (q2.u - q1.u) == q1.u - p1.u
    requires t * (p2.v - p1.v) - u * (q2.v - q1.v) == q1.v - p1.v
    ensures Lerp(p1, p2, t) == Lerp(q1, q2, u)
  {
    assert Blend(p1.u, p2.u, t) == Blend(q1.u, q2.u, u);
    assert Blend(p1.v, p2.v, t) == Blend(q1.v, q2.v, u);
    LerpByFields(p1, p2, t, Lerp(q1, q2, u));
  }

  /** Conversely, two segments that are not nearly parallel and meet at
      parameters (t, u) in [0, 1]^2 are reported with exactly those parameters. */
  lemma SegmentIntersectionComplete(p1: Vec2, p2: Vec2, q1: Vec2, q2: Vec2, t: real, u: real)
    requires Abs(Cross(Sub(p2, p1), Sub(q2, q1))) >= ParallelTol
    requires 0.0 <= t <= 1.0 && 0.0 <= u <= 1.0
    requires Lerp(p1, p2, t) == Lerp(q1, q2, u)
    ensures SegmentIntersection(p1, p2, q1, q2) == Some((t, u))
  {
    var r := Sub(p2, p1);
    var s := Sub(q2, q1);
    var w := Sub(q1, p1);
    var d := Cross(r, s);
    assert t * r.u - u * s.u == w.u && t * r.v - u * s.v == w.v;
    assert t * d == Cross(w, s) by {
      assert Cross(w, s) == (t * r.u - u * s.u) * s.v - (t * r.v - u * s.v) * s.u;
    }
    assert u * d == Cross(w, r) by {
      assert Cross(w, r) == (t * r.u - u * s.u) * r.v - (t * r.v - u * s.v) * r.u;
    }
    assert t == Cross(w, s) / d;
    assert u == Cross(w, r) / d;
  }

  /** The ray test of one polygon edge (a, b) against the horizontal ray from
      `pt` to the right: the edge straddles the ray's height and its
      x-intercept, computed with the 1e-30 guard, lies right of `pt`. When
      the guarded height is exactly zero the floating-point quotient is
      +inf, -inf or NaN according to the sign of the numerator. */
  predicate Crosses(pt: Vec2, a: Vec2, b: Vec2) {
    && ((a.v > pt.v) != (b.v > pt.v))
    && var num := (b.u - a.u) * (pt.v - a.v);
       var den := b.v - a.v + DenomGuard;
       if den != 0.0 then pt.u < num / den + a.u else num > 0.0
  }

  /** The edge from vertex i to vertex (i + 1) mod n. */
  function Edge(poly: seq<Vec2>, i: nat): (Vec2, Vec2)
    requires i < |poly|
  {
    (poly[i], poly[if i + 1 < |poly| then i + 1 else 0])
  }

  function Edges(poly: seq<Vec2>): (es: seq<(Vec2, Vec2)>)
    ensures |es| == |poly|
  {
    seq(|poly|, i requires 0 <= i < |poly| => Edge(poly, i))
  }

  /** The number of edges the ray from `pt` crosses. */
  function CrossCount(pt: Vec2, es: seq<(Vec2, Vec2)>): nat
  {
    if |es| == 0 then 0
    else (if Crosses(pt, es[0].0, es[0].1) then 1 else 0) + CrossCount(pt, es[1..])
  }

  /** The loop of `point_in_polygon` from edge i on, with the current flag. */
  function ToggleFrom(pt: Vec2, poly: seq<Vec2>, i: nat, inside: bool): bool
    requires i <= |poly|
    decreases |poly| - i
  {
    if i == |poly| then inside
    else ToggleFrom(pt, poly, i + 1, if Crosses(pt, Edge(poly, i).0, Edge(poly, i).1) then !inside else inside)
  }

  /** `point_in_polygon(pt, poly)` */
  function PointInPolygon(pt: Vec2, poly: seq<Vec2>): bool
  {
    ToggleFrom(pt, poly, 0, false)
  }

  lemma {:induction false} CrossCountAppend(pt: Vec2, a: seq<(Vec2, Vec2)>, b: seq<(Vec2, Vec2)>)
    ensures CrossCount(pt, a + b) == CrossCount(pt, a) + CrossCount(pt, b)
  {
    if |a| > 0 {
      assert (a + b)[1..] == a[1..] + b;
      CrossCountAppend(pt, a[1..], b);
    } else {
      assert a + b == b;
    }
  }

  lemma {:induction false} ToggleCounts(pt: Vec2, poly: seq<Vec2>, i: nat, inside: bool)
    requires i <= |poly|
    ensures ToggleFrom(pt, poly, i, inside) ==
            (inside != (CrossCount(pt, Edges(poly)[i..]) % 2 == 1))
    decreases |poly| - i
  {
    if i < |poly| {
      ToggleCounts(pt, poly, i + 1, if Crosses(pt, Edge(poly, i).0, Edge(poly, i).1) then !inside else inside);
      assert Edges(poly)[i..][1..] == Edges(poly)[i + 1..];
    }
  }

  /** The point is inside exactly when the ray crosses an odd number of edges. */
  lemma PointInPolygonParity(pt: Vec2, poly: seq<Vec2>)
    ensures PointInPolygon(pt, poly) == (CrossCount(pt, Edges(poly)) % 2 == 1)
  {
    ToggleCounts(pt, poly, 0, false);
    assert Edges(poly)[0..] == Edges(poly);
  }

  function Rotate<T>(s: seq<T>, k: nat): seq<T>
    requires k <= |s|
  {
    s[k..] + s[..k]
  }

  /** Starting the vertex list at another vertex yields the same edges, rotated. */
  lemma EdgesRotate(poly: seq<Vec2>, k: nat)
    requires k < |poly|
    ensures Edges(Rotate(poly, k)) == Rotate(Edges(poly), k)
  {
    var n := |poly|;
    var rp := Rotate(poly, k);
    var es := Edges(poly);
    forall i | 0 <= i < n
      ensures Edges(rp)[i] == Rotate(es, k)[i]
    {
      var j := if i + k < n then i + k else i + k - n;
      assert rp[i] == poly[j];
      var i1 := if i + 1 < n then i + 1 else 0;
      var j1 := if j + 1 < n then j + 1 else 0;
      assert rp[i1] == poly[j1];
      assert Rotate(es, k)[i] == es[j];
    }
  }

  /** `point_in_polygon` does not depend on which vertex the polygon starts at. */
  lemma PointInPolygonRotation(pt: Vec2, poly: seq<Vec2>, k: nat)
    requires k < |poly|
    ensures PointInPolygon(pt, Rotate(poly, k)) == PointInPolygon(pt, poly)
  {
    PointInPolygonParity(pt, poly);
    PointInPolygonParity(pt, Rotate(poly, k));
    EdgesRotate(poly, k);
    var es := Edges(poly);
    CrossCountAppend(pt, es[k..], es[..k]);
    CrossCountAppend(pt, es[..k], es[k..]);
    assert es[..k] + es[k..] == es;
  }
}

=== FILE: hierarchy.dfy ===
/** Recursive descendant enumeration over a dictionary of nodes, the shape of
    `get_all_descendants` (mappings.py) and of the `get_children` helper of
    `doc_coverage_report` (taxonomy.py): for every key in dictionary order
    whose parent is the node, list the key and then, recursively, its own
    descendants.

    `keys` is the dictionary's key order and `pm` its parent edges. Python
    recurses without a visited set, so a parent cycle below the node
    recurses until the interpreter's limit; the model keeps the stack of
    nodes being expanded and answers `None` when a node would be expanded
    inside its own expansion, which is exactly when Python's recursion would
    never end. Python's recursion-depth limit is not modelled: an acyclic
    chain of any depth finishes here. */
module Hierarchy {
  import opened Wrappers
  import opened Chains

  function KeySet(keys: seq<string>): set<string> {
    set k | k in keys
  }

  predicate ChildIn(pm: map<string, string>, c: string, p: string) {
    c in pm && pm[c] == p
  }

  /** `d` is reached from `x`'s side: `x` is a strict ancestor of `d`. */
  ghost predicate IsDescendant(pm: map<string, string>, d: string, x: string) {
    exists k: nat :: 1 <= k && Anc(pm, d, k) == Some(x)
  }

  /** Every element of `r` is a key whose parent is `x` or an earlier element. */
  ghost predicate ParentsPrecede(keys: seq<string>, pm: map<string, string>, x: string, r: seq<string>) {
    forall j :: 0 <= j < |r| ==>
      r[j] in keys && (ChildIn(pm, r[j], x) || exists i :: 0 <= i < j && ChildIn(pm, r[j], r[i]))
  }

  /** Every child (among `keys`) of an element of `r` is in `r`. */
  ghost predicate ChildClosed(keys: seq<string>, pm: map<string, string>, r: seq<string>) {
    forall p, c :: p in r && c in keys && ChildIn(pm, c, p) ==> c in r
  }

  /** The descendants of `x` while the nodes of `stack` are being expanded. */
  function Descendants(keys: seq<string>, pm: map<string, string>, x: string, stack: set<string>): (r: Option<seq<string>>)
    ensures r.Some? ==> x !in stack
    ensures r.Some? ==> forall c :: c in keys && ChildIn(pm, c, x) ==> c in r.value
    ensures r.Some? ==> ChildClosed(keys, pm, r.value) && ParentsPrecede(keys, pm, x, r.value)
    ensures r.Some? ==> forall d :: d in r.value ==> d !in stack && d != x
    decreases KeySet(keys) + {x} - stack, |keys| + 1
  {
    if x in stack then None else DescendantsFrom(keys, pm, x, stack, 0)
  }

  /** The loop over the keys from position `i` while expanding `x`. */
  function DescendantsFrom(keys: seq<string>, pm: map<string, string>, x: string, stack: set<string>, i: nat): (r: Option<seq<string>>)
    requires x !in stack && i <= |keys|
    ensures r.Some? ==> forall j :: i <= j < |keys| && ChildIn(pm, keys[j], x) ==> keys[j] in r.value
    ensures r.Some? ==> ChildClosed(keys, pm, r.value) && ParentsPrecede(keys, pm, x, r.value)
    ensures r.Some? ==> forall d :: d in r.value ==> d !in stack && d != x
    decreases KeySet(keys) + {x} - stack, |keys| - i
  {
    if i == |keys| then Some([])
    else if ChildIn(pm, keys[i], x) then
      var c := keys[i];
      var sub :- Descendants(keys, pm, c, stack + {x});
      var rest :- DescendantsFrom(keys, pm, x, stack, i + 1);
      ConcatClosed(keys, pm, c, sub, rest);
      ConcatPrecede(keys, pm, x, c, sub, rest);
      Some([c] + sub + rest)
    else DescendantsFrom(keys, pm, x, stack, i + 1)
  }

  lemma ConcatClosed(keys: seq<string>, pm: map<string, string>, c: string, sub: seq<string>, rest: seq<string>)
    requires forall k :: k in keys && ChildIn(pm, k, c) ==> k in sub
    requires ChildClosed(keys, pm, sub) && ChildClosed(keys, pm, rest)
    ensures ChildClosed(keys, pm, [c] + sub + rest)
  {
  }

  lemma ConcatPrecede(keys: seq<string>, pm: map<string, string>, x: string, c: string, sub: seq<string>, rest: seq<string>)
    requires c in keys && ChildIn(pm, c, x)
    requires ParentsPrecede(keys, pm, c, sub) && ParentsPrecede(keys, pm, x, rest)
    ensures ParentsPrecede(keys, pm, x, [c] + sub + rest)
  {
    var r := [c] + sub + rest;
    forall j | 0 <= j < |r|
      ensures r[j] in keys && (ChildIn(pm, r[j], x) || exists i :: 0 <= i < j && ChildIn(pm, r[j], r[i]))
    {
      if j == 0 {
      } else if j <= |sub| {
        assert r[j] == sub[j - 1];
        if !ChildIn(pm, r[j], c) {
          var i :| 0 <= i < j - 1 && ChildIn(pm, sub[j - 1], sub[i]);
          assert r[i + 1] == sub[i];
        } else {
          assert r[0] == c;
        }
      } else {
        var k := j - 1 - |sub|;
        assert r[j] == rest[k];
        if !ChildIn(pm, r[j], x) {
          var i :| 0 <= i < k && ChildIn(pm, rest[k], rest[i]);
          assert r[i + 1 + |sub|] == rest[i];
        }
      }
    }
  }

  /** `get_all_descendants(x)`: `None` when the recursion would not end. */
  function AllDescendants(keys: seq<string>, pm: map<string, string>, x: string): (r: Option<seq<string>>)
    ensures r.Some? ==> forall c :: c in keys && ChildIn(pm, c, x) ==> c in r.value
    ensures r.Some? ==> ParentsPrecede(keys, pm, x, r.value) && x !in r.value
  {
    Descendants(keys, pm, x, {})
  }

  /** Every listed node is a strict descendant of `x`. */
  lemma {:induction false} PrecedeSound(keys: seq<string>, pm: map<string, string>, x: string, r: seq<string>, j: nat)
    requires ParentsPrecede(keys, pm, x, r) && j < |r|
    ensures IsDescendant(pm, r[j], x)
    decreases j
  {
    AncStep(pm, r[j], 0, r[j]);
    if !ChildIn(pm, r[j], x) {
      var i :| 0 <= i < j && ChildIn(pm, r[j], r[i]);
      PrecedeSound(keys, pm, x, r, i);
      var k: nat :| 1 <= k && Anc(pm, r[i], k) == Some(x);
      AncCompose(pm, r[j], 1, k, r[i]);
      assert Anc(pm, r[j], 1 + k) == Some(x);
    } else {
      assert Anc(pm, r[j], 1) == Some(x);
    }
  }

  /** Every strict descendant of `x` is listed. */
  lemma {:induction false} ClosedComplete(keys: seq<string>, pm: map<string, string>, x: string, r: seq<string>, d: string, k: nat)
    requires forall c :: c in keys && ChildIn(pm, c, x) ==> c in r
    requires ChildClosed(keys, pm, r)
    requires forall y :: y in pm ==> y in keys
    requires 1 <= k && Anc(pm, d, k) == Some(x)
    ensures d in r
    decreases k
  {
    AncStep(pm, d, 0, d);
    assert d in pm by {
      if d !in pm {
        AncAbsorbing(pm, d, 1, k);
      }
    }
    if k > 1 {
      var p := pm[d];
      AncCompose(pm, d, 1, k - 1, p);
      ClosedComplete(keys, pm, x, r, p, k - 1);
    }
  }

  /** A successful enumeration lists exactly the strict descendants. */
  lemma AllDescendantsExact(keys: seq<string>, pm: map<string, string>, x: string)
    requires forall y :: y in pm ==> y in keys
    requires AllDescendants(keys, pm, x).Some?
    ensures forall d :: d in AllDescendants(keys, pm, x).value <==> IsDescendant(pm, d, x)
  {
    var r := AllDescendants(keys, pm, x).value;
    forall d
      ensures d in r <==> IsDescendant(pm, d, x)
    {
      if d in r {
        var j :| 0 <= j < |r| && r[j] == d;
        PrecedeSound(keys, pm, x, r, j);
      }
      if IsDescendant(pm, d, x) {
        var k: nat :| 1 <= k && Anc(pm, d, k) == Some(x);
        ClosedComplete(keys, pm, x, r, d, k);
      }
    }
  }

  /** Every node of `stack` is a strict ancestor of `x`. */
  ghost predicate StackAbove(pm: map<string, string>, x: string, stack: set<string>) {
    forall s :: s in stack ==> IsDescendant(pm, x, s)
  }

  /** Without parent cycles the recursion always ends. */
  lemma {:induction false} DescendantsAcyclic(keys: seq<string>, pm: map<string, string>, x: string, stack: set<string>)
    requires Acyclic(pm) && StackAbove(pm, x, stack)
    ensures Descendants(keys, pm, x, stack).Some?
    decreases KeySet(keys) + {x} - stack, |keys| + 1
  {
    if x in stack {
      assert false;
    }
    DescendantsFromAcyclic(keys, pm, x, stack, 0);
  }

  lemma {:induction false} DescendantsFromAcyclic(keys: seq<string>, pm: map<string, string>, x: string, stack: set<string>, i: nat)
    requires x !in stack && i <= |keys|
    requires Acyclic(pm) && StackAbove(pm, x, stack)
    ensures DescendantsFrom(keys, pm, x, stack, i).Some?
    decreases KeySet(keys) + {x} - stack, |keys| - i
  {
    if i < |keys| {
      if ChildIn(pm, keys[i], x) {
        var c := keys[i];
        forall s | s in stack + {x}
          ensures IsDescendant(pm, c, s)
        {
          AncStep(pm, c, 0, c);
          if s != x {
            var k: nat :| 1 <= k && Anc(pm, x, k) == Some(s);
            AncCompose(pm, c, 1, k, x);
            assert Anc(pm, c, 1 + k) == Some(s);
          } else {
            assert Anc(pm, c, 1) == Some(s);
          }
        }
        DescendantsAcyclic(keys, pm, c, stack + {x});
      }
      DescendantsFromAcyclic(keys, pm, x, stack, i + 1);
    }
  }

  /** A node on a parent cycle is its own descendant, so the recursion
      from it never ends. */
  lemma DescendantsOnCycle(keys: seq<string>, pm: map<string, string>, x: string, k: nat)
    requires forall y :: y in pm ==> y in keys
    requires 1 <= k && Anc(pm, x, k) == Some(x)
    ensures AllDescendants(keys, pm, x).None?
  {
    if AllDescendants(keys, pm, x).Some? {
      ClosedComplete(keys, pm, x, AllDescendants(keys, pm, x).value, x, k);
      assert false;
    }
  }
  /** `d`'s parent chain first meets `x` after `k` steps, passing no node of
      `avoid` on the way. */
  ghost predicate FirstReach(pm: map<string, string>, d: string, x: string, k: nat, avoid: set<string>) {
    && 1 <= k && Anc(pm, d, k) == Some(x)
    && forall m: nat :: m < k ==> Anc(pm, d, m).Some? && Anc(pm, d, m).value != x && Anc(pm, d, m).value !in avoid
  }

  /** `d` first meets `x` through a child of `x` listed at position `i` or later. */
  ghost predicate ReachVia(keys: seq<string>, pm: map<string, string>, d: string, x: string, avoid: set<string>, i: nat) {
    exists k: nat, j :: FirstReach(pm, d, x, k, avoid) && i <= j < |keys| && Anc(pm, d, k - 1) == Some(keys[j])
  }

  lemma FirstReachUnique(pm: map<string, string>, d: string, x: string, k1: nat, k2: nat, a1: set<string>, a2: set<string>)
    requires FirstReach(pm, d, x, k1, a1) && FirstReach(pm, d, x, k2, a2)
    ensures k1 == k2
  {
  }

  /** A listed node meets `x` first through the child whose subtree holds it. */
  lemma {:induction false} DescendantsReach(keys: seq<string>, pm: map<string, string>, x: string, stack: set<string>)
    requires Descendants(keys, pm, x, stack).Some?
    ensures forall d :: d in Descendants(keys, pm, x, stack).value ==> ReachVia(keys, pm, d, x, stack, 0)
    decreases KeySet(keys) + {x} - stack, |keys| + 1
  {
    DescendantsFromReach(keys, pm, x, stack, 0);
  }

  lemma {:induction false} DescendantsFromReach(keys: seq<string>, pm: map<string, string>, x: string, stack: set<string>, i: nat)
    requires x !in stack && i <= |keys|
    requires DescendantsFrom(keys, pm, x, stack, i).Some?
    ensures forall d :: d in DescendantsFrom(keys, pm, x, stack, i).value ==> ReachVia(keys, pm, d, x, stack, i)
    decreases KeySet(keys) + {x} - stack, |keys| - i
  {
    if i < |keys| {
      var r := DescendantsFrom(keys, pm, x, stack, i).value;
      if ChildIn(pm, keys[i], x) {
        var c := keys[i];
        var sub := Descendants(keys, pm, c, stack + {x}).value;
        var rest := DescendantsFrom(keys, pm, x, stack, i + 1).value;
        assert r == [c] + sub + rest;
        DescendantsReach(keys, pm, c, stack + {x});
        DescendantsFromReach(keys, pm, x, stack, i + 1);
        forall d | d in r
          ensures ReachVia(keys, pm, d, x, stack, i)
        {
          if d == c {
            ChildReach(keys, pm, i, x, stack);
          } else if d in sub {
            var _ := SubtreeReach(keys, pm, d, i, x, stack);
          } else {
            ReachViaLater(keys, pm, d, x, stack, i);
          }
        }
      } else {
        DescendantsFromReach(keys, pm, x, stack, i + 1);
      }
    }
  }

  lemma ChildReach(keys: seq<string>, pm: map<string, string>, i: nat, x: string, stack: set<string>)
    requires i < |keys| && ChildIn(pm, keys[i], x) && keys[i] != x && keys[i] !in stack
    ensures ReachVia(keys, pm, keys[i], x, stack, i)
  {
    AncStep(pm, keys[i], 0, keys[i]);
    assert FirstReach(pm, keys[i], x, 1, stack);
    assert Anc(pm, keys[i], 1 - 1) == Some(keys[i]);
  }

  lemma ReachViaLater(keys: seq<string>, pm: map<string, string>, d: string, x: string, avoid: set<string>, i: nat)
    requires ReachVia(keys, pm, d, x, avoid, i + 1)
    ensures ReachVia(keys, pm, d, x, avoid, i)
  {
    var k: nat, j :| FirstReach(pm, d, x, k, avoid) && i + 1 <= j < |keys| && Anc(pm, d, k - 1) == Some(keys[j]);
  }

  /** A node below child `c` of `x` meets `x` one step after it meets `c`. */
  lemma SubtreeReach(keys: seq<string>, pm: map<string, string>, d: string, i: nat, x: string, stack: set<string>)
      returns (k: nat)
    requires i < |keys| && ChildIn(pm, keys[i], x) && keys[i] != x && keys[i] !in stack
    requires ReachVia(keys, pm, d, keys[i], stack + {x}, 0)
    ensures FirstReach(pm, d, x, k, stack) && Anc(pm, d, k - 1) == Some(keys[i])
    ensures ReachVia(keys, pm, d, x, stack, i)
  {
    var c := keys[i];
    var a: nat, j :| FirstReach(pm, d, c, a, stack + {x}) && 0 <= j < |keys| && Anc(pm, d, a - 1) == Some(keys[j]);
    AncStep(pm, d, a, c);
    k := a + 1;
    assert FirstReach(pm, d, x, k, stack);
    assert Anc(pm, d, k - 1) == Some(keys[i]);
  }

  predicate NoDuplicates(s: seq<string>) {
    forall i, j :: 0 <= i < j < |s| ==> s[i] != s[j]
  }

  lemma ConcatNoDuplicates(c: string, sub: seq<string>, rest: seq<string>)
    requires NoDuplicates(sub) && NoDuplicates(rest)
    requires c !in sub && c !in rest && forall d :: d in sub ==> d !in rest
    ensures NoDuplicates([c] + sub + rest)
  {
    var r := [c] + sub + rest;
    forall i, j | 0 <= i < j < |r|
      ensures r[i] != r[j]
    {
      if i == 0 {
        if j <= |sub| {
          assert r[j] == sub[j - 1];
        } else {
          assert r[j] == rest[j - 1 - |sub|];
        }
      } else if j <= |sub| {
        assert r[i] == sub[i - 1] && r[j] == sub[j - 1];
      } else if i <= |sub| {
        assert r[i] == sub[i - 1] && r[j] == rest[j - 1 - |sub|];
        assert r[i] in sub;
      } else {
        assert r[i] == rest[i - 1 - |sub|] && r[j] == rest[j - 1 - |sub|];
      }
    }
  }

  /** With distinct keys, no node is listed twice: subtrees of different
      children are disjoint because a node's parent chain first meets `x`
      through exactly one child. */
  lemma {:induction false} DescendantsNoDuplicates(keys: seq<string>, pm: map<string, string>, x: string, stack: set<string>)
    requires NoDuplicates(keys)
    requires Descendants(keys, pm, x, stack).Some?
    ensures NoDuplicates(Descendants(keys, pm, x, stack).value)
    decreases KeySet(keys) + {x} - stack, |keys| + 1
  {
    DescendantsFromNoDuplicates(keys, pm, x, stack, 0);
  }

  lemma {:induction false} DescendantsFromNoDuplicates(keys: seq<string>, pm: map<string, string>, x: string, stack: set<string>, i: nat)
    requires NoDuplicates(keys) && x !in stack && i <= |keys|
    requires DescendantsFrom(keys, pm, x, stack, i).Some?
    ensures NoDuplicates(DescendantsFrom(keys, pm, x, stack, i).value)
    decreases KeySet(keys) + {x} - stack, |keys| - i
  {
    if i < |keys| {
      if ChildIn(pm, keys[i], x) {
        var c := keys[i];
        var sub := Descendants(keys, pm, c, stack + {x}).value;
        var rest := DescendantsFrom(keys, pm, x, stack, i + 1).value;
        DescendantsNoDuplicates(keys, pm, c, stack + {x});
        DescendantsFromNoDuplicates(keys, pm, x, stack, i + 1);
        DescendantsReach(keys, pm, c, stack + {x});
        DescendantsFromReach(keys, pm, x, stack, i + 1);
        SubtreesDisjoint(keys, pm, x, stack, i, sub, rest);
        ConcatNoDuplicates(c, sub, rest);
      } else {
        DescendantsFromNoDuplicates(keys, pm, x, stack, i + 1);
      }
    }
  }

  /** Child `keys[i]` and its subtree share no node with the later children's subtrees. */
  lemma SubtreesDisjoint(keys: seq<string>, pm: map<string, string>, x: string, stack: set<string>, i: nat,
                         sub: seq<string>, rest: seq<string>)
    requires NoDuplicates(keys) && i < |keys| && ChildIn(pm, keys[i], x) && keys[i] != x && keys[i] !in stack
    requires forall d :: d in sub ==> ReachVia(keys, pm, d, keys[i], stack + {x}, 0)
    requires forall d :: d in rest ==> ReachVia(keys, pm, d, x, stack, i + 1)
    ensures keys[i] !in rest
    ensures forall d :: d in sub ==> d !in rest
  {
    ChildFirstReach(pm, keys[i], x);
    forall d | d in sub
      ensures d !in rest
    {
      var a := SubtreeReach(keys, pm, d, i, x, stack);
      FirstReachOnly(pm, d, x, a, stack);
    }
  }

  /** A first meeting point is unique, whatever nodes are avoided. */
  lemma FirstReachOnly(pm: map<string, string>, d: string, x: string, a: nat, avoid: set<string>)
    requires FirstReach(pm, d, x, a, avoid)
    ensures forall k: nat, av: set<string> :: FirstReach(pm, d, x, k, av) ==> k == a
  {
    forall k: nat, av: set<string> | FirstReach(pm, d, x, k, av)
      ensures k == a
    {
      FirstReachUnique(pm, d, x, k, a, av, avoid);
    }
  }

  /** A child of `x` meets `x` first after one step. */
  lemma ChildFirstReach(pm: map<string, string>, c: string, x: string)
    requires ChildIn(pm, c, x) && c != x
    ensures FirstReach(pm, c, x, 1, {})
    ensures forall k: nat, av: set<string> :: FirstReach(pm, c, x, k, av) ==> k == 1
  {
    AncStep(pm, c, 0, c);
    FirstReachOnly(pm, c, x, 1, {});
  }

  /** `get_all_descendants` lists no node twice. */
  lemma AllDescendantsNoDuplicates(keys: seq<string>, pm: map<string, string>, x: string)
    requires NoDuplicates(keys)
    requires AllDescendants(keys, pm, x).Some?
    ensures NoDuplicates(AllDescendants(keys, pm, x).value)
  {
    DescendantsNoDuplicates(keys, pm, x, {});
  }

  /** Every occurrence of `u` in `r` comes before every occurrence of `v`. */
  ghost predicate Before(r: seq<string>, u: string, v: string) {
    forall a, b :: 0 <= a < |r| && 0 <= b < |r| && r[a] == u && r[b] == v ==> a < b
  }

  /** The children of `x` at key positions from `i` on appear in `r` in key order. */
  ghost predicate SiblingsInOrder(keys: seq<string>, pm: map<string, string>, x: string, i: nat, r: seq<string>) {
    forall p, q :: i <= p < q < |keys| && ChildIn(pm, keys[p], x) && ChildIn(pm, keys[q], x) ==>
      Before(r, keys[p], keys[q])
  }

  lemma ConcatBeforeHead(c: string, sub: seq<string>, rest: seq<string>, v: string)
    requires c !in sub && c !in rest && v != c
    ensures Before([c] + sub + rest, c, v)
  {
    var r := [c] + sub + rest;
    assert forall a :: 1 <= a < |r| ==> r[a] == (sub + rest)[a - 1] && r[a] in sub + rest;
  }

  lemma ConcatBeforeRest(c: string, sub: seq<string>, rest: seq<string>, u: string, v: string)
    requires u != c && v != c && u !in sub && v !in sub && Before(rest, u, v)
    ensures Before([c] + sub + rest, u, v)
  {
    var r := [c] + sub + rest;
    assert forall a :: 1 <= a <= |sub| ==> r[a] == sub[a - 1] && r[a] in sub;
    assert forall a :: 1 + |sub| <= a < |r| ==> r[a] == rest[a - 1 - |sub|];
    forall a, b | 0 <= a < |r| && 0 <= b < |r| && r[a] == u && r[b] == v
      ensures a < b
    {
      assert a - 1 - |sub| < b - 1 - |sub|;
    }
  }

  /** A later child of `x` is not in the subtree of child `keys[i]`. */
  lemma ChildNotInSubtree(keys: seq<string>, pm: map<string, string>, x: string, stack: set<string>, i: nat, q: nat,
                          sub: seq<string>)
    requires NoDuplicates(keys) && i < q < |keys| && ChildIn(pm, keys[i], x) && ChildIn(pm, keys[q], x)
    requires keys[i] != x && keys[i] !in stack
    requires forall d :: d in sub ==> ReachVia(keys, pm, d, keys[i], stack + {x}, 0) && d != x
    ensures keys[q] !in sub
  {
    forall d | d in sub
      ensures exists k: nat :: FirstReach(pm, d, x, k, stack) && Anc(pm, d, k - 1) == Some(keys[i])
    {
      var k := SubtreeReach(keys, pm, d, i, x, stack);
    }
    if keys[q] != x {
      ChildFirstReach(pm, keys[q], x);
    }
  }

  lemma SiblingsConcat(keys: seq<string>, pm: map<string, string>, x: string, stack: set<string>, i: nat,
                       sub: seq<string>, rest: seq<string>)
    requires NoDuplicates(keys) && i < |keys| && ChildIn(pm, keys[i], x) && keys[i] != x && keys[i] !in stack
    requires forall d :: d in sub ==> ReachVia(keys, pm, d, keys[i], stack + {x}, 0) && d != x
    requires keys[i] !in sub && keys[i] !in rest
    requires SiblingsInOrder(keys, pm, x, i + 1, rest)
    ensures SiblingsInOrder(keys, pm, x, i, [keys[i]] + sub + rest)
  {
    var c := keys[i];
    forall p, q | i <= p < q < |keys| && ChildIn(pm, keys[p], x) && ChildIn(pm, keys[q], x)
      ensures Before([c] + sub + rest, keys[p], keys[q])
    {
      ChildNotInSubtree(keys, pm, x, stack, i, q, sub);
      if p == i {
        ConcatBeforeHead(c, sub, rest, keys[q]);
      } else {
        ChildNotInSubtree(keys, pm, x, stack, i, p, sub);
        ConcatBeforeRest(c, sub, rest, keys[p], keys[q]);
      }
    }
  }

  /** The loop visits the children of `x` in key order, so they are listed in that order. */
  lemma {:induction false} DescendantsFromSiblingOrder(keys: seq<string>, pm: map<string, string>, x: string,
                                                       stack: set<string>, i: nat)
    requires NoDuplicates(keys) && x !in stack && i <= |keys|
    requires DescendantsFrom(keys, pm, x, stack, i).Some?
    ensures SiblingsInOrder(keys, pm, x, i, DescendantsFrom(keys, pm, x, stack, i).value)
    decreases |keys| - i
  {
    if i < |keys| {
      DescendantsFromSiblingOrder(keys, pm, x, stack, i + 1);
      if ChildIn(pm, keys[i], x) {
        var c := keys[i];
        var sub := Descendants(keys, pm, c, stack + {x}).value;
        var rest := DescendantsFrom(keys, pm, x, stack, i + 1).value;
        DescendantsReach(keys, pm, c, stack + {x});
        DescendantsFromReach(keys, pm, x, stack, i + 1);
        SubtreesDisjoint(keys, pm, x, stack, i, sub, rest);
        SiblingsConcat(keys, pm, x, stack, i, sub, rest);
      }
    }
  }

  /** `get_all_descendants` lists the children of `x` in dictionary order. */
  lemma AllDescendantsSiblingOrder(keys: seq<string>, pm: map<string, string>, x: string)
    requires NoDuplicates(keys)
    requires AllDescendants(keys, pm, x).Some?
    ensures SiblingsInOrder(keys, pm, x, 0, AllDescendants(keys, pm, x).value)
  {
    DescendantsFromSiblingOrder(keys, pm, x, {}, 0);
  }
}

=== FILE: load_taxonomy.dfy ===
/** Loading a taxonomy: the attributes sheet aggregated per node, the
    taxonomy sheet turned into a dictionary keyed by taxonomy ID, and the
    optional sub-graph around one node (its ancestors and descendants). */
module LoadTaxonomy {
  import opened Wrappers
  import opened Dicts
  import opened Strings
  import opened Chains
  import opened TaxonomyModel

  datatype LoadError =
    | KeyError(key: string)
    | AttributeHeader(missing: set<string>, columns: seq<string>)
    | SubGraphNotFound(id: string)
    /** Every failure of `load_taxonomy` is re-raised as "Error reading Excel file". */
    | ReadError(cause: LoadError)

  /** The field `get_children` reads, which the loader does not produce. */
  const LegacyParentField: string := "parent"

  function ChildrenIn(tax: Taxonomy, parentId: string, ks: seq<string>): (r: Result<seq<string>, LoadError>)
    requires forall k :: k in ks ==> k in tax.m
    ensures r.Failure? <==> exists k :: k in ks && LegacyParentField !in tax.m[k].fields
    ensures r.Failure? ==> r.error == KeyError(LegacyParentField)
    ensures r.Success? ==> IsSubsequence(r.value, ks)
    ensures r.Success? ==> forall c :: c in r.value <==> c in ks && tax.m[c].fields[LegacyParentField] == Some(parentId)
  {
    if |ks| == 0 then Success([])
    else
      var k := ks[0];
      assert forall c :: c in ks <==> c == k || c in ks[1..];
      if LegacyParentField !in tax.m[k].fields then Failure(KeyError(LegacyParentField))
      else
        var rest :- ChildrenIn(tax, parentId, ks[1..]);
        if tax.m[k].fields[LegacyParentField] == Some(parentId) then Success([k] + rest) else Success(rest)
  }

  /** `get_children(taxonomy, parent_id)`: the keys whose "parent" field is
      `parent_id`, in dictionary order; a node without that field raises. */
  function GetChildren(tax: Taxonomy, parentId: string): (r: Result<seq<string>, LoadError>)
    requires tax.Valid()
    ensures r.Failure? <==> exists k :: k in tax.m && LegacyParentField !in tax.m[k].fields
    ensures r.Success? ==> IsSubsequence(r.value, tax.keys)
    ensures r.Success? ==> forall c :: c in r.value <==> c in tax.m && tax.m[c].fields[LegacyParentField] == Some(parentId)
  {
    ChildrenIn(tax, parentId, tax.keys)
  }

  /** The record `expand_nodes` would insert for a child it does not know. */
  function Placeholder(parentId: string): Node {
    Node(map[LegacyParentField := Some(parentId), LabelField := Some(""), "doc_type" := None,
             DescriptionField := None, OcxNameField := None], Empty())
  }

  function InsertMissing(tax: Taxonomy, parentId: string, children: seq<string>): (r: Taxonomy)
    requires tax.Valid()
    ensures r.Valid()
    ensures (forall c :: c in children ==> c in tax.m) ==> r == tax
    decreases |children|
  {
    if |children| == 0 then tax
    else
      var c := children[0];
      var tax' := if c !in tax.m then tax.Put(c, Placeholder(parentId)) else tax;
      InsertMissing(tax', parentId, children[1..])
  }

  function ExpandFrom(tax: Taxonomy, nodeIds: seq<string>): (r: Result<Taxonomy, LoadError>)
    requires tax.Valid()
    ensures r.Success? ==> r.value == tax
    ensures r.Failure? <==>
      (exists i :: 0 <= i < |nodeIds| && nodeIds[i] in tax.m) &&
      (exists k :: k in tax.m && LegacyParentField !in tax.m[k].fields)
  {
    if |nodeIds| == 0 then Success(tax)
    else
      var id := nodeIds[0];
      assert forall i :: 1 <= i < |nodeIds| ==> nodeIds[i] == nodeIds[1..][i - 1];
      if id in tax.m then
        var children :- GetChildren(tax, id);
        ExpandFrom(InsertMissing(tax, id, children), nodeIds[1..])
      else
        var r := ExpandFrom(tax, nodeIds[1..]);
        assert (exists i :: 0 <= i < |nodeIds| && nodeIds[i] in tax.m) <==>
               (exists i :: 0 <= i < |nodeIds[1..]| && nodeIds[1..][i] in tax.m) by {
          if exists i :: 0 <= i < |nodeIds| && nodeIds[i] in tax.m {
            var i :| 0 <= i < |nodeIds| && nodeIds[i] in tax.m;
            assert nodeIds[1..][i - 1] in tax.m;
          }
        }
        r
  }

  /** `expand_nodes(taxonomy, node_ids)`: never changes the taxonomy, since
      every child `get_children` finds is already a key. It raises when it
      looks up children in a taxonomy holding a node without "parent". */
  function ExpandNodes(tax: Taxonomy, nodeIds: seq<string>): (r: Result<Taxonomy, LoadError>)
    requires tax.Valid()
    ensures r.Success? ==> r.value == tax
    ensures r.Failure? <==>
      (exists i :: 0 <= i < |nodeIds| && nodeIds[i] in tax.m) &&
      (exists k :: k in tax.m && LegacyParentField !in tax.m[k].fields)
  {
    ExpandFrom(tax, nodeIds)
  }

  // ---------------------------------------------------------------- attributes

  /** The attribute columns kept as strings; `required` becomes a boolean. */
  const AttributeStringFields: seq<string> := [IdField, AttributeNameField, DescriptionField, DataTypeField, OcxNameField]

  /** `bool(cell) if pd.notna(cell) else False`: any non-empty text is true. */
  function CellTruth(c: Cell): (b: bool)
    ensures c.Missing? ==> !b
    ensures c.Text? ==> (b <==> c.s != "")
    ensures c.Number? ==> (b <==> !c.zero)
    ensures c.Flag? ==> b == c.b
  {
    match c
    case Missing => false
    case Text(s) => s != ""
    case Flag(v) => v
    case Number(_, z) => !z
  }

  function AttributeOfRow(row: Row): (a: Attribute)
    ensures forall f :: f in a.fields <==> f in AttributeStringFields
  {
    Attribute(map f | f in AttributeStringFields :: CleanCell(CellAt(row, f)), CellTruth(CellAt(row, RequiredField)))
  }

  /** The node ID of a row: `str(cell).strip()`, which is "nan" for an empty cell. */
  function RowKey(row: Row): string {
    Strip(CellStr(CellAt(row, IdField)))
  }

  /** The stripped attribute name of an attributes row, if it has one. */
  function RowAttributeName(row: Row): Option<string> {
    CleanCell(CellAt(row, AttributeNameField))
  }

  type Attributes = Dict<string, Dict<string, Attribute>>

  ghost predicate AttributesValid(acc: Attributes) {
    acc.Valid() && forall k :: k in acc.m ==> acc.m[k].Valid()
  }

  function AddAttributeRow(acc: Attributes, row: Row): (r: Attributes)
    requires AttributesValid(acc)
    ensures AttributesValid(r)
    ensures RowAttributeName(row).None? ==> r == acc
    ensures RowAttributeName(row).Some? ==>
      var id := RowKey(row);
      var name := RowAttributeName(row).value;
      && r.m.Keys == acc.m.Keys + {id}
      && r.m[id].m == (if id in acc.m then acc.m[id].m else map[])[name := AttributeOfRow(row)]
      && forall k :: k in acc.m && k != id ==> r.m[k] == acc.m[k]
  {
    match RowAttributeName(row)
    case None => acc
    case Some(name) =>
      var id := RowKey(row);
      var inner := if id in acc.m then acc.m[id] else Empty();
      acc.Put(id, inner.Put(name, AttributeOfRow(row)))
  }

  function AttributeRows(rows: seq<Row>): (r: Attributes)
    ensures AttributesValid(r)
  {
    if |rows| == 0 then Empty()
    else AddAttributeRow(AttributeRows(rows[..|rows| - 1]), rows[|rows| - 1])
  }

  /** The attribute recorded by the last row for node `id` named `name`. */
  function LastAttribute(rows: seq<Row>, id: string, name: string): Option<Attribute> {
    if |rows| == 0 then None
    else
      var row := rows[|rows| - 1];
      if RowKey(row) == id && RowAttributeName(row) == Some(name) then Some(AttributeOfRow(row))
      else LastAttribute(rows[..|rows| - 1], id, name)
  }

  /** Rows without an attribute name are skipped, and of the rows naming the
      same attribute of the same node the last one wins. */
  lemma {:induction false} AttributeRowsLastWins(rows: seq<Row>, id: string, name: string)
    ensures var acc := AttributeRows(rows);
      (if id in acc.m && name in acc.m[id].m then Some(acc.m[id].m[name]) else None) == LastAttribute(rows, id, name)
  {
    if |rows| > 0 {
      AttributeRowsLastWins(rows[..|rows| - 1], id, name);
    }
  }

  /** `load_taxonomy_attributes`: a header lacking an attribute column raises. */
  function LoadTaxonomyAttributes(sheet: Sheet): (r: Result<Attributes, LoadError>)
    ensures r.Failure? <==> MissingColumns(AttributeFieldNames, sheet.columns) != {}
    ensures r.Failure? ==> r.error == AttributeHeader(MissingColumns(AttributeFieldNames, sheet.columns), sheet.columns)
    ensures r.Success? ==> AttributesValid(r.value) && r.value == AttributeRows(sheet.rows)
  {
    var missing := MissingColumns(AttributeFieldNames, sheet.columns);
    if missing != {} then Failure(AttributeHeader(missing, sheet.columns))
    else Success(AttributeRows(sheet.rows))
  }

  // ---------------------------------------------------------------- full taxonomy

  /** The node built from one taxonomy row. */
  function NodeOfRow(row: Row, attrs: Attributes): (n: Node)
    requires AttributesValid(attrs)
    ensures forall f :: f in n.fields <==> f in TaxonomyFieldNames
    ensures forall f :: f in TaxonomyFieldNames ==> n.fields[f] == CleanCell(CellAt(row, f))
    ensures n.attributes == if RowKey(row) in attrs.m then attrs.m[RowKey(row)] else Empty()
  {
    Node(map f | f in TaxonomyFieldNames :: CleanCell(CellAt(row, f)),
         if RowKey(row) in attrs.m then attrs.m[RowKey(row)] else Empty())
  }

  /** The IDs of the rows, in row order. */
  function RowKeys(rows: seq<Row>): (ks: seq<string>)
    ensures |ks| == |rows| && forall i :: 0 <= i < |rows| ==> ks[i] == RowKey(rows[i])
  {
    seq(|rows|, i requires 0 <= i < |rows| => RowKey(rows[i]))
  }

  /** `full_taxonomy[row_id] = taxonomy_dict` over the rows: the IDs keep
      the position of their first row. */
  function FullTaxonomy(rows: seq<Row>, attrs: Attributes): (r: Taxonomy)
    requires AttributesValid(attrs)
    ensures r.Valid()
    ensures r.keys == Dedup(RowKeys(rows))
    ensures forall k :: k in r.m ==> forall f :: f in r.m[k].fields <==> f in TaxonomyFieldNames
  {
    if |rows| == 0 then Empty()
    else
      var row := rows[|rows| - 1];
      assert RowKeys(rows)[..|rows| - 1] == RowKeys(rows[..|rows| - 1]);
      FullTaxonomy(rows[..|rows| - 1], attrs).Put(RowKey(row), NodeOfRow(row, attrs))
  }

  function LastNode(rows: seq<Row>, attrs: Attributes, id: string): Option<Node>
    requires AttributesValid(attrs)
  {
    if |rows| == 0 then None
    else if RowKey(rows[|rows| - 1]) == id then Some(NodeOfRow(rows[|rows| - 1], attrs))
    else LastNode(rows[..|rows| - 1], attrs, id)
  }

  /** Every row lands under its ID, the last of several rows with one ID winning. */
  lemma {:induction false} FullTaxonomyLastWins(rows: seq<Row>, attrs: Attributes, id: string)
    requires AttributesValid(attrs)
    ensures FullTaxonomy(rows, attrs).Get(id) == LastNode(rows, attrs, id)
  {
    if |rows| > 0 {
      FullTaxonomyLastWins(rows[..|rows| - 1], attrs, id);
    }
  }

  /** The first taxonomy column, in declaration order, the header lacks. */
  function FirstMissing(fields: seq<string>, columns: seq<string>): (r: Option<string>)
    ensures r.None? <==> forall f :: f in fields ==> f in columns
    ensures r.Some? ==> r.value in fields && r.value !in columns
  {
    if |fields| == 0 then None
    else if fields[0] !in columns then Some(fields[0])
    else
      assert forall f :: f in fields <==> f == fields[0] || f in fields[1..];
      FirstMissing(fields[1..], columns)
  }

  // ---------------------------------------------------------------- sub-graph

  /** Every child of `y` is in `f`. */
  ghost predicate ClosedAt(full: Taxonomy, f: Taxonomy, y: string) {
    forall c :: ChildOf(full, c, y) ==> c in f.m
  }

  /** `add_parents(x)`: walk up from `x`, adding each parent that is a key
      of the full taxonomy and not yet in the filtered one. */
  function AddParents(full: Taxonomy, f: Taxonomy, x: string): (r: Taxonomy)
    requires full.Valid() && f.Valid() && SubDict(f, full)
    ensures r.Valid() && SubDict(r, full) && SubDict(f, r)
    decreases full.m.Keys - f.m.Keys
  {
    if x in full.m && Truthy(GetField(full.m[x].fields, ParentField)) then
      var p := GetField(full.m[x].fields, ParentField).value;
      if p !in f.m && p in full.m then AddParents(full, f.Put(p, full.m[p]), p) else f
    else f
  }

  /** `add_children(x)`: every child of `x` not yet filtered is added and
      then expanded in turn. The result holds every child of `x`, and every
      node it added has all its children in the result. */
  function AddChildren(full: Taxonomy, f: Taxonomy, x: string): (r: Taxonomy)
    requires full.Valid() && f.Valid() && SubDict(f, full)
    ensures r.Valid() && SubDict(r, full) && SubDict(f, r)
    ensures forall c :: ChildOf(full, c, x) ==> c in r.m
    ensures forall y :: y in r.m && y !in f.m ==> ClosedAt(full, r, y)
    decreases full.m.Keys - f.m.Keys, |full.keys| + 1
  {
    var r := AddChildrenFrom(full, f, x, 0);
    assert forall c :: ChildOf(full, c, x) ==> c in full.keys;
    r
  }

  /** The loop of `add_children(x)` from position `i` of the full taxonomy. */
  function AddChildrenFrom(full: Taxonomy, f: Taxonomy, x: string, i: nat): (r: Taxonomy)
    requires full.Valid() && f.Valid() && SubDict(f, full) && i <= |full.keys|
    ensures r.Valid() && SubDict(r, full) && SubDict(f, r)
    ensures forall j :: i <= j < |full.keys| && ChildOf(full, full.keys[j], x) ==> full.keys[j] in r.m
    ensures forall y :: y in r.m && y !in f.m ==> ClosedAt(full, r, y)
    decreases full.m.Keys - f.m.Keys, |full.keys| - i
  {
    if i == |full.keys| then f
    else
      var k := full.keys[i];
      if ChildOf(full, k, x) && k !in f.m then
        var f1 := f.Put(k, full.m[k]);
        assert f1.m.Keys == f.m.Keys + {k} && SubDict(f1, full);
        assert full.m.Keys - f1.m.Keys < full.m.Keys - f.m.Keys;
        var f2 := AddChildren(full, f1, k);
        assert full.m.Keys - f2.m.Keys < full.m.Keys - f.m.Keys;
        var f3 := AddChildrenFrom(full, f2, x, i + 1);
        ClosedStep(full, f, f1, f2, f3, k);
        assert k in f3.m && SubDict(f, f3);
        f3
      else AddChildrenFrom(full, f, x, i + 1)
  }

  /** One iteration of `add_children`'s loop keeps every added node closed. */
  lemma ClosedStep(full: Taxonomy, f: Taxonomy, f1: Taxonomy, f2: Taxonomy, f3: Taxonomy, k: string)
    requires f1.m.Keys == f.m.Keys + {k}
    requires SubDict(f1, f2) && SubDict(f2, f3)
    requires forall c :: ChildOf(full, c, k) ==> c in f2.m
    requires forall y :: y in f2.m && y !in f1.m ==> ClosedAt(full, f2, y)
    requires forall y :: y in f3.m && y !in f2.m ==> ClosedAt(full, f3, y)
    ensures forall y :: y in f3.m && y !in f.m ==> ClosedAt(full, f3, y)
  {
    forall y | y in f3.m && y !in f.m
      ensures ClosedAt(full, f3, y)
    {
      if y in f2.m && y != k {
        assert ClosedAt(full, f2, y);
      }
    }
  }

  /** `y` is a strict descendant of `x` along the edges `add_children`
      follows. */
  ghost predicate Below(full: Taxonomy, y: string, x: string) {
    exists k: nat :: 1 <= k && Anc(ChildLinks(full), y, k) == Some(x)
  }

  /** A child of `x` is below `x`, and so is everything below that child. */
  lemma BelowChild(full: Taxonomy, c: string, x: string)
    requires ChildOf(full, c, x)
    ensures Below(full, c, x)
    ensures forall y :: Below(full, y, c) ==> Below(full, y, x)
  {
    var pc := ChildLinks(full);
    AncStep(pc, c, 0, c);
    assert Anc(pc, c, 1) == Some(x);
    forall y | Below(full, y, c)
      ensures Below(full, y, x)
    {
      var m: nat :| 1 <= m && Anc(pc, y, m) == Some(c);
      AncCompose(pc, y, m, 1, c);
      assert Anc(pc, y, m + 1) == Some(x);
    }
  }

  /** Nodes added under a child `k` of `x`, and after it, are below `x`. */
  lemma BelowThroughChild(full: Taxonomy, f: set<string>, f1: set<string>, f2: set<string>,
                          r: set<string>, k: string, x: string)
    requires f1 == f + {k} && ChildOf(full, k, x)
    requires forall y :: Below(full, y, k) ==> Below(full, y, x)
    requires forall y :: y in f2 && y !in f1 ==> Below(full, y, k)
    requires forall y :: y in r && y !in f2 ==> Below(full, y, x)
    requires Below(full, k, x)
    ensures forall y :: y in r && y !in f ==> Below(full, y, x)
  {
  }

  /** `add_children(x)` adds only nodes below `x`. */
  lemma {:induction false} AddChildrenOnlyDescendants(full: Taxonomy, f: Taxonomy, x: string)
    requires full.Valid() && f.Valid() && SubDict(f, full)
    ensures forall y :: y in AddChildren(full, f, x).m && y !in f.m ==> Below(full, y, x)
    decreases full.m.Keys - f.m.Keys, |full.keys| + 1
  {
    AddChildrenFromOnlyDescendants(full, f, x, 0);
  }

  lemma {:induction false} AddChildrenFromOnlyDescendants(full: Taxonomy, f: Taxonomy, x: string, i: nat)
    requires full.Valid() && f.Valid() && SubDict(f, full) && i <= |full.keys|
    ensures forall y :: y in AddChildrenFrom(full, f, x, i).m && y !in f.m ==> Below(full, y, x)
    decreases full.m.Keys - f.m.Keys, |full.keys| - i
  {
    if i < |full.keys| {
      var k := full.keys[i];
      var r := AddChildrenFrom(full, f, x, i);
      if ChildOf(full, k, x) && k !in f.m {
        var f1 := f.Put(k, full.m[k]);
        assert f1.m.Keys == f.m.Keys + {k} && SubDict(f1, full);
        assert full.m.Keys - f1.m.Keys < full.m.Keys - f.m.Keys;
        var f2 := AddChildren(full, f1, k);
        assert full.m.Keys - f2.m.Keys < full.m.Keys - f.m.Keys;
        AddChildrenOnlyDescendants(full, f1, k);
        AddChildrenFromOnlyDescendants(full, f2, x, i + 1);
        assert r == AddChildrenFrom(full, f2, x, i + 1);
        BelowChild(full, k, x);
        BelowThroughChild(full, f.m.Keys, f1.m.Keys, f2.m.Keys, r.m.Keys, k, x);
      } else {
        AddChildrenFromOnlyDescendants(full, f, x, i + 1);
      }
    }
  }

  /** `y` is reached from `x` by following parent edges. */
  ghost predicate IsAncestor(pm: map<string, string>, x: string, y: string) {
    exists k: nat :: Anc(pm, x, k) == Some(y)
  }

  /** `add_parents` adds only ancestors of its start node. */
  lemma {:induction false} AddParentsOnlyAncestors(full: Taxonomy, pm: map<string, string>, f: Taxonomy, x: string)
    requires full.Valid() && f.Valid() && SubDict(f, full) && pm == ParentLinks(full)
    ensures forall y :: y in AddParents(full, f, x).m && y !in f.m ==> IsAncestor(pm, x, y)
    decreases full.m.Keys - f.m.Keys
  {
    if x in pm {
      var p := pm[x];
      if p !in f.m && p in full.m {
        var f1 := f.Put(p, full.m[p]);
        assert f1.m.Keys == f.m.Keys + {p};
        assert full.m.Keys - f1.m.Keys < full.m.Keys - f.m.Keys;
        AddParentsOnlyAncestors(full, pm, f1, p);
        AncStep(pm, x, 0, x);
        forall y | y in AddParents(full, f1, p).m && y !in f.m
          ensures IsAncestor(pm, x, y)
        {
          if y == p {
            assert Anc(pm, x, 1) == Some(y);
          } else {
            var k: nat :| Anc(pm, p, k) == Some(y);
            AncCompose(pm, x, 1, k, p);
            assert Anc(pm, x, 1 + k) == Some(y);
          }
        }
      }
    }
  }

  /** Every node of `f` other than `x` has its parent in `f`, or a parent
      that is not a key of the full taxonomy, or none. */
  ghost predicate UpClosedExcept(full: Taxonomy, f: Taxonomy, x: string) {
    forall y :: y in f.m && y != x && y in ParentLinks(full) ==>
      ParentLinks(full)[y] in f.m || ParentLinks(full)[y] !in full.m
  }

  /** `add_parents(x)` adds every ancestor of `x` that is a key of the full
      taxonomy, even when the chain runs round a cycle. */
  lemma {:induction false} AddParentsAncestors(full: Taxonomy, f: Taxonomy, x: string)
    requires full.Valid() && f.Valid() && SubDict(f, full)
    requires x in f.m && UpClosedExcept(full, f, x)
    ensures forall k: nat, a :: Anc(ParentLinks(full), x, k) == Some(a) && a in full.m ==> a in AddParents(full, f, x).m
    decreases full.m.Keys - f.m.Keys
  {
    var pm := ParentLinks(full);
    var r := AddParents(full, f, x);
    if x in pm && pm[x] !in f.m && pm[x] in full.m {
      var p := pm[x];
      var f1 := f.Put(p, full.m[p]);
      assert f1.m.Keys == f.m.Keys + {p};
      assert full.m.Keys - f1.m.Keys < full.m.Keys - f.m.Keys;
      UpClosedPut(full, f, x, p);
      AddParentsAncestors(full, f1, p);
      assert r == AddParents(full, f1, p);
      AncestorsThroughParent(pm, x, p, full.m.Keys, r.m.Keys);
    } else {
      // Every ancestor present in `full` is already in `f`, which `r` contains.
      forall k: nat, a | Anc(pm, x, k) == Some(a) && a in full.m
        ensures a in r.m
      {
        UpClosedChain(full, f, x, k);
      }
    }
  }

  /** The ancestors of `x` are `x` and the ancestors of its parent `p`. */
  lemma AncestorsThroughParent(pm: map<string, string>, x: string, p: string, keys: set<string>, s: set<string>)
    requires x in pm && pm[x] == p && x in s
    requires forall k: nat, a :: Anc(pm, p, k) == Some(a) && a in keys ==> a in s
    ensures forall k: nat, a :: Anc(pm, x, k) == Some(a) && a in keys ==> a in s
  {
    forall k: nat, a | Anc(pm, x, k) == Some(a) && a in keys
      ensures a in s
    {
      if k > 0 {
        AncStep(pm, x, 0, x);
        AncCompose(pm, x, 1, k - 1, p);
        assert Anc(pm, p, k - 1) == Some(a);
      }
    }
  }

  /** Adding the parent `p` of `x` moves the one open end of `f` from `x` to `p`. */
  lemma UpClosedPut(full: Taxonomy, f: Taxonomy, x: string, p: string)
    requires f.Valid() && x in f.m && UpClosedExcept(full, f, x)
    requires x in ParentLinks(full) && ParentLinks(full)[x] == p && p in full.m
    ensures UpClosedExcept(full, f.Put(p, full.m[p]), p)
  {
    var f1 := f.Put(p, full.m[p]);
    forall y | y in f1.m && y != p && y in ParentLinks(full)
      ensures ParentLinks(full)[y] in f1.m || ParentLinks(full)[y] !in full.m
    {
      assert y in f.m;
    }
  }

  lemma {:induction false} UpClosedChain(full: Taxonomy, f: Taxonomy, x: string, k: nat)
    requires x in f.m && UpClosedExcept(full, f, x)
    requires x in ParentLinks(full) ==> ParentLinks(full)[x] in f.m || ParentLinks(full)[x] !in full.m
    ensures Anc(ParentLinks(full), x, k).Some? && Anc(ParentLinks(full), x, k).value in full.m ==>
      Anc(ParentLinks(full), x, k).value in f.m
  {
    var pm := ParentLinks(full);
    if k > 0 {
      UpClosedChain(full, f, x, k - 1);
      match Anc(pm, x, k - 1)
      case None =>
      case Some(y) =>
        AncStep(pm, x, k - 1, y);
        if y in pm && pm[y] in full.m {
          assert y in full.m;
        }
    }
  }

  /** The sub-graph around `sub`: the node, then its ancestors, then its
      descendants; an unknown `sub` raises. */
  function SubGraph(full: Taxonomy, sub: string): (r: Result<Taxonomy, LoadError>)
    requires full.Valid()
    ensures r.Failure? <==> sub !in full.m
    ensures r.Failure? ==> r.error == SubGraphNotFound(sub)
    ensures r.Success? ==> r.value.Valid() && SubDict(r.value, full) && sub in r.value.m
    ensures r.Success? ==> forall k: nat, a :: Anc(ParentLinks(full), sub, k) == Some(a) && a in full.m ==> a in r.value.m
    ensures r.Success? ==> forall c :: ChildOf(full, c, sub) ==> c in r.value.m
    ensures r.Success? ==> forall y :: y in r.value.m ==>
      IsAncestor(ParentLinks(full), sub, y) || Below(full, y, sub)
  {
    if sub !in full.m then Failure(SubGraphNotFound(sub))
    else
      var f0 := Empty<string, Node>().Put(sub, full.m[sub]);
      var f1 := AddParents(full, f0, sub);
      AddParentsAncestors(full, f0, sub);
      AddParentsOnlyAncestors(full, ParentLinks(full), f0, sub);
      var f2 := AddChildren(full, f1, sub);
      AddChildrenOnlyDescendants(full, f1, sub);
      assert Anc(ParentLinks(full), sub, 0) == Some(sub);
      Success(f2)
  }

  /** No ancestor of `sub`, nor `sub` itself, is a strict descendant of `sub`. */
  ghost predicate NoCycleThrough(full: Taxonomy, sub: string) {
    forall j: nat, k: nat :: Anc(ParentLinks(full), sub, j).Some? && 1 <= k ==>
      Anc(ChildLinks(full), Anc(ParentLinks(full), sub, j).value, k) != Some(sub)
  }

  /** When `sub` lies on no cycle, the sub-graph holds every descendant of
      `sub`. (On a cycle a descendant reachable only through an ancestor
      that is already filtered is not expanded.) */
  lemma SubGraphDescendants(full: Taxonomy, sub: string)
    requires full.Valid() && sub in full.m && NoCycleThrough(full, sub)
    ensures forall k: nat, d :: 1 <= k && Anc(ChildLinks(full), d, k) == Some(sub) ==> d in SubGraph(full, sub).value.m
  {
    var pc := ChildLinks(full);
    var f0 := Empty<string, Node>().Put(sub, full.m[sub]);
    var f1 := AddParents(full, f0, sub);
    AddParentsOnlyAncestors(full, ParentLinks(full), f0, sub);
    var r := SubGraph(full, sub).value;
    assert r == AddChildren(full, f1, sub);
    forall y | y in f1.m
      ensures forall k: nat :: 1 <= k ==> Anc(pc, y, k) != Some(sub)
    {
      if y == sub {
        assert Anc(ParentLinks(full), sub, 0) == Some(sub);
      } else {
        assert IsAncestor(ParentLinks(full), sub, y);
        var j: nat :| Anc(ParentLinks(full), sub, j) == Some(y);
      }
    }
    forall k: nat, d | 1 <= k && Anc(pc, d, k) == Some(sub)
      ensures d in r.m
    {
      DescendantsIn(full, sub, f1, r, k, d);
    }
  }

  lemma {:induction false} DescendantsIn(full: Taxonomy, sub: string, f1: Taxonomy, r: Taxonomy, k: nat, d: string)
    requires forall c :: ChildOf(full, c, sub) ==> c in r.m
    requires forall y :: y in r.m && y !in f1.m ==> ClosedAt(full, r, y)
    requires forall y :: y in f1.m ==> forall k: nat :: 1 <= k ==> Anc(ChildLinks(full), y, k) != Some(sub)
    requires 1 <= k && Anc(ChildLinks(full), d, k) == Some(sub)
    ensures d in r.m
    decreases k
  {
    var pc := ChildLinks(full);
    AncStep(pc, d, 0, d);
    if k == 1 {
      assert ChildOf(full, d, sub);
    } else {
      assert d in pc by {
        if d !in pc {
          AncAbsorbing(pc, d, 1, k);
        }
      }
      var y := pc[d];
      AncCompose(pc, d, 1, k - 1, y);
      DescendantsIn(full, sub, f1, r, k - 1, y);
      assert y !in f1.m;
      assert ClosedAt(full, r, y);
      assert ChildOf(full, d, y);
    }
  }

  /** In a taxonomy without parent cycles the sub-graph holds every descendant. */
  lemma SubGraphDescendantsAcyclic(full: Taxonomy, sub: string)
    requires full.Valid() && sub in full.m && Acyclic(ChildLinks(full))
    ensures forall k: nat, d :: 1 <= k && Anc(ChildLinks(full), d, k) == Some(sub) ==> d in SubGraph(full, sub).value.m
  {
    var pt := ParentLinks(full);
    var pc := ChildLinks(full);
    forall j: nat, k: nat | Anc(pt, sub, j).Some? && 1 <= k
      ensures Anc(pc, Anc(pt, sub, j).value, k) != Some(sub)
    {
      var a := Anc(pt, sub, j).value;
      AncSubmap(pt, pc, sub, j);
      AncCompose(pc, sub, j, k, a);
    }
    SubGraphDescendants(full, sub);
  }

  // ---------------------------------------------------------------- loading

  /** One workbook: its taxonomy sheet and its attributes sheet. */
  datatype Workbook = Workbook(taxonomy: Sheet, attributes: Sheet)

  /** `load_taxonomy(path, sheet_name, sub_graph)` on a workbook that could
      be read. */
  function LoadTaxonomyFrom(wb: Workbook, subGraph: Option<string>): (r: Result<Taxonomy, LoadError>)
    ensures r.Failure? ==> r.error.ReadError?
    ensures LoadTaxonomyAttributes(wb.attributes).Failure? ==> r == Failure(ReadError(LoadTaxonomyAttributes(wb.attributes).error))
    ensures LoadTaxonomyAttributes(wb.attributes).Success? ==>
      var attrs := LoadTaxonomyAttributes(wb.attributes).value;
      var full := FullTaxonomy(wb.taxonomy.rows, attrs);
      && (|wb.taxonomy.rows| > 0 && FirstMissing(TaxonomyFieldNames, wb.taxonomy.columns).Some? ==>
            r == Failure(ReadError(KeyError(FirstMissing(TaxonomyFieldNames, wb.taxonomy.columns).value))))
      && (|wb.taxonomy.rows| == 0 || FirstMissing(TaxonomyFieldNames, wb.taxonomy.columns).None? ==>
            && (!Truthy(subGraph) ==> r == Success(full))
            && (Truthy(subGraph) ==>
                  && (r.Failure? <==> subGraph.value !in full.m)
                  && (r.Success? ==> SubDict(r.value, full) && subGraph.value in r.value.m)
                  && (SubGraph(full, subGraph.value).Success? ==> r == SubGraph(full, subGraph.value))
                  && (SubGraph(full, subGraph.value).Failure? ==> r == Failure(ReadError(SubGraph(full, subGraph.value).error)))))
  {
    match LoadTaxonomyAttributes(wb.attributes)
    case Failure(e) => Failure(ReadError(e))
    case Success(attrs) =>
      var miss := FirstMissing(TaxonomyFieldNames, wb.taxonomy.columns);
      if |wb.taxonomy.rows| > 0 && miss.Some? then Failure(ReadError(KeyError(miss.value)))
      else
        var full := FullTaxonomy(wb.taxonomy.rows, attrs);
        if !Truthy(subGraph) then Success(full)
        else
          match SubGraph(full, subGraph.value)
          case Failure(e) => Failure(ReadError(e))
          case Success(g) => Success(g)
  }

  /** The sub-graph ID used for file `i`. */
  function SubGraphFor(subGraphs: Option<seq<string>>, i: nat): (r: Option<string>)
    ensures r.Some? <==> subGraphs.Some? && i < |subGraphs.value|
    ensures r.Some? ==> r.value == subGraphs.value[i]
  {
    if subGraphs.Some? && i < |subGraphs.value| then Some(subGraphs.value[i]) else None
  }

  /** All the values when every result succeeded; otherwise the first failure. */
  function Collect<T, E>(rs: seq<Result<T, E>>): (r: Result<seq<T>, E>)
    ensures r.Success? ==> (|r.value| == |rs| && forall i :: 0 <= i < |rs| ==> rs[i] == Success(r.value[i]))
    ensures r.Failure? ==> exists i :: 0 <= i < |rs| && rs[i] == Failure(r.error) && forall j :: 0 <= j < i ==> rs[j].Success?
    ensures r.Failure? <==> exists i :: 0 <= i < |rs| && rs[i].Failure?
  {
    if rs == [] then Success([])
    else
      match rs[0]
      case Failure(e) => Failure(e)
      case Success(v) =>
        match Collect(rs[1..])
        case Failure(e) =>
          assert exists i :: 0 <= i < |rs| && rs[i] == Failure(e) && forall j :: 0 <= j < i ==> rs[j].Success? by {
            var i :| 0 <= i < |rs[1..]| && rs[1..][i] == Failure(e) && forall j :: 0 <= j < i ==> rs[1..][j].Success?;
            assert rs[i + 1] == Failure(e);
            assert forall j :: 1 <= j < i + 1 ==> rs[j] == rs[1..][j - 1];
          }
          Failure(e)
        case Success(vs) =>
          assert forall i :: 1 <= i < |rs| ==> rs[i] == rs[1..][i - 1];
          Success([v] + vs)
  }

  /** `load_multiple_graphs(files, sub_graphs)`: one graph per file, file i
      filtered by `sub_graphs[i]` when there is one; the first failure is
      raised. */
  function LoadMultipleGraphs(files: seq<Workbook>, subGraphs: Option<seq<string>>): (r: Result<seq<Taxonomy>, LoadError>)
    ensures r.Success? ==> (|r.value| == |files| &&
      forall i :: 0 <= i < |files| ==> LoadTaxonomyFrom(files[i], SubGraphFor(subGraphs, i)) == Success(r.value[i]))
    ensures r.Failure? <==> exists i :: 0 <= i < |files| && LoadTaxonomyFrom(files[i], SubGraphFor(subGraphs, i)).Failure?
    ensures r.Failure? ==> exists i ::
      && 0 <= i < |files|
      && LoadTaxonomyFrom(files[i], SubGraphFor(subGraphs, i)) == Failure(r.error)
      && forall j :: 0 <= j < i ==> LoadTaxonomyFrom(files[j], SubGraphFor(subGraphs, j)).Success?
  {
    var rs := seq(|files|, i requires 0 <= i < |files| => LoadTaxonomyFrom(files[i], SubGraphFor(subGraphs, i)));
    assert forall i :: 0 <= i < |files| ==> rs[i] == LoadTaxonomyFrom(files[i], SubGraphFor(subGraphs, i));
    Collect(rs)
  }
}

=== FILE: mappings.dfy ===
/** The end-to-end coverage report of `compit/taxonomy/mappings.py`: every
    descendant of a dimension in the document-requirement taxonomy is
    followed to the taxonomy node its mapping names, and from there to the
    OCX schema element (or enumeration value, or substitution group) that
    node's mapping names. */
module Mappings {
  import opened Wrappers
  import opened Dicts
  import opened Strings
  import opened Chains
  import opened TaxonomyModel
  import opened Hierarchy

  datatype MappingError =
    | RecursionLimit        // the descendant recursion does not end
    | IndexError            // `split(...)[1]` on a string without the separator
    | ValueError            // `a, b = s.split('=')` with more than one '='
    | KeyError(key: string)

  /** The parts of the OCX schema the classification reads: namespace
      prefixes, the element lookup table (by `{namespace}name`) and the
      values of each enumeration type. */
  datatype Schema = Schema(namespaces: map<string, string>, elements: set<string>, enumerations: map<string, set<string>>)

  // ---------------------------------------------------------------- descendants

  /** `get_all_descendants(node_id, doc_req)` */
  function GetAllDescendants(doc: Taxonomy, x: string): (r: Result<seq<string>, MappingError>)
    requires doc.Valid()
    ensures r.Failure? ==> r.error == RecursionLimit
    ensures r.Success? ==> forall d :: d in r.value <==> IsDescendant(ChildLinks(doc), d, x)
    ensures r.Success? ==> forall d :: d in r.value ==> d in doc.m
    ensures r.Success? ==> ParentsPrecede(doc.keys, ChildLinks(doc), x, r.value)
    ensures r.Success? ==> NoDuplicates(r.value) && SiblingsInOrder(doc.keys, ChildLinks(doc), x, 0, r.value)
    ensures Acyclic(ChildLinks(doc)) ==> r.Success?
  {
    DescendantsFacts(doc, x);
    match AllDescendants(doc.keys, ChildLinks(doc), x)
    case None => Failure(RecursionLimit)
    case Some(ds) =>
      DescendantsAreKeys(doc, x, ds);
      Success(ds)
  }

  /** A strict descendant is a key: it has a parent link. */
  lemma DescendantsAreKeys(doc: Taxonomy, x: string, ds: seq<string>)
    requires doc.Valid()
    requires forall d :: d in ds ==> IsDescendant(ChildLinks(doc), d, x)
    ensures forall d :: d in ds ==> d in doc.m
  {
    forall n | n in ds
      ensures n in doc.m
    {
      var k: nat :| 1 <= k && Anc(ChildLinks(doc), n, k) == Some(x);
      AncStep(ChildLinks(doc), n, 0, n);
      if n !in ChildLinks(doc) {
        AncAbsorbing(ChildLinks(doc), n, 1, k);
      }
    }
  }

  lemma DescendantsFacts(doc: Taxonomy, x: string)
    requires doc.Valid()
    ensures Acyclic(ChildLinks(doc)) ==> AllDescendants(doc.keys, ChildLinks(doc), x).Some?
    ensures AllDescendants(doc.keys, ChildLinks(doc), x).Some? ==>
      forall d :: d in AllDescendants(doc.keys, ChildLinks(doc), x).value <==> IsDescendant(ChildLinks(doc), d, x)
    ensures AllDescendants(doc.keys, ChildLinks(doc), x).Some? ==>
      && NoDuplicates(AllDescendants(doc.keys, ChildLinks(doc), x).value)
      && SiblingsInOrder(doc.keys, ChildLinks(doc), x, 0, AllDescendants(doc.keys, ChildLinks(doc), x).value)
  {
    var pm := ChildLinks(doc);
    assert forall y :: y in pm ==> y in doc.keys;
    if Acyclic(pm) {
      DescendantsAcyclic(doc.keys, pm, x, {});
    }
    if AllDescendants(doc.keys, pm, x).Some? {
      AllDescendantsExact(doc.keys, pm, x);
      AllDescendantsNoDuplicates(doc.keys, pm, x);
      AllDescendantsSiblingOrder(doc.keys, pm, x);
    }
  }

  // ---------------------------------------------------------------- element tags

  function NsGet(ns: map<string, string>, prefix: string): string {
    if prefix in ns then ns[prefix] else ""
  }

  /** `'{' + ns.get(prefix, '') + '}' + name` */
  function ClarkName(ns: map<string, string>, prefix: string, name: string): string {
    "{" + NsGet(ns, prefix) + "}" + name
  }

  /** `s` up to the first `c`. */
  function Before(s: string, c: char): string {
    s[..IndexOf(s, c)]
  }

  /** The tag of a qualified name `q`, read as `q.split(':')[0]` and
      `q.split(':')[1]`: the prefix is the text before the first colon and
      the name the text after it, up to a second colon. */
  function ElementTag(ns: map<string, string>, q: string): (r: Result<string, MappingError>)
    ensures r.Failure? <==> ':' !in q
    ensures r.Failure? ==> r.error == IndexError
    ensures r.Success? ==> r.value == ClarkName(ns, Before(q, ':'), Before(q[IndexOf(q, ':') + 1..], ':'))
  {
    var ps := Split(q, ':');
    if |ps| < 2 then Failure(IndexError)
    else
      var i := IndexOf(q, ':');
      assert ps == [q[..i]] + Split(q[i + 1..], ':');
      SplitHead(q[i + 1..], ':');
      Success(ClarkName(ns, ps[0], ps[1]))
  }

  /** A `prefix:name` with one colon names `{namespace}name`. */
  lemma QualifiedTag(ns: map<string, string>, p: string, n: string)
    requires ':' !in p && ':' !in n
    ensures ElementTag(ns, p + ":" + n) == Success(ClarkName(ns, p, n))
  {
    var q := p + ":" + n;
    SplitFirst(p, ':', n);
    assert IndexOf(q, ':') == |p| by {
      assert q[|p|] == ':';
      assert forall j :: 0 <= j < |p| ==> q[j] == p[j];
    }
    assert q[..|p|] == p && q[|p| + 1..] == n;
  }

  // ---------------------------------------------------------------- mapping validity

  /** `'@' in m and not '=' in m`: an enumeration value `elem@type#value`. */
  predicate IsEnumMapping(m: string) {
    '@' in m && '=' !in m
  }

  /** `'=' in m and '[' in m`: a substitution group `base=[a, b]`. */
  predicate IsSubstitution(m: string) {
    '=' in m && '[' in m
  }

  /** `is_valid` for an enumeration mapping. */
  function EnumValid(schema: Schema, m: string): (r: Result<bool, MappingError>)
    requires '@' in m
    ensures r.Failure? <==> ':' !in Before(m, '@') || '#' !in m
    ensures r.Failure? ==> r.error == IndexError
  {
    var at := Split(m, '@');
    SplitHead(m, '@');
    var tag :- ElementTag(schema.namespaces, at[0]);
    var hash := Split(m, '#');
    if |hash| < 2 then Failure(IndexError)
    else
      var enumType := Split(at[1], '#')[0];
      var value := hash[1];
      Success(tag in schema.elements && enumType in schema.enumerations && value in schema.enumerations[enumType])
  }

  /** The substitutes of `base=[a, b]`: `s.strip('[]').split(',')`, each stripped. */
  function Substitutes(s: string): (subs: seq<string>)
    ensures |subs| >= 1
    ensures forall i :: 0 <= i < |subs| ==> ',' !in subs[i]
  {
    var pieces := Split(StripChars(s, {'[', ']'}), ',');
    assert forall i :: 0 <= i < |pieces| ==> ',' !in Strip(pieces[i]);
    seq(|pieces|, i requires 0 <= i < |pieces| => Strip(pieces[i]))
  }

  /** The loop over the substitutes: a prefixed substitute sets `is_valid`
      to whether its tag is known, one without a prefix is skipped. */
  function SubstituteLoop(schema: Schema, subs: seq<string>, valid: bool): bool
    decreases |subs|
  {
    if subs == [] then valid
    else
      var v := if ':' in subs[0] then ClarkOf(schema, subs[0]) in schema.elements else valid;
      SubstituteLoop(schema, subs[1..], v)
  }

  /** The tag of a prefixed name. */
  function ClarkOf(schema: Schema, q: string): string
    requires ':' in q
  {
    ElementTag(schema.namespaces, q).value
  }

  /** The last substitute that carries a prefix. */
  function LastPrefixed(subs: seq<string>): (r: Option<string>)
    ensures r.None? <==> forall i :: 0 <= i < |subs| ==> ':' !in subs[i]
    ensures r.Some? ==> ':' in r.value && r.value in subs
    decreases |subs|
  {
    if subs == [] then None
    else if ':' in subs[|subs| - 1] then Some(subs[|subs| - 1])
    else
      var r := LastPrefixed(subs[..|subs| - 1]);
      assert forall i :: 0 <= i < |subs| - 1 ==> subs[..|subs| - 1][i] == subs[i];
      r
  }

  /** Only the last prefixed substitute decides; with none, the flag keeps
      its initial value. */
  lemma {:induction false} LastSubstituteDecides(schema: Schema, subs: seq<string>, valid: bool)
    ensures SubstituteLoop(schema, subs, valid) ==
      match LastPrefixed(subs)
      case None => valid
      case Some(q) => ClarkOf(schema, q) in schema.elements
    decreases |subs|
  {
    if subs != [] {
      var v := if ':' in subs[0] then ClarkOf(schema, subs[0]) in schema.elements else valid;
      assert SubstituteLoop(schema, subs, valid) == SubstituteLoop(schema, subs[1..], v);
      LastSubstituteDecides(schema, subs[1..], v);
      LastPrefixedTail(subs);
    }
  }

  /** Dropping the first substitute changes the last prefixed one only when
      no later substitute has a prefix. */
  lemma LastPrefixedTail(subs: seq<string>)
    requires subs != []
    ensures LastPrefixed(subs[1..]).Some? ==> LastPrefixed(subs) == LastPrefixed(subs[1..])
    ensures LastPrefixed(subs[1..]).None? ==>
      LastPrefixed(subs) == if ':' in subs[0] then Some(subs[0]) else None
    decreases |subs|
  {
    if |subs| > 1 && ':' !in subs[|subs| - 1] {
      var init := subs[..|subs| - 1];
      assert init[1..] == subs[1..][..|subs[1..]| - 1];
      LastPrefixedTail(init);
    }
  }

  /** `is_valid` for a substitution group. */
  function SubstitutionValid(schema: Schema, m: string): (r: Result<bool, MappingError>)
    requires '=' in m
    ensures r.Failure? <==> '=' in m[IndexOf(m, '=') + 1..]
    ensures r.Failure? ==> r.error == ValueError
    ensures r.Success? ==> r.value == match LastPrefixed(Substitutes(m[IndexOf(m, '=') + 1..]))
      case None => false
      case Some(q) => ClarkOf(schema, q) in schema.elements
  {
    var parts := Split(m, '=');
    var rest := m[IndexOf(m, '=') + 1..];
    assert parts == [m[..IndexOf(m, '=')]] + Split(rest, '=');
    if |parts| != 2 then Failure(ValueError)
    else
      LastSubstituteDecides(schema, Substitutes(parts[1]), false);
      Success(SubstituteLoop(schema, Substitutes(parts[1]), false))
  }

  /** `is_valid` for an OCX mapping string, by its shape. */
  function OcxValid(schema: Schema, m: string): (r: Result<bool, MappingError>)
    ensures IsEnumMapping(m) ==> r == EnumValid(schema, m)
    ensures IsSubstitution(m) ==> r == SubstitutionValid(schema, m)
    ensures !IsEnumMapping(m) && !IsSubstitution(m) ==>
      (r.Failure? <==> ':' !in m) && (r.Success? ==> r.value == (ElementTag(schema.namespaces, m).value in schema.elements))
  {
    if IsEnumMapping(m) then EnumValid(schema, m)
    else if IsSubstitution(m) then SubstitutionValid(schema, m)
    else
      var tag :- ElementTag(schema.namespaces, m);
      Success(tag in schema.elements)
  }

  /** A plain `prefix:name` mapping is valid iff `{namespace}name` is a known element. */
  lemma PlainMappingValid(schema: Schema, p: string, n: string)
    requires ':' !in p && '@' !in p && '=' !in p
    requires ':' !in n && '@' !in n && '=' !in n
    ensures OcxValid(schema, p + ":" + n) == Success(ClarkName(schema.namespaces, p, n) in schema.elements)
  {
    NotInJoin(p, ':', n, '@');
    NotInJoin(p, ':', n, '=');
    QualifiedTag(schema.namespaces, p, n);
  }

  /** An enumeration mapping `p:n@t#v` is valid iff the element is known,
      the enumeration type is known and `v` is one of its values. */
  lemma EnumMappingValid(schema: Schema, p: string, n: string, t: string, v: string)
    requires ':' !in p && '@' !in p && '#' !in p && '=' !in p
    requires ':' !in n && '@' !in n && '#' !in n && '=' !in n
    requires '@' !in t && '#' !in t && '=' !in t
    requires '@' !in v && '#' !in v && '=' !in v
    ensures OcxValid(schema, p + ":" + n + "@" + t + "#" + v) ==
      Success(ClarkName(schema.namespaces, p, n) in schema.elements &&
              t in schema.enumerations && v in schema.enumerations[t])
  {
    var e := p + ":" + n;
    var m := e + "@" + t + "#" + v;
    NotInJoin(p, ':', n, '@');
    NotInJoin(p, ':', n, '#');
    NotInJoin(p, ':', n, '=');
    EnumSplits(e, t, v);
    QualifiedTag(schema.namespaces, p, n);
    SplitHead(m, '@');
    assert Split(m, '@')[0] == e;
    assert Before(m, '@') == e;
    assert IsEnumMapping(m);
  }

  lemma NotInJoin(a: string, sep: char, b: string, c: char)
    requires c !in a && c !in b && c != sep
    ensures c !in a + [sep] + b
  {
    assert forall k :: 0 <= k < |a + [sep] + b| ==> (a + [sep] + b)[k] == (if k < |a| then a[k] else if k == |a| then sep else b[k - |a| - 1]);
  }

  /** How `e@t#v` splits at its separators. */
  lemma EnumSplits(e: string, t: string, v: string)
    requires '@' !in e && '#' !in e && '=' !in e
    requires '@' !in t && '#' !in t && '=' !in t
    requires '@' !in v && '#' !in v && '=' !in v
    ensures Split(e + "@" + t + "#" + v, '@') == [e, t + "#" + v]
    ensures Split(e + "@" + t + "#" + v, '#') == [e + "@" + t, v]
    ensures Split(t + "#" + v, '#')[0] == t
    ensures '=' !in e + "@" + t + "#" + v
  {
    var m := e + "@" + t + "#" + v;
    NotInJoin(t, '#', v, '@');
    NotInJoin(t, '#', v, '=');
    assert m == e + ['@'] + (t + "#" + v);
    SplitFirst(e, '@', t + "#" + v);
    SplitFirst(t, '#', v);
    NotInJoin(e, '@', t, '#');
    NotInJoin(e, '@', t, '=');
    assert m == (e + "@" + t) + ['#'] + v;
    SplitFirst(e + "@" + t, '#', v);
    NotInJoin(e + "@" + t, '#', v, '=');
  }

  // ---------------------------------------------------------------- classification

  datatype Item = Item(node: string, taxonomy: string, detail: string)

  /** The items a node adds to `mapped_items` and to `not_mapped_items`. */
  datatype Tally = Tally(mapped: seq<Item>, notMapped: seq<Item>) {
    function Total(): nat {
      |mapped| + |notMapped|
    }
  }

  const NoTaxonomyMapping: string := "No taxonomy mapping"
  const NoOcxMapping: string := "No OCX mapping"
  const InvalidOcxMapping: string := "Invalid OCX mapping"

  function TaxMapping(doc: Taxonomy, node: string): Option<string>
    requires node in doc.m
  {
    GetField(doc.m[node].fields, MappingField)
  }

  /** The taxonomy node a document node maps to, when the mapping is a
      non-empty taxonomy key. */
  predicate MapsIntoTaxonomy(doc: Taxonomy, tax: Taxonomy, node: string)
    requires node in doc.m
  {
    Truthy(TaxMapping(doc, node)) && TaxMapping(doc, node).value in tax.m
  }

  function OcxMapping(doc: Taxonomy, tax: Taxonomy, node: string): Option<string>
    requires node in doc.m && MapsIntoTaxonomy(doc, tax, node)
  {
    GetField(tax.m[TaxMapping(doc, node).value].fields, MappingField)
  }

  /** The node's mapping chain ends at a valid OCX mapping. */
  predicate ChainValid(doc: Taxonomy, tax: Taxonomy, schema: Schema, node: string)
    requires node in doc.m
  {
    MapsIntoTaxonomy(doc, tax, node) && Truthy(OcxMapping(doc, tax, node)) &&
    OcxValid(schema, OcxMapping(doc, tax, node).value) == Success(true)
  }

  /** The classification of one node as the loop body intends it: one item,
      in `mapped` iff the chain is valid. */
  function Classify(doc: Taxonomy, tax: Taxonomy, schema: Schema, node: string): (r: Result<Tally, MappingError>)
    requires node in doc.m
    ensures r.Failure? <==> MapsIntoTaxonomy(doc, tax, node) && Truthy(OcxMapping(doc, tax, node)) &&
                            OcxValid(schema, OcxMapping(doc, tax, node).value).Failure?
    ensures r.Success? ==> r.value.Total() == 1
    ensures r.Success? ==> (|r.value.mapped| == 1 <==> ChainValid(doc, tax, schema, node))
    ensures r.Success? ==> forall it :: it in r.value.mapped + r.value.notMapped ==> it.node == node
    ensures !MapsIntoTaxonomy(doc, tax, node) ==> r == Success(Tally([], [Item(node, NoTaxonomyMapping, "")]))
    ensures MapsIntoTaxonomy(doc, tax, node) && !Truthy(OcxMapping(doc, tax, node)) ==>
      r == Success(Tally([], [Item(node, TaxMapping(doc, node).value, NoOcxMapping)]))
  {
    if !MapsIntoTaxonomy(doc, tax, node) then Success(Tally([], [Item(node, NoTaxonomyMapping, "")]))
    else
      var t := TaxMapping(doc, node).value;
      var ocx := OcxMapping(doc, tax, node);
      if !Truthy(ocx) then Success(Tally([], [Item(node, t, NoOcxMapping)]))
      else
        var valid :- OcxValid(schema, ocx.value);
        if valid then Success(Tally([Item(node, t, ocx.value)], []))
        else Success(Tally([], [Item(node, t, InvalidOcxMapping)]))
  }

  /** The classification as the loop body is written: for a substitution
      group the item is appended inside the substitution branch and again
      after it. */
  function ClassifyAsWritten(doc: Taxonomy, tax: Taxonomy, schema: Schema, node: string): (r: Result<Tally, MappingError>)
    requires node in doc.m
    ensures r.Failure? <==> Classify(doc, tax, schema, node).Failure?
  {
    if !MapsIntoTaxonomy(doc, tax, node) then Success(Tally([], [Item(node, NoTaxonomyMapping, "")]))
    else
      var t := TaxMapping(doc, node).value;
      var ocx := OcxMapping(doc, tax, node);
      if !Truthy(ocx) then Success(Tally([], [Item(node, t, NoOcxMapping)]))
      else
        var valid :- OcxValid(schema, ocx.value);
        var once := if valid then Tally([Item(node, t, ocx.value)], []) else Tally([], [Item(node, t, InvalidOcxMapping)]);
        if IsSubstitution(ocx.value) && !IsEnumMapping(ocx.value) then
          Success(Tally(once.mapped + once.mapped, once.notMapped + once.notMapped))
        else Success(once)
  }

  /** A node whose taxonomy mapping leads to a substitution group is counted
      twice as written; every other node is classified as intended. */
  lemma AsWrittenCountsSubstitutionTwice(doc: Taxonomy, tax: Taxonomy, schema: Schema, node: string)
    requires node in doc.m
    requires ClassifyAsWritten(doc, tax, schema, node).Success?
    ensures var w := ClassifyAsWritten(doc, tax, schema, node).value;
      var c := Classify(doc, tax, schema, node).value;
      if MapsIntoTaxonomy(doc, tax, node) && Truthy(OcxMapping(doc, tax, node)) && IsSubstitution(OcxMapping(doc, tax, node).value)
      then w == Tally(c.mapped + c.mapped, c.notMapped + c.notMapped) && w.Total() == 2
      else w == c
  {
  }

  // ---------------------------------------------------------------- per dimension

  /** The items of a list of nodes, in order; the first failure is raised. */
  function TallyNodes(doc: Taxonomy, tax: Taxonomy, schema: Schema, nodes: seq<string>): (r: Result<Tally, MappingError>)
    requires forall n :: n in nodes ==> n in doc.m
    ensures r.Success? ==> r.value.Total() == |nodes|
    ensures r.Success? ==> |r.value.mapped| == ValidCount(doc, tax, schema, nodes)
    ensures r.Success? ==> forall it :: it in r.value.mapped ==> it.node in nodes && it.node in doc.m && ChainValid(doc, tax, schema, it.node)
    ensures r.Success? ==> forall it :: it in r.value.notMapped ==> it.node in nodes && it.node in doc.m && !ChainValid(doc, tax, schema, it.node)
    ensures r.Failure? <==> exists n :: n in nodes && Classify(doc, tax, schema, n).Failure?
    decreases |nodes|
  {
    if nodes == [] then Success(Tally([], []))
    else
      var init := nodes[..|nodes| - 1];
      var last := nodes[|nodes| - 1];
      assert forall n :: n in nodes <==> n in init || n == last;
      var t :- TallyNodes(doc, tax, schema, init);
      var c :- Classify(doc, tax, schema, last);
      Success(Tally(t.mapped + c.mapped, t.notMapped + c.notMapped))
  }

  /** How many of the nodes have a valid mapping chain. */
  ghost function ValidCount(doc: Taxonomy, tax: Taxonomy, schema: Schema, nodes: seq<string>): nat
    requires forall n :: n in nodes ==> n in doc.m
    decreases |nodes|
  {
    if nodes == [] then 0
    else
      var init := nodes[..|nodes| - 1];
      assert forall n :: n in init ==> n in nodes;
      ValidCount(doc, tax, schema, init) + (if ChainValid(doc, tax, schema, nodes[|nodes| - 1]) then 1 else 0)
  }

  /** Every node of the list lands in `mapped` or in `not_mapped`. */
  lemma {:induction false} TallyCovers(doc: Taxonomy, tax: Taxonomy, schema: Schema, nodes: seq<string>)
    requires forall n :: n in nodes ==> n in doc.m
    requires TallyNodes(doc, tax, schema, nodes).Success?
    ensures var t := TallyNodes(doc, tax, schema, nodes).value;
      forall n :: n in nodes ==> exists it :: it in t.mapped + t.notMapped && it.node == n
    decreases |nodes|
  {
    if nodes != [] {
      var init := nodes[..|nodes| - 1];
      var last := nodes[|nodes| - 1];
      assert forall n :: n in nodes <==> n in init || n == last;
      TallyCovers(doc, tax, schema, init);
      var t := TallyNodes(doc, tax, schema, init).value;
      var c := Classify(doc, tax, schema, last).value;
      var all := TallyNodes(doc, tax, schema, nodes).value;
      assert all == Tally(t.mapped + c.mapped, t.notMapped + c.notMapped);
      forall n | n in nodes
        ensures exists it :: it in all.mapped + all.notMapped && it.node == n
      {
        if n == last {
          var it := (c.mapped + c.notMapped)[0];
          assert it in all.mapped + all.notMapped;
        } else {
          var it :| it in t.mapped + t.notMapped && it.node == n;
          assert it in all.mapped + all.notMapped;
        }
      }
    }
  }

  /** One row of the report. */
  datatype DimensionReport = DimensionReport(
    dimension: string, coverage: real, total: nat, mapped: nat, notMapped: nat, notMappedIds: string)

  /** The "Not mapped ids" text. */
  function NotMappedText(doc: Taxonomy, items: seq<Item>): string
    requires forall it :: it in items ==> it.node in doc.m
    decreases |items|
  {
    if items == [] then ""
    else
      var it := items[|items| - 1];
      NotMappedText(doc, items[..|items| - 1]) +
      it.node + ":" + LabelText(doc.m[it.node].fields) + " (" + it.taxonomy + " -> " + it.detail + "), "
  }

  /** The report row of one dimension; `doc_req[dim][label]` raises when the
      dimension or its label column is absent. */
  function DimensionReportOf(doc: Taxonomy, tax: Taxonomy, schema: Schema, dim: string): (r: Result<DimensionReport, MappingError>)
    requires doc.Valid()
    ensures r.Success? ==> r.value.total == r.value.mapped + r.value.notMapped
    ensures r.Success? ==> GetAllDescendants(doc, dim).Success? && r.value.total == |GetAllDescendants(doc, dim).value|
    ensures r.Success? ==> r.value.mapped == ValidCount(doc, tax, schema, GetAllDescendants(doc, dim).value)
    ensures r.Success? ==> r.value.coverage == Coverage(r.value.mapped, r.value.total)
    ensures r.Success? ==> r.value.total == 0 ==> r.value.coverage == 0.0
    ensures r.Success? ==> 0.0 <= r.value.coverage <= 100.0
    ensures GetAllDescendants(doc, dim).Failure? ==> r == Failure(RecursionLimit)
    ensures r.Success? ==> dim in doc.m && LabelField in doc.m[dim].fields
    ensures r.Failure? <==>
      || GetAllDescendants(doc, dim).Failure?
      || TallyNodes(doc, tax, schema, GetAllDescendants(doc, dim).value).Failure?
      || dim !in doc.m
      || LabelField !in doc.m[dim].fields
    ensures GetAllDescendants(doc, dim).Success? && TallyNodes(doc, tax, schema, GetAllDescendants(doc, dim).value).Failure? ==>
      r == Failure(TallyNodes(doc, tax, schema, GetAllDescendants(doc, dim).value).error)
    ensures GetAllDescendants(doc, dim).Success? && TallyNodes(doc, tax, schema, GetAllDescendants(doc, dim).value).Success? ==>
      && (dim !in doc.m ==> r == Failure(KeyError(dim)))
      && (dim in doc.m && LabelField !in doc.m[dim].fields ==> r == Failure(KeyError(LabelField)))
    ensures r.Success? ==> r.value.dimension == dim + ":" + LabelText(doc.m[dim].fields)
    ensures r.Success? ==> r.value.notMappedIds == NotMappedText(doc, TallyNodes(doc, tax, schema, GetAllDescendants(doc, dim).value).value.notMapped)
  {
    var nodes :- GetAllDescendants(doc, dim);
    var t :- TallyNodes(doc, tax, schema, nodes);
    var total := |t.mapped| + |t.notMapped|;
    var details := NotMappedText(doc, t.notMapped);
    if dim !in doc.m then Failure(KeyError(dim))
    else if LabelField !in doc.m[dim].fields then Failure(KeyError(LabelField))
    else
      var name := LabelText(doc.m[dim].fields);
      Success(DimensionReport(dim + ":" + name, Coverage(|t.mapped|, total), total, |t.mapped|, |t.notMapped|, details))
  }

  // ---------------------------------------------------------------- report

  /** The report over a list of dimensions, with the running totals of
      items and of mapped items. */
  datatype Report = Report(rows: Dict<string, DimensionReport>, total: nat, mapped: nat)

  function ReportOver(doc: Taxonomy, tax: Taxonomy, schema: Schema, dims: seq<string>): (r: Result<Report, MappingError>)
    requires doc.Valid()
    ensures r.Success? ==> r.value.rows.Valid()
    ensures r.Success? ==> r.value.rows.keys == Dedup(dims)
    ensures r.Success? ==> forall d :: d in r.value.rows.m <==> d in dims
    ensures r.Success? ==> forall d :: d in dims ==> DimensionReportOf(doc, tax, schema, d).Success?
    ensures r.Success? ==> forall d :: d in r.value.rows.m ==> r.value.rows.m[d] == DimensionReportOf(doc, tax, schema, d).value
    ensures r.Success? ==> r.value.mapped <= r.value.total
    ensures r.Success? ==> r.value.total == DescendantCount(doc, dims)
    ensures r.Success? ==> r.value.mapped == MappedCount(doc, tax, schema, dims)
    ensures r.Failure? <==> exists d :: d in dims && DimensionReportOf(doc, tax, schema, d).Failure?
    decreases |dims|
  {
    if dims == [] then Success(Report(Empty(), 0, 0))
    else
      var init := dims[..|dims| - 1];
      var last := dims[|dims| - 1];
      assert forall d :: d in dims <==> d in init || d == last;
      var prev :- ReportOver(doc, tax, schema, init);
      var row :- DimensionReportOf(doc, tax, schema, last);
      Success(Report(prev.rows.Put(last, row), prev.total + row.total, prev.mapped + row.mapped))
  }

  /** The number of descendants over the dimensions, a dimension listed
      twice counted twice. */
  ghost function DescendantCount(doc: Taxonomy, dims: seq<string>): nat
    requires doc.Valid()
    decreases |dims|
  {
    if dims == [] then 0
    else
      var d := GetAllDescendants(doc, dims[|dims| - 1]);
      DescendantCount(doc, dims[..|dims| - 1]) + (if d.Success? then |d.value| else 0)
  }

  /** The number of descendants with a valid mapping chain over the
      dimensions, a dimension listed twice counted twice. */
  ghost function MappedCount(doc: Taxonomy, tax: Taxonomy, schema: Schema, dims: seq<string>): nat
    requires doc.Valid()
    decreases |dims|
  {
    if dims == [] then 0
    else
      var d := GetAllDescendants(doc, dims[|dims| - 1]);
      MappedCount(doc, tax, schema, dims[..|dims| - 1]) + (if d.Success? then ValidCount(doc, tax, schema, d.value) else 0)
  }

  /** `end_to_end_coverage_report(doc_req, taxonomy, schema, dimensions)`:
      the rows and `[total, mapped, total - mapped]`. */
  function EndToEndCoverageReport(doc: Taxonomy, tax: Taxonomy, schema: Schema, dims: seq<string>): (r: Result<(Dict<string, DimensionReport>, seq<int>), MappingError>)
    requires doc.Valid()
    ensures r.Success? ==> |r.value.1| == 3 && r.value.1[0] == r.value.1[1] + r.value.1[2]
    ensures r.Success? ==> 0 <= r.value.1[1] <= r.value.1[0] && r.value.1[0] == DescendantCount(doc, dims)
    ensures r.Success? ==> r.value.1[1] == MappedCount(doc, tax, schema, dims)
    ensures r.Success? ==> forall d :: d in r.value.0.m <==> d in dims
    ensures r.Success? ==> r.value.0.keys == Dedup(dims)
    ensures r.Success? ==> forall d :: d in r.value.0.m ==> r.value.0.m[d].total == r.value.0.m[d].mapped + r.value.0.m[d].notMapped
    ensures r.Success? ==> forall d :: d in r.value.0.m ==>
      && GetAllDescendants(doc, d).Success?
      && r.value.0.m[d].total == |GetAllDescendants(doc, d).value|
      && r.value.0.m[d].mapped == ValidCount(doc, tax, schema, GetAllDescendants(doc, d).value)
      && r.value.0.m[d].coverage == Coverage(r.value.0.m[d].mapped, r.value.0.m[d].total)
    ensures r.Failure? <==> exists d :: d in dims && DimensionReportOf(doc, tax, schema, d).Failure?
  {
    var rep :- ReportOver(doc, tax, schema, dims);
    Success((rep.rows, [rep.total, rep.mapped, rep.total - rep.mapped]))
  }
}

=== FILE: ocx_taxonomy.dfy ===
/** The taxonomy builder of ocx_taxonomy.py: nodes and attribute records are
    added as the schema elements are visited, under IDs chosen either from
    the snake-cased element name (the full graph) or from the element's
    prefix and lower-cased name.

    The schema itself (the `Transformer` and its element lookup) is a
    parameter: `lookup` maps a qualified name `prefix:name` to its global
    element. */
module OcxTaxonomy {
  import opened Wrappers
  import opened Dicts
  import opened Strings
  import opened CaseConversion

  /** An attribute of a schema element (`OcxSchemaAttribute`). */
  datatype SchemaAttribute = SchemaAttribute(name: string, prefix: string, description: string, use: string, attrType: string)

  /** A child slot of an element: its name, its type and the namespace
      prefix of that type (what `LxmlElement.namespace_prefix` returns). */
  datatype SchemaChild = SchemaChild(name: string, childType: string, typePrefix: string)

  /** A global schema element (`OcxGlobalElement`). */
  datatype SchemaElement = SchemaElement(name: string, prefix: string, annotation: string,
                                         attributes: seq<SchemaAttribute>, children: seq<SchemaChild>)

  /** The record stored per taxonomy ID. */
  datatype NodeRecord = NodeRecord(parentId: string, caption: string, description: string,
                                   mapping: string, example: string, reference: string)

  /** One row of the attributes sheet. */
  datatype AttributeRecord = AttributeRecord(id: string, attributeName: string, description: string,
                                             ocxName: string, required: bool, dataType: string)

  /** `OcxTaxonomy`: the node dictionary and the attribute list. */
  datatype Builder = Builder(taxonomy: Dict<string, NodeRecord>, attributes: seq<AttributeRecord>)

  /** The `use` marking a required attribute. */
  const RequiredUse := "req."
  /** The type text marking an enumerated attribute. */
  const EnumRestriction := "Restriction of type xs:string"
  /** The element that is never added (`ExcludeNodes.DESIGNVIEW`). */
  const DesignView := "OccurrenceGroup"

  /** `iter_children`: both branches of the filter test yield the child, so
      the filter has no effect. */
  function IterChildren(e: SchemaElement, filter: bool, filterType: string): (r: seq<SchemaChild>)
    ensures r == e.children
  {
    IterFrom(e.children, filter, filterType)
  }

  function IterFrom(cs: seq<SchemaChild>, filter: bool, filterType: string): (r: seq<SchemaChild>)
    ensures r == cs
  {
    if cs == [] then []
    else
      var c := cs[0];
      (if filter && c.childType == filterType then [c] else [c]) + IterFrom(cs[1..], filter, filterType)
  }

  /** The qualified name `prefix:name` of the mapping and OCX-name columns. */
  function Qualified(prefix: string, name: string): (r: string)
    ensures |r| == |prefix| + 1 + |name|
    ensures ':' !in prefix && ':' !in name ==> Split(r, ':') == [prefix, name]
  {
    QualifiedSplits(prefix, name);
    prefix + [':'] + name
  }

  lemma QualifiedSplits(prefix: string, name: string)
    ensures ':' !in prefix && ':' !in name ==> Split(prefix + [':'] + name, ':') == [prefix, name]
  {
    if ':' !in prefix && ':' !in name {
      SplitFirst(prefix, ':', name);
    }
  }

  /** The attribute record of `add_attribute`. */
  function AttributeOf(a: SchemaAttribute, id: string): (r: AttributeRecord)
    ensures r.id == id && r.attributeName == a.name && r.description == a.description
    ensures r.ocxName == Qualified(a.prefix, a.name)
    ensures r.required <==> a.use == RequiredUse
    ensures r.dataType in {"enum", "string"}
    ensures r.dataType == "enum" <==> ContainsSub(a.attrType, EnumRestriction)
  {
    AttributeRecord(id, a.name, a.description, Qualified(a.prefix, a.name),
                    a.use == RequiredUse,
                    if ContainsSub(a.attrType, EnumRestriction) then "enum" else "string")
  }

  /** `add_attribute`: exactly one record is appended. */
  function AddAttribute(b: Builder, a: SchemaAttribute, id: string): (r: Builder)
    ensures r.taxonomy == b.taxonomy
    ensures |r.attributes| == |b.attributes| + 1
    ensures r.attributes[..|b.attributes|] == b.attributes
    ensures r.attributes[|b.attributes|] == AttributeOf(a, id)
  {
    b.(attributes := b.attributes + [AttributeOf(a, id)])
  }

  /** The attribute loop of `add_node`, in order. */
  function AddAttributes(b: Builder, attrs: seq<SchemaAttribute>, id: string): (r: Builder)
    ensures r.taxonomy == b.taxonomy
    ensures |r.attributes| == |b.attributes| + |attrs|
    ensures r.attributes[..|b.attributes|] == b.attributes
    ensures forall k :: 0 <= k < |attrs| ==> r.attributes[|b.attributes| + k] == AttributeOf(attrs[k], id)
    decreases |attrs|
  {
    if attrs == [] then b
    else
      var prev := AddAttributes(b, attrs[..|attrs| - 1], id);
      AddAttribute(prev, attrs[|attrs| - 1], id)
  }

  /** The node record of `add_node`. */
  function NodeOf(e: SchemaElement, parentId: string): (r: NodeRecord)
    ensures r.parentId == parentId && r.description == e.annotation
    ensures r.caption == CamelToSentence(e.name)
    ensures r.mapping == Qualified(e.prefix, e.name)
    ensures r.example == "" && r.reference == ""
  {
    NodeRecord(parentId, CamelToSentence(e.name), e.annotation, Qualified(e.prefix, e.name), "", "")
  }

  /** `add_node`: the element's attributes are appended, then the node is
      stored under `id`, replacing any node already there. */
  function AddNode(b: Builder, e: SchemaElement, id: string, parentId: string): (r: Builder)
    requires b.taxonomy.Valid()
    ensures r.taxonomy.Valid()
    ensures r.taxonomy.m == b.taxonomy.m[id := NodeOf(e, parentId)]
    ensures id in b.taxonomy.m ==> r.taxonomy.keys == b.taxonomy.keys
    ensures id !in b.taxonomy.m ==> r.taxonomy.keys == b.taxonomy.keys + [id]
    ensures |r.attributes| == |b.attributes| + |e.attributes|
    ensures r.attributes[..|b.attributes|] == b.attributes
    ensures forall k :: 0 <= k < |e.attributes| ==> r.attributes[|b.attributes| + k] == AttributeOf(e.attributes[k], id)
  {
    var withAttrs := AddAttributes(b, e.attributes, id);
    withAttrs.(taxonomy := withAttrs.taxonomy.Put(id, NodeOf(e, parentId)))
  }

  /** No node other than `id` changes, and no node disappears. */
  lemma AddNodeOthersUnchanged(b: Builder, e: SchemaElement, id: string, parentId: string)
    requires b.taxonomy.Valid()
    ensures SubDict(b.taxonomy.(m := b.taxonomy.m - {id}), AddNode(b, e, id, parentId).taxonomy)
    ensures AddNode(b, e, id, parentId).taxonomy.m.Keys == b.taxonomy.m.Keys + {id}
  {
  }

  /** `create_unique_taxonomy_id`: the snake-cased name, or, when that is
      already a key, the parent ID, `_` and the snake-cased name. */
  function CreateUniqueTaxonomyId(taxonomy: Dict<string, NodeRecord>, name: string, parentId: string): (r: string)
    ensures CamelToSnake(name) !in taxonomy.m ==> r == CamelToSnake(name) && r !in taxonomy.m
    ensures CamelToSnake(name) in taxonomy.m ==> r == parentId + "_" + CamelToSnake(name)
    ensures |r| >= |CamelToSnake(name)| && r[|r| - |CamelToSnake(name)|..] == CamelToSnake(name)
  {
    var id := CamelToSnake(name);
    if id in taxonomy.m then parentId + "_" + id else id
  }

  /** The prefixed ID is not checked against the keys: a second clash goes
      through, and the node stored under it is replaced. */
  lemma UniqueIdMayClash(n: NodeRecord)
    ensures
      var t := Dict(["foo", "bar_foo"], map["foo" := n, "bar_foo" := n]);
      CreateUniqueTaxonomyId(t, "foo", "bar") in t.m
  {
    CamelToSnakeNoUpper("foo");
    assert "bar" + "_" + "foo" == "bar_foo";
  }

  /** The ID of a visited element: `create_unique_taxonomy_id` for the full
      graph, otherwise `prefix_name` with the name lower-cased. */
  function ChooseId(b: Builder, e: SchemaElement, parentId: string, fullGraph: bool): (r: string)
    ensures fullGraph ==> r == CreateUniqueTaxonomyId(b.taxonomy, e.name, parentId)
    ensures !fullGraph ==> r == e.prefix + "_" + Lower(e.name)
  {
    if fullGraph then CreateUniqueTaxonomyId(b.taxonomy, e.name, parentId)
    else e.prefix + "_" + Lower(e.name)
  }

  /** Outside full-graph mode two elements whose prefixes agree and whose
      names differ only in case get one ID: the second replaces the first
      and the taxonomy gains no key. */
  lemma CaseVariantsShareId(b: Builder, e1: SchemaElement, e2: SchemaElement, parentId: string)
    requires b.taxonomy.Valid()
    requires e1.prefix == e2.prefix && Lower(e1.name) == Lower(e2.name)
    ensures ChooseId(b, e1, parentId, false) == ChooseId(b, e2, parentId, false)
    ensures
      var id := ChooseId(b, e1, parentId, false);
      var b1 := AddNode(b, e1, id, parentId);
      AddNode(b1, e2, id, parentId).taxonomy.keys == b1.taxonomy.keys
  {
  }

  /** In full-graph mode a name whose snake case is new adds a key. */
  lemma FullGraphNewNameAddsKey(b: Builder, e: SchemaElement, parentId: string)
    requires b.taxonomy.Valid()
    requires CamelToSnake(e.name) !in b.taxonomy.m
    ensures
      var id := ChooseId(b, e, parentId, true);
      AddNode(b, e, id, parentId).taxonomy.keys == b.taxonomy.keys + [CamelToSnake(e.name)]
  {
  }

  /** `build_taxonomy_from_ocx_name` without the recursion: look the name
      up; when it is a global element, add it under the chosen ID and give
      back the element and the ID to recurse from. */
  function BuildFromName(b: Builder, lookup: map<string, SchemaElement>, parentId: string, ocxName: string,
                         fullGraph: bool): (r: (Builder, Option<(SchemaElement, string)>))
    requires b.taxonomy.Valid()
    ensures ocxName !in lookup ==> r == (b, None)
    ensures ocxName in lookup ==>
      var id := ChooseId(b, lookup[ocxName], parentId, fullGraph);
      r.1 == Some((lookup[ocxName], id)) && r.0.taxonomy.m == b.taxonomy.m[id := NodeOf(lookup[ocxName], parentId)]
  {
    if ocxName !in lookup then (b, None)
    else
      var e := lookup[ocxName];
      var id := ChooseId(b, e, parentId, fullGraph);
      (AddNode(b, e, id, parentId), Some((e, id)))
  }

  /** One turn of the child loop of `_build_taxonomy_recursive`: a child
      whose element is missing, or is the design view, is skipped. */
  function BuildChild(b: Builder, lookup: map<string, SchemaElement>, child: SchemaChild, parentId: string,
                      fullGraph: bool): (r: (Builder, Option<(SchemaElement, string)>))
    requires b.taxonomy.Valid()
    ensures r.0.taxonomy.Valid()
    ensures
      var q := Qualified(child.typePrefix, child.name);
      (q !in lookup || lookup[q].name == DesignView) <==> r.1.None?
    ensures r.1.None? ==> r.0 == b
    ensures r.1.Some? ==>
      var e := r.1.value.0;
      var id := r.1.value.1;
      && e == lookup[Qualified(child.typePrefix, child.name)]
      && e.name != DesignView
      && id == ChooseId(b, e, parentId, fullGraph)
      && r.0.taxonomy.m == b.taxonomy.m[id := NodeOf(e, parentId)]
      && r.0.taxonomy.m[id].parentId == parentId
  {
    var q := Qualified(child.typePrefix, child.name);
    if q !in lookup || lookup[q].name == DesignView then (b, None)
    else
      var e := lookup[q];
      var id := ChooseId(b, e, parentId, fullGraph);
      (AddNode(b, e, id, parentId), Some((e, id)))
  }
}

=== FILE: patch_grid.dfy ===
/** `MultiBezierSurface`: a rectangular control grid cut into square patches
    of `patchSize` x `patchSize` control points that share their border rows
    and columns, looked up by integer patch coordinate. */
module PatchGrid {
  import opened Wrappers
  import opened Bezier

  /** An (nx x ny) grid of control points, `pts[i][j]`. */
  datatype ControlGrid = ControlGrid(nx: nat, ny: nat, pts: seq<seq<Vec3>>) {
    ghost predicate Valid() {
      |pts| == nx && forall i :: 0 <= i < nx ==> |pts[i]| == ny
    }
  }

  /** Patch (pi, pj) with its block of control points. */
  datatype Patch = Patch(pi: int, pj: int, ctrl: seq<seq<Vec3>>)

  datatype MultiSurface = MultiSurface(
    grid: ControlGrid,
    patchSize: nat,
    step: nat,
    px: int,
    py: int,
    patches: seq<Patch>,
    idxByCoord: map<(int, int), nat>)

  /** `patch_size == 1` makes the step 0 and the constructor divides by it. */
  datatype BuildError = ZeroDivision

  /** The `p` x `p` sub-grid whose first control point is `pts[i][j]`. */
  function Block(g: ControlGrid, i: nat, j: nat, p: nat): (ctrl: seq<seq<Vec3>>)
    requires g.Valid() && i + p <= g.nx && j + p <= g.ny
    ensures |ctrl| == p && forall a :: 0 <= a < p ==> |ctrl[a]| == p
    ensures forall a, b :: 0 <= a < p && 0 <= b < p ==> ctrl[a][b] == g.pts[i + a][j + b]
  {
    seq(p, a requires 0 <= a < p => g.pts[i + a][j..j + p])
  }

  /** A patch that lies inside the grid: `pi < (n - 1) // step` leaves room
      for a whole block, whether or not `n - 1` is a multiple of the step. */
  lemma BlockFits(pi: int, step: nat, n: nat)
    requires step > 0 && 0 <= pi < (n - 1) / step
    ensures pi * step + step + 1 <= n
  {
    var q := (n - 1) / step;
    var r := (n - 1) % step;
    assert n - 1 == q * step + r && r >= 0;
    MulMonotone(pi + 1, q, step);
    assert (pi + 1) * step == pi * step + step;
  }

  lemma MulMonotone(a: int, b: int, c: nat)
    requires a <= b
    ensures a * c <= b * c
  {
    assert (b - a) * c >= 0;
  }

  /** What the constructor builds: `px = (nx - 1) // step` by `py` patches,
      patch (pi, pj) at index `pi * py + pj` owning the block that starts at
      control point (pi * step, pj * step). */
  ghost predicate Assembled(ms: MultiSurface, g: ControlGrid, p: nat) {
    && g.Valid() && p >= 2
    && ms.grid == g && ms.patchSize == p && ms.step == p - 1
    && ms.px == (g.nx - 1) / (p - 1)
    && ms.py == (g.ny - 1) / (p - 1)
    && |ms.patches| == (if ms.px > 0 && ms.py > 0 then ms.px * ms.py else 0)
    && (forall c :: c in ms.idxByCoord <==> 0 <= c.0 < ms.px && 0 <= c.1 < ms.py)
    && (forall c :: c in ms.idxByCoord ==> Entry(g, p, ms.py, ms.patches, ms.idxByCoord, c))
  }

  /** Every index the lookup table hands out names a patch with a proper block. */
  ghost predicate WellIndexed(ms: MultiSurface) {
    forall c :: c in ms.idxByCoord ==>
      ms.idxByCoord[c] < |ms.patches| && IsBlock(ms.patches[ms.idxByCoord[c]].ctrl)
  }

  /** The table entry for coordinate `c` points at the patch built for it. */
  ghost predicate Entry(g: ControlGrid, p: nat, py: int, patches: seq<Patch>,
                        idx: map<(int, int), nat>, c: (int, int))
    requires g.Valid() && c in idx && p >= 1
  {
    && 0 <= c.0 && 0 <= c.1
    && idx[c] == c.0 * py + c.1
    && idx[c] < |patches|
    && c.0 * (p - 1) + p <= g.nx && c.1 * (p - 1) + p <= g.ny
    && patches[idx[c]] == Patch(c.0, c.1, Block(g, c.0 * (p - 1), c.1 * (p - 1), p))
  }

  /** Appending a patch keeps every existing entry valid. */
  lemma EntryExtend(g: ControlGrid, p: nat, py: int, patches: seq<Patch>,
                    idx: map<(int, int), nat>, c: (int, int), c': (int, int), patch: Patch)
    requires g.Valid() && c in idx && p >= 1 && c != c' && Entry(g, p, py, patches, idx, c)
    ensures Entry(g, p, py, patches + [patch], idx[c' := |patches|], c)
  {
  }

  /** `MultiBezierSurface(ctrlgrid, patch_size)` */
  method Build(g: ControlGrid, patchSize: nat) returns (r: Result<MultiSurface, BuildError>)
    requires g.Valid() && patchSize >= 1
    ensures r.Failure? <==> patchSize == 1
    ensures r.Success? ==> Assembled(r.value, g, patchSize)
  {
    if patchSize == 1 {
      return Failure(ZeroDivision);
    }
    var step: nat := patchSize - 1;
    var px := (g.nx - 1) / step;
    var py := (g.ny - 1) / step;
    var width := if py > 0 then py else 0;
    var patches: seq<Patch> := [];
    var idx: map<(int, int), nat> := map[];
    var pi := 0;
    while pi < px
      invariant 0 <= pi && (pi <= px || pi == 0)
      invariant |patches| == pi * width
      invariant forall c :: c in idx <==> 0 <= c.0 < pi && 0 <= c.1 < py
      invariant forall c :: c in idx ==> Entry(g, patchSize, py, patches, idx, c)
    {
      patches, idx := BuildRow(g, patchSize, px, py, pi, patches, idx);
      assert pi * width + width == (pi + 1) * width;
      pi := pi + 1;
    }
    assert px > 0 && py > 0 ==> |patches| == px * py;
    r := Success(MultiSurface(g, patchSize, step, px, py, patches, idx));
  }

  /** The inner loop of the constructor: the patches (pi, 0) .. (pi, py - 1). */
  method BuildRow(g: ControlGrid, patchSize: nat, px: int, py: int, pi: int,
                  patches0: seq<Patch>, idx0: map<(int, int), nat>)
    returns (patches: seq<Patch>, idx: map<(int, int), nat>)
    requires g.Valid() && patchSize >= 2
    requires px == (g.nx - 1) / (patchSize - 1) && py == (g.ny - 1) / (patchSize - 1)
    requires 0 <= pi < px
    requires |patches0| == pi * (if py > 0 then py else 0)
    requires forall c :: c in idx0 <==> 0 <= c.0 < pi && 0 <= c.1 < py
    requires forall c :: c in idx0 ==> Entry(g, patchSize, py, patches0, idx0, c)
    ensures |patches| == |patches0| + (if py > 0 then py else 0)
    ensures forall c :: c in idx <==> 0 <= c.0 < pi + 1 && 0 <= c.1 < py
    ensures forall c :: c in idx ==> Entry(g, patchSize, py, patches, idx, c)
  {
    var step: nat := patchSize - 1;
    patches, idx := patches0, idx0;
    var pj := 0;
    while pj < py
      invariant 0 <= pj && (pj <= py || pj == 0)
      invariant |patches| == |patches0| + pj
      invariant forall c :: c in idx <==>
          (0 <= c.0 < pi && 0 <= c.1 < py) || (c.0 == pi && 0 <= c.1 < pj)
      invariant forall c :: c in idx ==> Entry(g, patchSize, py, patches, idx, c)
    {
      BlockFits(pi, step, g.nx);
      BlockFits(pj, step, g.ny);
      var i := pi * step;
      var j := pj * step;
      var patch := Patch(pi, pj, Block(g, i, j, patchSize));
      var patchIndex := |patches|;
      assert patchIndex == pi * py + pj;
      forall c | c in idx
        ensures Entry(g, patchSize, py, patches + [patch], idx[(pi, pj) := patchIndex], c)
      {
        EntryExtend(g, patchSize, py, patches, idx, c, (pi, pj), patch);
      }
      patches := patches + [patch];
      idx := idx[(pi, pj) := patchIndex];
      pj := pj + 1;
    }
  }

  /** `patch_from_coord(pi, pj)`: the patch index, or `None` off the grid. */
  function PatchFromCoord(ms: MultiSurface, pi: int, pj: int): Option<nat>
  {
    if (pi, pj) in ms.idxByCoord then Some(ms.idxByCoord[(pi, pj)]) else None
  }

  /** The lookup answers exactly for the coordinates in [0, px) x [0, py),
      with index pi * py + pj and the block starting at (pi * step, pj * step). */
  lemma PatchLookup(ms: MultiSurface, g: ControlGrid, p: nat, pi: int, pj: int)
    requires Assembled(ms, g, p)
    ensures PatchFromCoord(ms, pi, pj).None? <==> !(0 <= pi < ms.px && 0 <= pj < ms.py)
    ensures PatchFromCoord(ms, pi, pj).Some? ==>
      var k := PatchFromCoord(ms, pi, pj).value;
      var i := pi * (p - 1);
      var j := pj * (p - 1);
      && k == pi * ms.py + pj
      && k < |ms.patches|
      && ms.patches[k].pi == pi && ms.patches[k].pj == pj
      && |ms.patches[k].ctrl| == p
      && (forall a :: 0 <= a < p ==> |ms.patches[k].ctrl[a]| == p)
      && 0 <= i && i + p <= g.nx && 0 <= j && j + p <= g.ny
      && forall a, b :: 0 <= a < p && 0 <= b < p ==> ms.patches[k].ctrl[a][b] == g.pts[i + a][j + b]
  {
    var c := (pi, pj);
    assert c in ms.idxByCoord <==> 0 <= c.0 < ms.px && 0 <= c.1 < ms.py;
    if c in ms.idxByCoord {
      assert Entry(g, p, ms.py, ms.patches, ms.idxByCoord, c);
      MulMonotone(0, pi, p - 1);
      MulMonotone(0, pj, p - 1);
    }
  }

  /** A built surface hands out only indices of real patches. */
  lemma AssembledWellIndexed(ms: MultiSurface, g: ControlGrid, p: nat)
    requires Assembled(ms, g, p)
    ensures WellIndexed(ms)
  {
  }

  /** `eval_patch(idx, u, v)` */
  function EvalPatch(ms: MultiSurface, idx: nat, u: real, v: real): Vec3
    requires idx < |ms.patches| && IsBlock(ms.patches[idx].ctrl)
  {
    SurfaceEval(ms.patches[idx].ctrl, u, v)
  }

  /** Neighbouring patches share their border: the last control column of
      patch (pi, pj) is the first control column of patch (pi, pj + 1). */
  lemma SharedBorder(ms: MultiSurface, g: ControlGrid, p: nat, pi: int, pj: int)
    requires Assembled(ms, g, p)
    requires 0 <= pi < ms.px && 0 <= pj && pj + 1 < ms.py
    ensures
      var k := pi * ms.py + pj;
      && k + 1 < |ms.patches|
      && |ms.patches[k].ctrl| == p && |ms.patches[k + 1].ctrl| == p
      && (forall a :: 0 <= a < p ==> |ms.patches[k].ctrl[a]| == p && |ms.patches[k + 1].ctrl[a]| == p)
      && forall a :: 0 <= a < p ==> ms.patches[k].ctrl[a][p - 1] == ms.patches[k + 1].ctrl[a][0]
  {
    PatchLookup(ms, g, p, pi, pj);
    PatchLookup(ms, g, p, pi, pj + 1);
    assert pi * ms.py + (pj + 1) == pi * ms.py + pj + 1;
    assert pj * (p - 1) + (p - 1) == (pj + 1) * (p - 1) + 0;
  }
}

=== FILE: strings.dfy ===
/** The parts of Python's `str` that the taxonomy code uses, restricted to
    ASCII: character classes, case mapping, `strip`, `split` and `in`. */
module Strings {

  predicate IsUpper(c: char) { 'A' <= c <= 'Z' }
  predicate IsLower(c: char) { 'a' <= c <= 'z' }
  predicate IsDigit(c: char) { '0' <= c <= '9' }

  /** The ASCII characters for which Python's `str.isspace()` holds. */
  const Whitespace: set<char> :=
    {' ', '\t', '\n', '\U{0B}', '\U{0C}', '\r', '\U{1C}', '\U{1D}', '\U{1E}', '\U{1F}'}

  function ToLower(c: char): (r: char)
    ensures !IsUpper(r)
    ensures IsUpper(c) ==> IsLower(r)
    ensures !IsUpper(c) ==> r == c
  {
    if IsUpper(c) then (c as int + 32) as char else c
  }

  function ToUpper(c: char): (r: char)
    ensures !IsLower(r)
    ensures IsLower(c) ==> IsUpper(r)
    ensures !IsLower(c) ==> r == c
  {
    if IsLower(c) then (c as int - 32) as char else c
  }

  predicate NoUpper(s: string) {
    forall i :: 0 <= i < |s| ==> !IsUpper(s[i])
  }

  /** `s.lower()` */
  function Lower(s: string): (r: string)
    ensures |r| == |s|
    ensures forall i :: 0 <= i < |s| ==> r[i] == ToLower(s[i])
    ensures NoUpper(r)
  {
    seq(|s|, i requires 0 <= i < |s| => ToLower(s[i]))
  }

  lemma LowerOfNoUpper(s: string)
    requires NoUpper(s)
    ensures Lower(s) == s
  {
  }

  /** `s.capitalize()`: the first character upper-cased, the rest lower-cased. */
  function Capitalize(s: string): (r: string)
    ensures |r| == |s|
    ensures |s| > 0 ==> r[0] == ToUpper(s[0])
    ensures forall i :: 1 <= i < |s| ==> r[i] == ToLower(s[i])
  {
    if |s| == 0 then "" else [ToUpper(s[0])] + Lower(s[1..])
  }

  function StripLeft(s: string, cs: set<char>): (r: string)
    ensures |r| <= |s| && r == s[|s| - |r|..]
    ensures |r| > 0 ==> r[0] !in cs
    decreases |s|
  {
    if |s| > 0 && s[0] in cs then StripLeft(s[1..], cs) else s
  }

  function StripRight(s: string, cs: set<char>): (r: string)
    ensures |r| <= |s| && r == s[..|r|]
    ensures |r| > 0 ==> r[|r| - 1] !in cs
    decreases |s|
  {
    if |s| > 0 && s[|s| - 1] in cs then StripRight(s[..|s| - 1], cs) else s
  }

  /** `s.strip(cs)`: drop the characters of `cs` from both ends. */
  function StripChars(s: string, cs: set<char>): (r: string)
    ensures |r| <= |s|
    ensures |r| > 0 ==> r[0] !in cs && r[|r| - 1] !in cs
    ensures forall c :: c in r ==> c in s
  {
    var l := StripLeft(s, cs);
    var r := StripRight(l, cs);
    assert |r| > 0 ==> r[0] == l[0];
    assert forall k :: 0 <= k < |r| ==> r[k] == s[|s| - |l| + k];
    r
  }

  /** `s.strip()` */
  function Strip(s: string): (r: string)
    ensures |r| <= |s|
    ensures |r| > 0 ==> r[0] !in Whitespace && r[|r| - 1] !in Whitespace
    ensures forall c :: c in r ==> c in s
  {
    StripChars(s, Whitespace)
  }

  /** A string of whitespace only strips to the empty string. */
  lemma {:induction false} StripAllSpace(s: string)
    requires forall i :: 0 <= i < |s| ==> s[i] in Whitespace
    ensures Strip(s) == ""
  {
    StripLeftAll(s, Whitespace);
  }

  lemma {:induction false} StripLeftAll(s: string, cs: set<char>)
    requires forall i :: 0 <= i < |s| ==> s[i] in cs
    ensures StripLeft(s, cs) == ""
    decreases |s|
  {
    if |s| > 0 {
      StripLeftAll(s[1..], cs);
    }
  }

  /** Index of the first occurrence of `c` in `s`, or `|s|` when absent. */
  function IndexOf(s: string, c: char): (i: nat)
    ensures i <= |s|
    ensures i < |s| ==> s[i] == c
    ensures forall j :: 0 <= j < i ==> s[j] != c
  {
    if |s| == 0 then 0
    else if s[0] == c then 0
    else 1 + IndexOf(s[1..], c)
  }

  /** `sep in s` for a one-character separator. */
  predicate Has(s: string, c: char) {
    c in s
  }

  /** `s.split(c)`: the pieces between the occurrences of `c`. */
  function Split(s: string, c: char): (pieces: seq<string>)
    ensures |pieces| >= 1
    ensures forall k :: 0 <= k < |pieces| ==> c !in pieces[k]
    ensures c !in s ==> pieces == [s]
    ensures c in s ==> |pieces| >= 2
    decreases |s|
  {
    var i := IndexOf(s, c);
    if i == |s| then [s] else [s[..i]] + Split(s[i + 1..], c)
  }

  /** `c.join(pieces)` */
  function Join(pieces: seq<string>, c: char): string
    requires |pieces| >= 1
  {
    if |pieces| == 1 then pieces[0] else pieces[0] + [c] + Join(pieces[1..], c)
  }

  /** Splitting and joining on the same separator gives the string back. */
  lemma {:induction false} SplitJoin(s: string, c: char)
    ensures Join(Split(s, c), c) == s
    decreases |s|
  {
    var i := IndexOf(s, c);
    if i < |s| {
      var rest := s[i + 1..];
      SplitJoin(rest, c);
      var tail := Split(rest, c);
      var pieces := [s[..i]] + tail;
      assert Split(s, c) == pieces;
      assert pieces[0] == s[..i] && pieces[1..] == tail;
      assert Join(pieces, c) == s[..i] + [c] + Join(tail, c);
      assert s == s[..i] + [c] + rest;
    }
  }

  /** The first piece of `s.split(c)` is `s` up to the first `c`. */
  lemma SplitHead(s: string, c: char)
    ensures Split(s, c)[0] == s[..IndexOf(s, c)]
  {
  }

  /** Splitting at a separator that `a` does not contain cuts `a` off whole. */
  lemma SplitFirst(a: string, c: char, b: string)
    requires c !in a
    ensures Split(a + [c] + b, c) == [a] + Split(b, c)
  {
    var s := a + [c] + b;
    assert forall j :: 0 <= j < |a| ==> s[j] == a[j];
    assert s[|a|] == c;
    assert IndexOf(s, c) == |a|;
    assert s[..|a|] == a && s[|a| + 1..] == b;
  }

  /** `sub in s` for a substring. */
  predicate ContainsSub(s: string, sub: string)
    decreases |s|
  {
    |sub| <= |s| && (s[..|sub|] == sub || ContainsSub(s[1..], sub))
  }
}

=== FILE: taxonomy_chart.dfy ===
/** The pure helpers of the taxonomy chart in `compit/taxonomy/taxonomy.py`
    (wiki links, node colours, node depth, the depth and reference filter)
    and `doc_coverage_report`, which counts, per dimension, the descendants
    whose mapping is a key of a target taxonomy. */
module TaxonomyChart {
  import opened Wrappers
  import opened Dicts
  import opened Strings
  import opened Chains
  import opened TaxonomyModel
  import opened Hierarchy

  datatype ChartError =
    | KeyError(key: string)
    | RecursionLimit   // the recursion over a parent cycle does not end

  // ---------------------------------------------------------------- links and colours

  const WikiBase: string := "https://ocxwiki.3docx.org/doku.php?id=public:schema:3.1.0:"

  /** `url(ocx_type)`: the wiki page of an OCX type; an enumeration suffix
      starting at '@' is dropped. */
  function Url(ocxType: Option<string>): (r: string)
    ensures r == "" <==> !Truthy(ocxType)
    ensures Truthy(ocxType) ==> |r| >= |WikiBase| && r[..|WikiBase|] == WikiBase && '@' !in r[|WikiBase|..]
    ensures Truthy(ocxType) ==> r == WikiBase + ocxType.value[..IndexOf(ocxType.value, '@')]
  {
    if !Truthy(ocxType) then ""
    else
      var t := ocxType.value;
      var page := if '@' in t then Split(t, '@')[0] else t;
      SplitHead(t, '@');
      assert page == t[..IndexOf(t, '@')];
      assert (WikiBase + page)[|WikiBase|..] == page;
      WikiBase + page
  }

  /** An enumeration reference links to the page of its type. */
  lemma UrlOfEnumeration(t: string, e: string)
    requires t != "" && '@' !in t
    ensures Url(Some(t + "@" + e)) == Url(Some(t)) == WikiBase + t
  {
    SplitFirst(t, '@', e);
  }

  const DefaultColor: string := "lightblue"

  /** `map_color(reference)`: the fixed colours of the reference standards. */
  function MapColor(reference: string): (r: Option<string>)
    ensures r.Some? <==> reference in {"AP215", "AP218", "Root"}
    ensures r.Some? ==> r.value in {"lightblue", "lightgreen", "lightyellow"}
  {
    if reference == "AP215" then Some("lightblue")
    else if reference == "AP218" then Some("lightgreen")
    else if reference == "Root" then Some("lightyellow")
    else None
  }

  /** Different references get different colours. */
  lemma MapColorInjective(a: string, b: string)
    requires MapColor(a).Some? && MapColor(a) == MapColor(b)
    ensures a == b
  {
  }

  /** `get_node_color(node_key, color_enabled, color_map, default)` */
  function GetNodeColor(key: Option<string>, enabled: bool, colorMap: map<string, string>, default: string): (r: string)
    ensures !enabled || !Truthy(key) ==> r == default
    ensures enabled && Truthy(key) && key.value in colorMap ==> r == colorMap[key.value]
    ensures enabled && Truthy(key) && key.value !in colorMap ==> r == default
    ensures r == default || r in colorMap.Values
  {
    if !enabled || !Truthy(key) then default
    else if key.value in colorMap then colorMap[key.value]
    else default
  }

  // ---------------------------------------------------------------- depth

  /** Every node of the taxonomy has a parent column, so `node[parent_id]`
      never raises. */
  ghost predicate HasParentFields(tax: Taxonomy) {
    forall k :: k in tax.m ==> ParentField in tax.m[k].fields
  }

  /** `get_node_depth(node_id, depth)`; `path` holds the nodes whose depth
      is being computed further up the recursion. */
  function DepthFrom(tax: Taxonomy, x: string, path: set<string>, depth: nat): (r: Result<nat, ChartError>)
    ensures r.Success? ==> r.value >= depth
    ensures r.Failure? ==> r.error == RecursionLimit || r.error == KeyError(ParentField)
    decreases tax.m.Keys - path
  {
    if x !in tax.m then Success(depth)
    else if ParentField !in tax.m[x].fields then Failure(KeyError(ParentField))
    else if !Truthy(tax.m[x].fields[ParentField]) then Success(depth)
    else if x in path then Failure(RecursionLimit)
    else DepthFrom(tax, tax.m[x].fields[ParentField].value, path + {x}, depth + 1)
  }

  function GetNodeDepth(tax: Taxonomy, x: string): (r: Result<nat, ChartError>)
    ensures x !in tax.m ==> r == Success(0)
    ensures HasParentFields(tax) ==> (r.Failure? <==> Cyclic(ParentLinks(tax), x))
    ensures HasParentFields(tax) && r.Success? ==>
      Anc(ParentLinks(tax), x, r.value).Some? && Anc(ParentLinks(tax), x, r.value).value !in ParentLinks(tax)
  {
    DepthFacts(tax, x);
    DepthFrom(tax, x, {}, 0)
  }

  lemma DepthFacts(tax: Taxonomy, x: string)
    ensures HasParentFields(tax) ==> (DepthFrom(tax, x, {}, 0).Failure? <==> Cyclic(ParentLinks(tax), x))
    ensures HasParentFields(tax) && DepthFrom(tax, x, {}, 0).Success? ==>
      Anc(ParentLinks(tax), x, DepthFrom(tax, x, {}, 0).value).Some? &&
      Anc(ParentLinks(tax), x, DepthFrom(tax, x, {}, 0).value).value !in ParentLinks(tax)
  {
    if HasParentFields(tax) {
      DepthChain(tax, x, 0, {});
    }
  }

  /** The depth is the number of parent steps until the chain reaches a root,
      a node with an empty parent, or an ID that is not a key. */
  lemma {:induction false} DepthChain(tax: Taxonomy, x0: string, i: nat, path: set<string>)
    requires HasParentFields(tax)
    requires Anc(ParentLinks(tax), x0, i).Some? && ChainPrefix(ParentLinks(tax), x0, path, i)
    ensures var r := DepthFrom(tax, Anc(ParentLinks(tax), x0, i).value, path, i);
      && (r.Failure? <==> Cyclic(ParentLinks(tax), x0))
      && (r.Success? ==> Anc(ParentLinks(tax), x0, r.value).Some? && Anc(ParentLinks(tax), x0, r.value).value !in ParentLinks(tax))
    decreases tax.m.Keys - path
  {
    var pm := ParentLinks(tax);
    var n := Anc(pm, x0, i).value;
    if n !in pm {
      AncStep(pm, x0, i, n);
      EndedNotCyclic(pm, x0, i + 1);
    } else if n in path {
      var j: nat :| j < i && Anc(pm, x0, j) == Some(n);
      RevisitCyclic(pm, x0, j, i);
    } else {
      AncStep(pm, x0, i, n);
      var path' := path + {n};
      forall y | y in path'
        ensures exists j: nat :: j < i + 1 && Anc(pm, x0, j) == Some(y)
      {
        if y == n {
          assert Anc(pm, x0, i) == Some(y);
        } else {
          var j: nat :| j < i && Anc(pm, x0, j) == Some(y);
          assert j < i + 1;
        }
      }
      forall j: nat | j < i + 1
        ensures Anc(pm, x0, j).Some? && Anc(pm, x0, j).value in path'
      {
      }
      DepthChain(tax, x0, i + 1, path');
    }
  }

  /** A node whose parent is a key sits one level below it. */
  lemma DepthOfChild(tax: Taxonomy, x: string)
    requires HasParentFields(tax) && x in ParentLinks(tax) && ParentLinks(tax)[x] in tax.m
    requires GetNodeDepth(tax, x).Success?
    ensures GetNodeDepth(tax, ParentLinks(tax)[x]).Success?
    ensures GetNodeDepth(tax, x).value == GetNodeDepth(tax, ParentLinks(tax)[x]).value + 1
  {
    var pm := ParentLinks(tax);
    var p := pm[x];
    var d := GetNodeDepth(tax, x).value;
    AncStep(pm, x, 0, x);
    if GetNodeDepth(tax, p).Failure? {
      assert Cyclic(pm, p);
      forall k: nat
        ensures Anc(pm, x, k).Some?
      {
        if k > 0 {
          AncCompose(pm, x, 1, k - 1, p);
        }
      }
      assert false;
    }
    var e := GetNodeDepth(tax, p).value;
    AncCompose(pm, x, 1, e, p);
    // Both `d` and `e + 1` are the first step at which the chain from `x`
    // leaves `pm`.
    FirstExit(pm, x, d, e + 1);
  }

  /** The chain leaves the parent map at one step only. */
  lemma {:induction false} FirstExit(pm: map<string, string>, x: string, a: nat, b: nat)
    requires Anc(pm, x, a).Some? && Anc(pm, x, a).value !in pm
    requires Anc(pm, x, b).Some? && Anc(pm, x, b).value !in pm
    ensures a == b
  {
    if a < b {
      AncStep(pm, x, a, Anc(pm, x, a).value);
      AncAbsorbing(pm, x, a + 1, b);
    } else if b < a {
      AncStep(pm, x, b, Anc(pm, x, b).value);
      AncAbsorbing(pm, x, b + 1, a);
    }
  }

  // ---------------------------------------------------------------- filter

  /** `should_include_node(node_id, current_depth)`: within the depth limit
      and, when a reference filter is set, carrying that reference. */
  function ShouldIncludeNode(tax: Taxonomy, maxDepth: Option<int>, filter: Option<string>, x: string, depth: int): (r: Result<bool, ChartError>)
    requires x in tax.m
    ensures maxDepth.Some? && depth > maxDepth.value ==> r == Success(false)
    ensures r.Failure? <==> (maxDepth.None? || depth <= maxDepth.value) && filter.Some? && ReferenceField !in tax.m[x].fields
    ensures r == Success(true) <==>
      (maxDepth.None? || depth <= maxDepth.value) &&
      (filter.None? || (ReferenceField in tax.m[x].fields && tax.m[x].fields[ReferenceField] == Some(filter.value)))
  {
    if maxDepth.Some? && depth > maxDepth.value then Success(false)
    else if filter.None? then Success(true)
    else if ReferenceField !in tax.m[x].fields then Failure(KeyError(ReferenceField))
    else Success(tax.m[x].fields[ReferenceField] == Some(filter.value))
  }

  /** Raising the depth limit never drops a node. */
  lemma ShouldIncludeMonotone(tax: Taxonomy, a: int, b: int, filter: Option<string>, x: string, depth: int)
    requires x in tax.m && a <= b
    requires ShouldIncludeNode(tax, Some(a), filter, x, depth) == Success(true)
    ensures ShouldIncludeNode(tax, Some(b), filter, x, depth) == Success(true)
  {
  }

  // ---------------------------------------------------------------- doc coverage

  /** A node is mapped when its mapping is non-empty and a key of `target`. */
  predicate IsMapped(source: Taxonomy, target: Taxonomy, n: string)
    requires n in source.m
  {
    Truthy(GetField(source.m[n].fields, MappingField)) && GetField(source.m[n].fields, MappingField).value in target.m
  }

  /** The nodes of `nodes` that are mapped, in order. */
  function MappedOf(source: Taxonomy, target: Taxonomy, nodes: seq<string>): (r: seq<string>)
    requires forall n :: n in nodes ==> n in source.m
    decreases |nodes|
  {
    if nodes == [] then []
    else (if IsMapped(source, target, nodes[0]) then [nodes[0]] else []) + MappedOf(source, target, nodes[1..])
  }

  /** The nodes of `nodes` that are not mapped, in order. */
  function NotMappedOf(source: Taxonomy, target: Taxonomy, nodes: seq<string>): (r: seq<string>)
    requires forall n :: n in nodes ==> n in source.m
    decreases |nodes|
  {
    if nodes == [] then []
    else (if IsMapped(source, target, nodes[0]) then [] else [nodes[0]]) + NotMappedOf(source, target, nodes[1..])
  }

  /** Each node lands in exactly one of the two lists. */
  lemma {:induction false} Partition(source: Taxonomy, target: Taxonomy, nodes: seq<string>)
    requires forall n :: n in nodes ==> n in source.m
    ensures |MappedOf(source, target, nodes)| + |NotMappedOf(source, target, nodes)| == |nodes|
    ensures forall n :: n in MappedOf(source, target, nodes) <==> n in nodes && IsMapped(source, target, n)
    ensures forall n :: n in NotMappedOf(source, target, nodes) <==> n in nodes && !IsMapped(source, target, n)
    decreases |nodes|
  {
    if nodes != [] {
      Partition(source, target, nodes[1..]);
      assert forall n :: n in nodes <==> n == nodes[0] || n in nodes[1..];
    }
  }

  lemma {:induction false} FilterAppend(source: Taxonomy, target: Taxonomy, nodes: seq<string>, x: string)
    requires forall n :: n in nodes ==> n in source.m
    requires x in source.m
    ensures MappedOf(source, target, nodes + [x]) ==
      MappedOf(source, target, nodes) + (if IsMapped(source, target, x) then [x] else [])
    ensures NotMappedOf(source, target, nodes + [x]) ==
      NotMappedOf(source, target, nodes) + (if IsMapped(source, target, x) then [] else [x])
    decreases |nodes|
  {
    if nodes != [] {
      assert (nodes + [x])[1..] == nodes[1..] + [x];
      FilterAppend(source, target, nodes[1..], x);
    } else {
      assert nodes + [x] == [x];
    }
  }

  /** The mapped and not-mapped lists of one dimension (`mapped[dim]`,
      `not_mapped[dim]`), kept together with the dimension's nodes. */
  datatype Bucket = Bucket(nodes: seq<string>, mapped: seq<string>, notMapped: seq<string>)

  /** The per-node loop, appending to a dimension's bucket. Logging the
      node reads `source[node_id][label]`, which raises when the label
      column is absent. */
  function CollectNodes(source: Taxonomy, target: Taxonomy, nodes: seq<string>, b: Bucket): (r: Result<Bucket, ChartError>)
    requires forall n :: n in nodes ==> n in source.m
    ensures r.Failure? <==> exists n :: n in nodes && LabelField !in source.m[n].fields
    ensures r.Failure? ==> r.error == KeyError(LabelField)
    ensures r.Success? ==> r.value == Bucket(b.nodes, b.mapped + MappedOf(source, target, nodes), b.notMapped + NotMappedOf(source, target, nodes))
    decreases |nodes|
  {
    if nodes == [] then Success(b)
    else
      var init := nodes[..|nodes| - 1];
      var x := nodes[|nodes| - 1];
      assert forall n :: n in nodes <==> n in init || n == x;
      var prev :- CollectNodes(source, target, init, b);
      if LabelField !in source.m[x].fields then Failure(KeyError(LabelField))
      else
        FilterAppend(source, target, init, x);
        assert init + [x] == nodes;
        if IsMapped(source, target, x) then Success(Bucket(prev.nodes, prev.mapped + [x], prev.notMapped))
        else Success(Bucket(prev.nodes, prev.mapped, prev.notMapped + [x]))
  }

  /** Some node lacks the parent column, so `child_data[parent_id]` raises. */
  predicate MissingParentColumn(source: Taxonomy) {
    exists k :: k in source.m && ParentField !in source.m[k].fields
  }

  /** `get_children(dim)`: the descendants, or the error it raises. */
  function DimensionNodes(source: Taxonomy, dim: string): (r: Result<seq<string>, ChartError>)
    requires source.Valid()
    ensures MissingParentColumn(source) ==> r == Failure(KeyError(ParentField))
    ensures r.Success? ==> forall n :: n in r.value ==> n in source.m
  {
    if MissingParentColumn(source) then Failure(KeyError(ParentField))
    else
      DescendantFacts(source, dim);
      match AllDescendants(source.keys, ChildLinks(source), dim)
      case None => Failure(RecursionLimit)
      case Some(ds) => Success(ds)
  }

  /** The dimension's nodes are exactly its strict descendants, and without
      parent cycles the recursion ends. */
  lemma DimensionNodesExact(source: Taxonomy, dim: string)
    requires source.Valid()
    ensures DimensionNodes(source, dim).Success? ==>
      forall n :: n in DimensionNodes(source, dim).value <==> IsDescendant(ChildLinks(source), n, dim)
    ensures DimensionNodes(source, dim).Success? ==>
      && NoDuplicates(DimensionNodes(source, dim).value)
      && SiblingsInOrder(source.keys, ChildLinks(source), dim, 0, DimensionNodes(source, dim).value)
    ensures !MissingParentColumn(source) && Acyclic(ChildLinks(source)) ==> DimensionNodes(source, dim).Success?
  {
    DescendantFacts(source, dim);
  }

  lemma DescendantFacts(source: Taxonomy, dim: string)
    requires source.Valid()
    ensures Acyclic(ChildLinks(source)) ==> AllDescendants(source.keys, ChildLinks(source), dim).Some?
    ensures AllDescendants(source.keys, ChildLinks(source), dim).Some? ==>
      var ds := AllDescendants(source.keys, ChildLinks(source), dim).value;
      && (forall n :: n in ds <==> IsDescendant(ChildLinks(source), n, dim))
      && (forall n :: n in ds ==> n in source.m)
      && NoDuplicates(ds)
      && SiblingsInOrder(source.keys, ChildLinks(source), dim, 0, ds)
  {
    var pm := ChildLinks(source);
    assert forall y :: y in pm ==> y in source.keys;
    if Acyclic(pm) {
      DescendantsAcyclic(source.keys, pm, dim, {});
    }
    if AllDescendants(source.keys, pm, dim).Some? {
      AllDescendantsExact(source.keys, pm, dim);
      AllDescendantsNoDuplicates(source.keys, pm, dim);
      AllDescendantsSiblingOrder(source.keys, pm, dim);
      var ds := AllDescendants(source.keys, pm, dim).value;
      assert ParentsPrecede(source.keys, pm, dim, ds);
    }
  }

  /** `b` holds the mapped and the unmapped nodes of `nodes`, `k` times over. */
  ghost predicate BucketFor(source: Taxonomy, target: Taxonomy, nodes: seq<string>, k: nat, b: Bucket)
    requires forall n :: n in nodes ==> n in source.m
  {
    && |b.mapped| == k * |MappedOf(source, target, nodes)|
    && |b.notMapped| == k * |NotMappedOf(source, target, nodes)|
    && (forall n :: n in b.mapped <==> n in nodes && IsMapped(source, target, n))
    && (forall n :: n in b.notMapped <==> n in nodes && !IsMapped(source, target, n))
  }

  /** Collecting a dimension's nodes once more adds one more copy. */
  lemma BucketStep(source: Taxonomy, target: Taxonomy, nodes: seq<string>, k: nat, cur: Bucket, b: Bucket)
    requires forall n :: n in nodes ==> n in source.m
    requires k == 0 ==> cur.mapped == [] && cur.notMapped == []
    requires k > 0 ==> BucketFor(source, target, nodes, k, cur)
    requires b.mapped == cur.mapped + MappedOf(source, target, nodes)
    requires b.notMapped == cur.notMapped + NotMappedOf(source, target, nodes)
    ensures BucketFor(source, target, nodes, k + 1, b)
  {
    Partition(source, target, nodes);
    var m := |MappedOf(source, target, nodes)|;
    var u := |NotMappedOf(source, target, nodes)|;
    assert (k + 1) * m == k * m + m && (k + 1) * u == k * u + u;
  }

  /** The bucket of `d` holds the nodes of `d`, filled `k` times. */
  ghost predicate BucketOk(source: Taxonomy, target: Taxonomy, k: nat, b: Bucket) {
    && (forall n :: n in b.nodes ==> n in source.m)
    && BucketFor(source, target, b.nodes, k, b)
  }

  /** Every dimension of `dims` has its bucket, filled once per listing. */
  ghost predicate BucketsOk(source: Taxonomy, target: Taxonomy, dims: seq<string>, bs: map<string, Bucket>) {
    && (forall d :: d in bs <==> d in dims)
    && (forall d :: d in dims ==> BucketOk(source, target, multiset(dims)[d], bs[d]))
  }

  /** Collecting dimension `d` raises: `get_children(d)` raises, or one of
      its nodes has no label for the log line to read. */
  predicate DimFails(source: Taxonomy, d: string)
    requires source.Valid()
  {
    match DimensionNodes(source, d)
    case Failure(_) => true
    case Success(ns) => exists n :: n in ns && LabelField !in source.m[n].fields
  }

  /** The buckets after the first loop over the dimensions. The lists are
      a `defaultdict`, so a dimension listed twice collects its nodes twice. */
  function CollectDims(source: Taxonomy, target: Taxonomy, dims: seq<string>): (r: Result<map<string, Bucket>, ChartError>)
    requires source.Valid()
    ensures r.Success? ==> BucketsOk(source, target, dims, r.value)
    ensures r.Success? ==> forall d :: d in dims ==> DimensionNodes(source, d) == Success(r.value[d].nodes)
    ensures dims != [] && MissingParentColumn(source) ==> r == Failure(KeyError(ParentField))
    decreases |dims|
  {
    if dims == [] then Success(map[])
    else
      var init := dims[..|dims| - 1];
      var d := dims[|dims| - 1];
      assert dims == init + [d];
      var prev :- CollectDims(source, target, init);
      var nodes :- DimensionNodes(source, d);
      var cur := if d in prev then prev[d] else Bucket(nodes, [], []);
      var b :- CollectNodes(source, target, nodes, cur);
      CollectDimsStep(source, target, init, d, prev, cur, b);
      assert forall e :: e in dims <==> e in init || e == d;
      Success(prev[d := b])
  }

  /** The first loop raises exactly when collecting some listed dimension
      raises. */
  lemma {:induction false} CollectDimsFails(source: Taxonomy, target: Taxonomy, dims: seq<string>)
    requires source.Valid()
    ensures CollectDims(source, target, dims).Failure? <==> exists d :: d in dims && DimFails(source, d)
    decreases |dims|
  {
    if dims != [] {
      var init := dims[..|dims| - 1];
      assert forall e :: e in dims <==> e in init || e == dims[|dims| - 1];
      CollectDimsFails(source, target, init);
      CollectDimsFailsStep(source, target, dims);
    }
  }

  /** One more dimension makes the loop raise exactly when it raises
      itself or the loop before it did. */
  lemma CollectDimsFailsStep(source: Taxonomy, target: Taxonomy, dims: seq<string>)
    requires source.Valid() && dims != []
    ensures CollectDims(source, target, dims).Failure? <==>
      CollectDims(source, target, dims[..|dims| - 1]).Failure? || DimFails(source, dims[|dims| - 1])
  {
    var init := dims[..|dims| - 1];
    var d := dims[|dims| - 1];
    if CollectDims(source, target, init).Success? && DimensionNodes(source, d).Success? {
      var prev := CollectDims(source, target, init).value;
      var nodes := DimensionNodes(source, d).value;
      var cur := if d in prev then prev[d] else Bucket(nodes, [], []);
      assert CollectNodes(source, target, nodes, cur).Failure? <==> DimFails(source, d);
    }
  }

  lemma CollectDimsStep(source: Taxonomy, target: Taxonomy, init: seq<string>, d: string,
                        prev: map<string, Bucket>, cur: Bucket, b: Bucket)
    requires BucketsOk(source, target, init, prev)
    requires forall n :: n in cur.nodes ==> n in source.m
    requires cur == if d in prev then prev[d] else Bucket(cur.nodes, [], [])
    requires b == Bucket(cur.nodes, cur.mapped + MappedOf(source, target, cur.nodes), cur.notMapped + NotMappedOf(source, target, cur.nodes))
    ensures BucketsOk(source, target, init + [d], prev[d := b])
  {
    var dims := init + [d];
    var next := prev[d := b];
    assert forall e :: e in dims <==> e in init || e == d;
    forall e | e in dims
      ensures BucketOk(source, target, multiset(dims)[e], next[e])
    {
      if e == d {
        NewBucketOk(source, target, init, d, prev, cur, b);
        ListedOnceMore(source, target, init, d, prev, b);
      } else {
        OtherBucketOk(source, target, init, d, prev, b, e);
      }
    }
  }

  /** The buckets of the other dimensions are left as they were. */
  lemma OtherBucketOk(source: Taxonomy, target: Taxonomy, init: seq<string>, d: string,
                      prev: map<string, Bucket>, b: Bucket, e: string)
    requires BucketsOk(source, target, init, prev)
    requires e in init + [d] && e != d
    ensures BucketOk(source, target, multiset(init + [d])[e], prev[d := b][e])
  {
    assert multiset(init + [d]) == multiset(init) + multiset{d};
    assert e in init;
    assert BucketOk(source, target, multiset(init)[e], prev[e]);
  }

  /** The bucket of the dimension just listed gains one more copy. */
  lemma NewBucketOk(source: Taxonomy, target: Taxonomy, init: seq<string>, d: string,
                    prev: map<string, Bucket>, cur: Bucket, b: Bucket)
    requires BucketsOk(source, target, init, prev)
    requires forall n :: n in cur.nodes ==> n in source.m
    requires cur == if d in prev then prev[d] else Bucket(cur.nodes, [], [])
    requires b == Bucket(cur.nodes, cur.mapped + MappedOf(source, target, cur.nodes), cur.notMapped + NotMappedOf(source, target, cur.nodes))
    ensures BucketOk(source, target, multiset(init)[d] + 1, b)
  {
    var k := multiset(init)[d];
    if d in init {
      assert BucketOk(source, target, k, prev[d]);
    } else {
      assert k == 0 && d !in prev;
    }
    BucketStep(source, target, cur.nodes, k, cur, b);
  }

  /** Listing `d` once more raises its count by one. */
  lemma ListedOnceMore(source: Taxonomy, target: Taxonomy, init: seq<string>, d: string,
                       prev: map<string, Bucket>, b: Bucket)
    requires BucketOk(source, target, multiset(init)[d] + 1, b)
    ensures BucketOk(source, target, multiset(init + [d])[d], prev[d := b][d])
  {
    assert multiset(init + [d]) == multiset(init) + multiset{d};
  }

  /** One row of the report. */
  datatype DocRow = DocRow(dimension: string, coverage: real, total: nat, mapped: nat, notMapped: nat, notMappedIds: string)

  /** The "Not mapped ids" text: `id:label, ` per node. */
  function NotMappedIds(source: Taxonomy, nodes: seq<string>): string
    requires forall n :: n in nodes ==> n in source.m
    decreases |nodes|
  {
    if nodes == [] then ""
    else NotMappedIds(source, nodes[..|nodes| - 1]) + nodes[|nodes| - 1] + ":" + LabelText(source.m[nodes[|nodes| - 1]].fields) + ", "
  }

  /** The report row of one dimension; `source[dim][label]` raises when the
      dimension or its label column is absent. */
  function DocRowOf(source: Taxonomy, dim: string, b: Bucket): (r: Result<DocRow, ChartError>)
    requires forall n :: n in b.notMapped ==> n in source.m
    ensures r.Failure? <==> dim !in source.m || LabelField !in source.m[dim].fields
    ensures r.Success? ==> r.value.mapped == |b.mapped| && r.value.notMapped == |b.notMapped|
    ensures r.Success? ==> r.value.total == r.value.mapped + r.value.notMapped
    ensures r.Success? ==> r.value.coverage == Coverage(r.value.mapped, r.value.total)
    ensures r.Success? ==> (r.value.total == 0 ==> r.value.coverage == 0.0) && 0.0 <= r.value.coverage <= 100.0
    ensures r.Success? ==> r.value.dimension == dim + ":" + LabelText(source.m[dim].fields)
    ensures r.Success? ==> r.value.notMappedIds == NotMappedIds(source, b.notMapped)
  {
    if dim !in source.m then Failure(KeyError(dim))
    else if LabelField !in source.m[dim].fields then Failure(KeyError(LabelField))
    else
      var total := |b.mapped| + |b.notMapped|;
      Success(DocRow(dim + ":" + LabelText(source.m[dim].fields), Coverage(|b.mapped|, total), total,
                     |b.mapped|, |b.notMapped|, NotMappedIds(source, b.notMapped)))
  }

  /** The second loop: rows and running totals. */
  /** The sum of `f` over the entries of `m` that `dims` lists, once per
      listing. */
  function SumOver<T>(dims: seq<string>, m: map<string, T>, f: T -> nat): nat
    requires forall d :: d in dims ==> d in m
    decreases |dims|
  {
    if dims == [] then 0
    else SumOver(dims[..|dims| - 1], m, f) + f(m[dims[|dims| - 1]])
  }

  /** Two sums over the same listing agree when their terms agree entry by entry. */
  lemma {:induction false} SumOverAgree<T, U>(dims: seq<string>, m: map<string, T>, f: T -> nat,
                                             m': map<string, U>, g: U -> nat)
    requires forall d :: d in dims ==> d in m && d in m'
    requires forall d :: d in dims ==> f(m[d]) == g(m'[d])
    ensures SumOver(dims, m, f) == SumOver(dims, m', g)
    decreases |dims|
  {
    if dims != [] {
      var init := dims[..|dims| - 1];
      assert forall d :: d in init ==> d in dims;
      SumOverAgree(init, m, f, m', g);
    }
  }

  /** Over rows whose total is mapped + not mapped, the totals add up the same way. */
  lemma {:induction false} SumOverTotal(dims: seq<string>, rows: map<string, DocRow>)
    requires forall d :: d in dims ==> d in rows && rows[d].total == rows[d].mapped + rows[d].notMapped
    ensures SumOver(dims, rows, RowTotal) == SumOver(dims, rows, RowMapped) + SumOver(dims, rows, RowNotMapped)
    decreases |dims|
  {
    if dims != [] {
      var init := dims[..|dims| - 1];
      assert forall d :: d in init ==> d in dims;
      SumOverTotal(init, rows);
    }
  }

  function BucketMapped(b: Bucket): nat { |b.mapped| }
  function BucketNotMapped(b: Bucket): nat { |b.notMapped| }
  function RowMapped(row: DocRow): nat { row.mapped }
  function RowNotMapped(row: DocRow): nat { row.notMapped }
  function RowTotal(row: DocRow): nat { row.total }

  datatype DocReport = DocReport(rows: Dict<string, DocRow>, total: nat, mapped: nat, notMapped: nat)

  function ReportDims(source: Taxonomy, buckets: map<string, Bucket>, dims: seq<string>): (r: Result<DocReport, ChartError>)
    requires forall d :: d in dims ==> d in buckets
    requires forall d, n :: d in buckets && n in buckets[d].notMapped ==> n in source.m
    ensures r.Success? ==> r.value.rows.Valid() && (forall d :: d in r.value.rows.m <==> d in dims)
    ensures r.Success? ==> r.value.rows.keys == Dedup(dims)
    ensures r.Success? ==> r.value.total == r.value.mapped + r.value.notMapped
    ensures r.Success? ==> r.value.mapped == SumOver(dims, buckets, BucketMapped)
    ensures r.Success? ==> r.value.notMapped == SumOver(dims, buckets, BucketNotMapped)
    ensures r.Success? ==> forall d :: d in r.value.rows.m ==>
      r.value.rows.m[d].mapped == |buckets[d].mapped| && r.value.rows.m[d].notMapped == |buckets[d].notMapped| &&
      r.value.rows.m[d].total == r.value.rows.m[d].mapped + r.value.rows.m[d].notMapped &&
      r.value.rows.m[d].coverage == Coverage(r.value.rows.m[d].mapped, r.value.rows.m[d].total)
    ensures r.Failure? <==> exists d :: d in dims && (d !in source.m || LabelField !in source.m[d].fields)
    decreases |dims|
  {
    if dims == [] then Success(DocReport(Empty(), 0, 0, 0))
    else
      var init := dims[..|dims| - 1];
      var d := dims[|dims| - 1];
      assert forall e :: e in dims <==> e in init || e == d;
      var prev :- ReportDims(source, buckets, init);
      var row :- DocRowOf(source, d, buckets[d]);
      Success(DocReport(prev.rows.Put(d, row), prev.total + row.total, prev.mapped + row.mapped, prev.notMapped + row.notMapped))
  }

  /** `doc_coverage_report(source, target, dimensions)`: the rows and
      `[total, total_mapped, total_not_mapped]`. */
  function DocCoverageReport(source: Taxonomy, target: Taxonomy, dims: seq<string>): (r: Result<(Dict<string, DocRow>, seq<nat>), ChartError>)
    requires source.Valid()
    ensures dims != [] && MissingParentColumn(source) ==> r == Failure(KeyError(ParentField))
    ensures r.Success? ==> |r.value.1| == 3 && r.value.1[0] == r.value.1[1] + r.value.1[2]
    ensures r.Success? ==> forall d :: d in r.value.0.m <==> d in dims
    ensures r.Success? ==> r.value.0.keys == Dedup(dims)
    ensures r.Success? ==> r.value.1[0] == SumOver(dims, r.value.0.m, RowTotal)
    ensures r.Success? ==> r.value.1[1] == SumOver(dims, r.value.0.m, RowMapped)
    ensures r.Success? ==> r.value.1[2] == SumOver(dims, r.value.0.m, RowNotMapped)
    ensures r.Failure? <==>
      || (exists d :: d in dims && DimFails(source, d))
      || (exists d :: d in dims && (d !in source.m || LabelField !in source.m[d].fields))
  {
    CollectDimsFails(source, target, dims);
    var buckets :- CollectDims(source, target, dims);
    var rep :- ReportDims(source, buckets, dims);
    SumOverAgree(dims, buckets, BucketMapped, rep.rows.m, RowMapped);
    SumOverAgree(dims, buckets, BucketNotMapped, rep.rows.m, RowNotMapped);
    SumOverTotal(dims, rep.rows.m);
    Success((rep.rows, [rep.total, rep.mapped, rep.notMapped]))
  }

  /** The row of a dimension counts its mapped and its unmapped descendants,
      once per listing of the dimension. */
  lemma DocCoverageRow(source: Taxonomy, target: Taxonomy, dims: seq<string>, d: string)
    requires source.Valid()
    requires DocCoverageReport(source, target, dims).Success? && d in dims
    ensures DimensionNodes(source, d).Success?
    ensures
      var nodes := DimensionNodes(source, d).value;
      var row := DocCoverageReport(source, target, dims).value.0.m[d];
      && row.mapped == multiset(dims)[d] * |MappedOf(source, target, nodes)|
      && row.notMapped == multiset(dims)[d] * |NotMappedOf(source, target, nodes)|
      && row.total == row.mapped + row.notMapped
      && row.coverage == Coverage(row.mapped, row.total)
      && (row.total == 0 ==> row.coverage == 0.0)
  {
    var buckets := CollectDims(source, target, dims).value;
    BucketsInSource(source, target, dims, buckets);
    var rep := ReportDims(source, buckets, dims).value;
    assert DocCoverageReport(source, target, dims).value.0 == rep.rows;
    RowOfBucket(source, target, multiset(dims)[d], buckets[d], rep.rows.m[d]);
  }

  /** The unmapped nodes of every bucket are nodes of the source taxonomy. */
  lemma BucketsInSource(source: Taxonomy, target: Taxonomy, dims: seq<string>, bs: map<string, Bucket>)
    requires BucketsOk(source, target, dims, bs)
    ensures forall d, n :: d in bs && n in bs[d].notMapped ==> n in source.m
  {
    forall d, n | d in bs && n in bs[d].notMapped
      ensures n in source.m
    {
      assert BucketOk(source, target, multiset(dims)[d], bs[d]);
    }
  }

  /** A row made from a bucket filled k times counts k copies. */
  lemma RowOfBucket(source: Taxonomy, target: Taxonomy, k: nat, b: Bucket, row: DocRow)
    requires BucketOk(source, target, k, b)
    requires row.mapped == |b.mapped| && row.notMapped == |b.notMapped|
    ensures row.mapped == k * |MappedOf(source, target, b.nodes)|
    ensures row.notMapped == k * |NotMappedOf(source, target, b.nodes)|
  {
  }

  /** With every dimension listed once, each row counts each descendant of
      its dimension exactly once. */
  lemma DocCoverageCountsOnce(source: Taxonomy, target: Taxonomy, dims: seq<string>, d: string)
    requires source.Valid()
    requires DocCoverageReport(source, target, dims).Success?
    requires d in dims && multiset(dims)[d] == 1
    ensures DimensionNodes(source, d).Success?
    ensures DocCoverageReport(source, target, dims).value.0.m[d].total == |DimensionNodes(source, d).value|
  {
    DocCoverageRow(source, target, dims, d);
    Partition(source, target, DimensionNodes(source, d).value);
  }
}

=== FILE: taxonomy_model.dfy ===
/** The data the taxonomy tools pass around: spreadsheet rows read from the
    workbook, and taxonomy dictionaries keyed by taxonomy ID whose node
    records are dictionaries of named fields. */
module TaxonomyModel {
  import opened Wrappers
  import opened Dicts
  import opened Strings

  /** The taxonomy sheet's columns (`TaxonomyFields`). */
  const IdField: string := "taxonomy_id"
  const ParentField: string := "parent_id"
  const LabelField: string := "label"
  const DescriptionField: string := "description"
  const MappingField: string := "mapping"
  const ExampleField: string := "example"
  const ReferenceField: string := "reference"

  const TaxonomyFieldNames: seq<string> :=
    [IdField, ParentField, LabelField, DescriptionField, MappingField, ExampleField, ReferenceField]

  /** The attributes sheet's columns (`AttributeFields`); the ID column has
      the same name as in the taxonomy sheet. */
  const AttributeNameField: string := "attribute_name"
  const RequiredField: string := "required"
  const DataTypeField: string := "datatype"
  const OcxNameField: string := "ocx_name"

  const AttributeFieldNames: seq<string> :=
    [IdField, AttributeNameField, DescriptionField, RequiredField, DataTypeField, OcxNameField]

  /** One spreadsheet cell: empty (read as NaN), text, a boolean, or a
      number, given by the text `str()` prints for it and whether it is zero. */
  datatype Cell = Missing | Text(s: string) | Flag(b: bool) | Number(text: string, zero: bool)

  /** A row maps column names to cells; a column the row does not mention is empty. */
  type Row = map<string, Cell>

  function CellAt(row: Row, col: string): Cell {
    if col in row then row[col] else Missing
  }

  /** `str(cell)` */
  function CellStr(c: Cell): string {
    match c
    case Missing => "nan"
    case Text(s) => s
    case Flag(b) => if b then "True" else "False"
    case Number(t, _) => t
  }

  /** `str(cell).strip() if pd.notna(cell) else None` */
  function CleanCell(c: Cell): (r: Option<string>)
    ensures r.None? <==> c.Missing?
  {
    if c.Missing? then None else Some(Strip(CellStr(c)))
  }

  /** A sheet: its header and its data rows. */
  datatype Sheet = Sheet(columns: seq<string>, rows: seq<Row>)

  /** `set(required) - set(columns)` */
  function MissingColumns(required: seq<string>, columns: seq<string>): (r: set<string>)
    ensures forall f :: f in r <==> f in required && f !in columns
  {
    set f | f in required && f !in columns
  }

  /** A node's fields: name to value, `None` standing for Python's `None`. */
  type Fields = map<string, Option<string>>

  /** `record.get(f)`: `None` both for an absent key and for a `None` value. */
  function GetField(fs: Fields, f: string): (r: Option<string>)
    ensures r.Some? <==> f in fs && fs[f].Some?
  {
    if f in fs then fs[f] else None
  }

  /** Python truthiness of an optional string. */
  predicate Truthy(v: Option<string>) {
    v.Some? && v.value != ""
  }

  /** One attribute of a taxonomy node: its string fields and `required`. */
  datatype Attribute = Attribute(fields: Fields, required: bool)

  /** A loaded taxonomy node: its fields and its attributes by attribute name. */
  datatype Node = Node(fields: Fields, attributes: Dict<string, Attribute>)

  /** A taxonomy dictionary keyed by taxonomy ID. */
  type Taxonomy = Dict<string, Node>

  /** The parent edges `add_parents` follows: nodes whose parent field is a
      non-empty string. */
  function ParentLinks(full: Taxonomy): (pm: map<string, string>)
    ensures forall k :: k in pm <==> k in full.m && Truthy(GetField(full.m[k].fields, ParentField))
    ensures forall k :: k in pm ==> GetField(full.m[k].fields, ParentField) == Some(pm[k])
  {
    map k | k in full.m && Truthy(GetField(full.m[k].fields, ParentField)) :: GetField(full.m[k].fields, ParentField).value
  }

  /** The parent edges `add_children` compares against: every node whose
      parent field holds a string. */
  function ChildLinks(full: Taxonomy): (pm: map<string, string>)
    ensures forall k :: k in pm <==> k in full.m && GetField(full.m[k].fields, ParentField).Some?
    ensures forall k :: k in pm ==> GetField(full.m[k].fields, ParentField) == Some(pm[k])
  {
    map k | k in full.m && GetField(full.m[k].fields, ParentField).Some? :: GetField(full.m[k].fields, ParentField).value
  }

  predicate ChildOf(full: Taxonomy, c: string, x: string) {
    c in full.m && GetField(full.m[c].fields, ParentField) == Some(x)
  }

  /** The `Coverage %` of a report row: the mapped share in percent, 0 for
      an empty dimension. */
  function Coverage(mapped: nat, total: nat): (c: real)
    requires mapped <= total
    ensures total == 0 ==> c == 0.0
    ensures total > 0 ==> c * (total as real) == (mapped as real) * 100.0
    ensures 0.0 <= c <= 100.0
  {
    if total > 0 then (mapped as real) / (total as real) * 100.0 else 0.0
  }

  /** `str(record.get(label))`: the label, or "None" when it is absent. */
  function LabelText(fs: Fields): string {
    match GetField(fs, LabelField)
    case Some(s) => s
    case None => "None"
  }

  /** `a` lists some of the elements of `b`, in the order of `b`. */
  ghost predicate IsSubsequence<T>(a: seq<T>, b: seq<T>)
    decreases |b|
  {
    if |a| == 0 then true
    else if |b| == 0 then false
    else (a[0] == b[0] && IsSubsequence(a[1..], b[1..])) || IsSubsequence(a, b[1..])
  }
}

=== FILE: trimming.dfy ===
/** `clip_spline_by_geomdl_trim`: intersect a UV spline with a trim curve by
    sampling both as polylines, refine and cluster the crossings, split the
    spline's parameter range at them and keep the pieces whose midpoint lies
    inside the sampled trim polygon. */
module Trimming {
  import opened Wrappers
  import opened Bezier
  import opened PatchGrid
  import opened UVCurve
  import opened Geometry2D

  /** Crossings closer than this in t (1e-6) are one crossing. */
  const ClusterTol: real := 0.000001

  /** Parameter spans shorter than this (1e-12) are skipped. */
  const SpanTol: real := 0.000000000001

  /** `np.linspace(a, b, n)`: n evenly spaced values from a to b inclusive. */
  function Linspace(a: real, b: real, n: nat): (r: seq<real>)
    ensures |r| == n
    ensures n >= 1 ==> r[0] == a
    ensures n >= 2 ==> r[n - 1] == b
  {
    if n == 1 then [a]
    else
      var step := (b - a) / (n - 1) as real;
      seq(n, i requires 0 <= i < n => a + i as real * step)
  }

  /** The values of `np.linspace(a, b, n)` lie in [a, b] and never decrease. */
  lemma LinspaceMonotone(a: real, b: real, n: nat)
    requires a <= b
    ensures forall i :: 0 <= i < n ==> a <= Linspace(a, b, n)[i] <= b
    ensures forall i, j :: 0 <= i <= j < n ==> Linspace(a, b, n)[i] <= Linspace(a, b, n)[j]
  {
    if n >= 2 {
      forall i, j | 0 <= i <= j < n
        ensures a <= Linspace(a, b, n)[i] <= Linspace(a, b, n)[j] <= b
      {
        LinspacePair(a, b, n, i, j);
      }
      forall i | 0 <= i < n
        ensures a <= Linspace(a, b, n)[i] <= b
      {
        LinspacePair(a, b, n, i, i);
      }
    }
  }

  lemma LinspacePair(a: real, b: real, n: nat, i: nat, j: nat)
    requires a <= b && n >= 2 && i <= j < n
    ensures a <= Linspace(a, b, n)[i] <= Linspace(a, b, n)[j] <= b
  {
    var step := (b - a) / (n - 1) as real;
    StepFacts(a, b, n);
    LinspaceAt(a, b, n, i);
    LinspaceAt(a, b, n, j);
    SamplesOrdered(a, b, n, step, i, j, Linspace(a, b, n)[i], Linspace(a, b, n)[j]);
  }

  lemma LinspaceAt(a: real, b: real, n: nat, i: nat)
    requires n >= 2 && i < n
    ensures Linspace(a, b, n)[i] == a + i as real * ((b - a) / (n - 1) as real)
  {
  }

  lemma StepFacts(a: real, b: real, n: nat)
    requires a <= b && n >= 2
    ensures (b - a) / (n - 1) as real >= 0.0
    ensures (n - 1) as real * ((b - a) / (n - 1) as real) == b - a
  {
  }

  /** Samples a + i step and a + j step with i <= j < n stay ordered within [a, b]. */
  lemma SamplesOrdered(a: real, b: real, n: nat, step: real, i: nat, j: nat, xi: real, xj: real)
    requires step >= 0.0 && (n - 1) as real * step == b - a
    requires i <= j < n
    requires xi == a + i as real * step && xj == a + j as real * step
    ensures a <= xi <= xj <= b
  {
    ScaleMonotone(0.0, i as real, step);
    ScaleMonotone(i as real, j as real, step);
    ScaleMonotone(j as real, (n - 1) as real, step);
  }

  /** A candidate crossing: spine segment i meets trim segment j at local
      parameters (tl, ul). */
  datatype Seed = Seed(i: nat, j: nat, tl: real, ul: real)

  /** The result of the Newton refinement: parameters on both curves, whether
      it converged, and the residual distance. */
  datatype Hit = Hit(t: real, s: real, ok: bool, err: real)

  ghost predicate ValidSeed(spine: seq<Vec2>, trim: seq<Vec2>, sd: Seed) {
    && sd.i + 1 < |spine| && sd.j + 1 < |trim|
    && SegmentIntersection(spine[sd.i], spine[sd.i + 1], trim[sd.j], trim[sd.j + 1]) == Some((sd.tl, sd.ul))
  }

  /** The inner loop over trim segments j.. for spine segment i. */
  function RowSeeds(spine: seq<Vec2>, trim: seq<Vec2>, i: nat, j: nat): (r: seq<Seed>)
    requires i + 1 < |spine|
    ensures forall k :: 0 <= k < |r| ==> ValidSeed(spine, trim, r[k]) && r[k].i == i && r[k].j >= j
    decreases |trim| - j
  {
    if j + 1 >= |trim| then []
    else
      var rest := RowSeeds(spine, trim, i, j + 1);
      match SegmentIntersection(spine[i], spine[i + 1], trim[j], trim[j + 1])
      case None => rest
      case Some(tu) => [Seed(i, j, tu.0, tu.1)] + rest
  }

  /** The double loop over all pairs of segments, from spine segment i on. */
  function AllSeeds(spine: seq<Vec2>, trim: seq<Vec2>, i: nat): (r: seq<Seed>)
    ensures forall k :: 0 <= k < |r| ==> ValidSeed(spine, trim, r[k]) && r[k].i >= i
    decreases |spine| - i
  {
    if i + 1 >= |spine| then []
    else RowSeeds(spine, trim, i, 0) + AllSeeds(spine, trim, i + 1)
  }

  lemma {:induction false} RowSeedsComplete(spine: seq<Vec2>, trim: seq<Vec2>, i: nat, j: nat, sd: Seed)
    requires i + 1 < |spine|
    requires ValidSeed(spine, trim, sd) && sd.i == i && sd.j >= j
    ensures sd in RowSeeds(spine, trim, i, j)
    decreases |trim| - j
  {
    if sd.j > j {
      RowSeedsComplete(spine, trim, i, j + 1, sd);
    }
  }

  /** Every pair of crossing segments produces exactly its seed. */
  lemma {:induction false} AllSeedsComplete(spine: seq<Vec2>, trim: seq<Vec2>, i: nat, sd: Seed)
    requires ValidSeed(spine, trim, sd) && sd.i >= i
    ensures sd in AllSeeds(spine, trim, i)
    decreases |spine| - i
  {
    if sd.i == i {
      RowSeedsComplete(spine, trim, i, 0, sd);
    } else {
      AllSeedsComplete(spine, trim, i + 1, sd);
    }
  }

  function Clamp01(x: real): (r: real)
    ensures 0.0 <= r <= 1.0
    ensures 0.0 <= x <= 1.0 ==> r == x
    ensures x < 0.0 ==> r == 0.0
    ensures x > 1.0 ==> r == 1.0
  {
    if x < 0.0 then 0.0 else if x > 1.0 then 1.0 else x
  }

  /** `refine_intersection_analytic` from a starting pair (t, s): the Newton
      iteration is a parameter; `refine_intersection_analytic` clips both
      parameters into [0, 1] at every step, so they are clipped here too. */
  function Refine(newton: (real, real) -> Hit, t0: real, s0: real): (h: Hit)
    ensures 0.0 <= h.t <= 1.0 && 0.0 <= h.s <= 1.0
  {
    var h := newton(Clamp01(t0), Clamp01(s0));
    Hit(Clamp01(h.t), Clamp01(h.s), h.ok, h.err)
  }

  /** The starting pair of a seed: its local parameters mapped back onto the
      sample parameters ts and ss. */
  function SeedStart(ts: seq<real>, ss: seq<real>, sd: Seed): (real, real)
    requires sd.i + 1 < |ts| && sd.j + 1 < |ss|
  {
    (ts[sd.i] + sd.tl * (ts[sd.i + 1] - ts[sd.i]), ss[sd.j] + sd.ul * (ss[sd.j + 1] - ss[sd.j]))
  }

  /** A seed's starting pair lies between the sample parameters of its segments. */
  lemma SeedStartBetween(spine: seq<Vec2>, trim: seq<Vec2>, ts: seq<real>, ss: seq<real>, sd: Seed)
    requires ValidSeed(spine, trim, sd) && |ts| == |spine| && |ss| == |trim|
    requires ts[sd.i] <= ts[sd.i + 1] && ss[sd.j] <= ss[sd.j + 1]
    ensures ts[sd.i] <= SeedStart(ts, ss, sd).0 <= ts[sd.i + 1]
    ensures ss[sd.j] <= SeedStart(ts, ss, sd).1 <= ss[sd.j + 1]
  {
    ValidSeedBounds(spine, trim, sd);
    Between(ts[sd.i], ts[sd.i + 1], sd.tl);
    Between(ss[sd.j], ss[sd.j + 1], sd.ul);
  }

  lemma ValidSeedBounds(spine: seq<Vec2>, trim: seq<Vec2>, sd: Seed)
    requires ValidSeed(spine, trim, sd)
    ensures 0.0 <= sd.tl <= 1.0 && 0.0 <= sd.ul <= 1.0
  {
    var r := SegmentIntersection(spine[sd.i], spine[sd.i + 1], trim[sd.j], trim[sd.j + 1]);
    assert r.Some? && r.value == (sd.tl, sd.ul);
  }

  lemma Between(x0: real, x1: real, w: real)
    requires x0 <= x1 && 0.0 <= w <= 1.0
    ensures x0 <= x0 + w * (x1 - x0) <= x1
  {
    ScaleMonotone(0.0, w, x1 - x0);
    ScaleMonotone(w, 1.0, x1 - x0);
  }

  function RefineAll(newton: (real, real) -> Hit, ts: seq<real>, ss: seq<real>, seeds: seq<Seed>): (hs: seq<Hit>)
    requires forall k :: 0 <= k < |seeds| ==> seeds[k].i + 1 < |ts| && seeds[k].j + 1 < |ss|
    ensures |hs| == |seeds|
    ensures forall k :: 0 <= k < |hs| ==> hs[k] == Refine(newton, SeedStart(ts, ss, seeds[k]).0, SeedStart(ts, ss, seeds[k]).1)
  {
    seq(|seeds|, k requires 0 <= k < |seeds| =>
      Refine(newton, SeedStart(ts, ss, seeds[k]).0, SeedStart(ts, ss, seeds[k]).1))
  }

  ghost predicate SortedByT(s: seq<Hit>) {
    forall i, j :: 0 <= i < j < |s| ==> s[i].t <= s[j].t
  }

  /** Inserts x after every element whose t does not exceed x.t, which keeps
      elements with equal keys in arrival order. */
  function InsertByT(s: seq<Hit>, x: Hit): (r: seq<Hit>)
    requires SortedByT(s)
    ensures SortedByT(r)
    ensures multiset(r) == multiset(s) + multiset{x}
    ensures |r| == |s| + 1
  {
    if |s| == 0 then [x]
    else
      var last := s[|s| - 1];
      if last.t <= x.t then
        SortedSnoc(s, x);
        s + [x]
      else
        var init := s[..|s| - 1];
        var r' := InsertByT(init, x);
        assert s == init + [last];
        assert forall k :: 0 <= k < |r'| ==> r'[k].t <= last.t by {
          forall k | 0 <= k < |r'|
            ensures r'[k].t <= last.t
          {
            assert r'[k] in multiset(r');
            assert r'[k] in init || r'[k] == x;
          }
        }
        SortedSnoc(r', last);
        r' + [last]
  }

  /** Appending an element whose t is at least every t keeps the order. */
  lemma SortedSnoc(s: seq<Hit>, y: Hit)
    requires SortedByT(s)
    requires forall k :: 0 <= k < |s| ==> s[k].t <= y.t
    ensures SortedByT(s + [y])
  {
  }

  /** `sorted(intersections, key=lambda x: x[0])`: a stable insertion sort. */
  function SortByT(xs: seq<Hit>): (r: seq<Hit>)
    ensures SortedByT(r)
    ensures multiset(r) == multiset(xs)
    ensures |r| == |xs|
  {
    if |xs| == 0 then []
    else
      assert xs == xs[..|xs| - 1] + [xs[|xs| - 1]];
      InsertByT(SortByT(xs[..|xs| - 1]), xs[|xs| - 1])
  }

  /** The hits of `s` whose parameter is `v`, in their order in `s`. */
  function WithT(s: seq<Hit>, v: real): seq<Hit> {
    if |s| == 0 then []
    else WithT(s[..|s| - 1], v) + (if s[|s| - 1].t == v then [s[|s| - 1]] else [])
  }

  /** Insertion puts `x` after every hit with the same parameter. */
  lemma {:induction false} InsertByTStable(s: seq<Hit>, x: Hit, v: real)
    requires SortedByT(s)
    ensures WithT(InsertByT(s, x), v) == WithT(s, v) + (if x.t == v then [x] else [])
    decreases |s|
  {
    if |s| > 0 {
      var last := s[|s| - 1];
      if last.t <= x.t {
        var r := s + [x];
        assert r[..|r| - 1] == s;
      } else {
        var init := s[..|s| - 1];
        var r' := InsertByT(init, x);
        InsertByTStable(init, x, v);
        var r := r' + [last];
        assert r[..|r| - 1] == r';
      }
    }
  }

  /** `sorted(hits, key=t)` is stable: hits with equal parameters keep their
      relative order. */
  lemma {:induction false} SortByTStable(xs: seq<Hit>, v: real)
    ensures WithT(SortByT(xs), v) == WithT(xs, v)
    decreases |xs|
  {
    if |xs| > 0 {
      var init := xs[..|xs| - 1];
      SortByTStable(init, v);
      InsertByTStable(SortByT(init), xs[|xs| - 1], v);
    }
  }

  /** One step of the clustering loop: a crossing within ClusterTol of the
      last kept one replaces it when its residual is lower and is dropped
      otherwise; any other crossing is kept. */
  function ClusterStep(acc: seq<Hit>, x: Hit): seq<Hit> {
    if |acc| == 0 then [x]
    else
      var last := acc[|acc| - 1];
      if Abs(x.t - last.t) < ClusterTol then
        if x.err < last.err then acc[..|acc| - 1] + [x] else acc
      else acc + [x]
  }

  function Cluster(xs: seq<Hit>): seq<Hit> {
    if |xs| == 0 then []
    else ClusterStep(Cluster(xs[..|xs| - 1]), xs[|xs| - 1])
  }

  /** Consecutive crossings at least ClusterTol apart, in increasing order. */
  ghost predicate Separated(s: seq<Hit>) {
    forall i :: 0 < i < |s| ==> s[i].t - s[i - 1].t >= ClusterTol
  }

  /** On sorted input, clustering keeps only input crossings, never more of
      them, none when there are none, and leaves them separated. */
  lemma {:induction false} ClusterProps(xs: seq<Hit>)
    requires SortedByT(xs)
    ensures var r := Cluster(xs);
      && Separated(r)
      && |r| <= |xs|
      && (|r| == 0 <==> |xs| == 0)
      && forall k :: 0 <= k < |r| ==> r[k] in xs
  {
    if |xs| > 0 {
      var pre := xs[..|xs| - 1];
      var x := xs[|xs| - 1];
      assert SortedByT(pre);
      ClusterProps(pre);
      var acc := Cluster(pre);
      forall k | 0 <= k < |acc|
        ensures acc[k].t <= x.t
      {
        assert acc[k] in pre;
      }
      ClusterStepProps(acc, x);
      var r := Cluster(xs);
      forall k | 0 <= k < |r|
        ensures r[k] in xs
      {
        if r[k] != x {
          assert r[k] in acc;
          assert r[k] in pre;
        }
      }
    }
  }

  /** One clustering step keeps the accumulated crossings separated when the
      new crossing comes no earlier than any of them. */
  lemma ClusterStepProps(acc: seq<Hit>, x: Hit)
    requires Separated(acc)
    requires forall k :: 0 <= k < |acc| ==> acc[k].t <= x.t
    ensures var r := ClusterStep(acc, x);
      && Separated(r) && 0 < |r| <= |acc| + 1
      && forall k :: 0 <= k < |r| ==> r[k] in acc || r[k] == x
  {
    if |acc| > 0 {
      var last := acc[|acc| - 1];
      var r := ClusterStep(acc, x);
      if Abs(x.t - last.t) < ClusterTol {
        if x.err < last.err {
          assert r == acc[..|acc| - 1] + [x];
          forall k | 0 < k < |r|
            ensures r[k].t - r[k - 1].t >= ClusterTol
          {
            if k == |r| - 1 {
              assert r[k - 1] == acc[k - 1];
              assert acc[k].t - acc[k - 1].t >= ClusterTol;
            } else {
              assert r[k] == acc[k] && r[k - 1] == acc[k - 1];
            }
          }
          forall k | 0 <= k < |r|
            ensures r[k] in acc || r[k] == x
          {
            if k < |r| - 1 {
              assert r[k] == acc[k];
            }
          }
        }
      } else {
        assert r == acc + [x];
        forall k | 0 < k < |r|
          ensures r[k].t - r[k - 1].t >= ClusterTol
        {
          if k < |r| - 1 {
            assert r[k] == acc[k] && r[k - 1] == acc[k - 1];
          }
        }
      }
    }
  }

  /** Crossings that are already separated are left alone. */
  lemma {:induction false} ClusterIdentity(xs: seq<Hit>)
    requires Separated(xs)
    ensures Cluster(xs) == xs
  {
    if |xs| > 0 {
      var pre := xs[..|xs| - 1];
      assert Separated(pre);
      ClusterIdentity(pre);
      assert xs == pre + [xs[|xs| - 1]];
    }
  }

  /** Clustering sorted crossings a second time changes nothing. */
  lemma ClusterIdempotent(xs: seq<Hit>)
    requires SortedByT(xs)
    ensures Cluster(Cluster(xs)) == Cluster(xs)
  {
    ClusterProps(xs);
    ClusterIdentity(Cluster(xs));
  }

  ghost predicate StrictlyIncreasing(s: seq<real>) {
    forall i, j :: 0 <= i < j < |s| ==> s[i] < s[j]
  }

  function InsertUnique(s: seq<real>, x: real): (r: seq<real>)
    requires StrictlyIncreasing(s)
    ensures StrictlyIncreasing(r)
    ensures forall y :: y in r <==> y in s || y == x
    decreases |s|
  {
    if |s| == 0 then [x]
    else if x < s[0] then [x] + s
    else if x == s[0] then s
    else
      assert StrictlyIncreasing(s[1..]);
      var r' := InsertUnique(s[1..], x);
      forall k | 0 <= k < |r'|
        ensures s[0] < r'[k]
      {
        assert r'[k] in r';
        if r'[k] != x {
          var q :| 0 <= q < |s[1..]| && s[1..][q] == r'[k];
          assert s[q + 1] == r'[k];
        }
      }
      [s[0]] + r'
  }

  /** `sorted(set(xs))` */
  function SortedSet(xs: seq<real>): (r: seq<real>)
    ensures StrictlyIncreasing(r)
    ensures forall y :: y in r <==> y in xs
  {
    if |xs| == 0 then []
    else
      assert xs == xs[..|xs| - 1] + [xs[|xs| - 1]];
      InsertUnique(SortedSet(xs[..|xs| - 1]), xs[|xs| - 1])
  }

  /** A strictly increasing sequence is determined by its elements, so
      SortedSet is the one sorted listing of the set. */
  lemma {:induction false} StrictlyIncreasingUnique(a: seq<real>, b: seq<real>)
    requires StrictlyIncreasing(a) && StrictlyIncreasing(b)
    requires forall y :: y in a <==> y in b
    ensures a == b
    decreases |a|
  {
    if a != [] || b != [] {
      var y := if a != [] then a[0] else b[0];
      assert y in a && y in b;
      assert a[0] in a;
      assert b[0] in b;
      assert a[0] == b[0];
      forall y
        ensures y in a[1..] <==> y in b[1..]
      {
        if y in a[1..] {
          assert y in a && y != a[0];
        }
        if y in b[1..] {
          assert y in b && y != b[0];
        }
      }
      StrictlyIncreasingUnique(a[1..], b[1..]);
      assert a == [a[0]] + a[1..];
      assert b == [b[0]] + b[1..];
    }
  }

  function HitTs(hs: seq<Hit>): (r: seq<real>)
    ensures |r| == |hs| && forall k :: 0 <= k < |hs| ==> r[k] == hs[k].t
  {
    seq(|hs|, k requires 0 <= k < |hs| => hs[k].t)
  }

  function ClampAll(xs: seq<real>): (r: seq<real>)
    ensures |r| == |xs| && forall k :: 0 <= k < |xs| ==> r[k] == Clamp01(xs[k])
  {
    seq(|xs|, k requires 0 <= k < |xs| => Clamp01(xs[k]))
  }

  /** The split parameters: 0, the clustered crossings and 1, each clipped to
      [0, 1], without repetition and in increasing order. */
  function Breakpoints(hs: seq<Hit>): (tv: seq<real>)
    ensures StrictlyIncreasing(tv)
    ensures |tv| >= 2 && tv[0] == 0.0 && tv[|tv| - 1] == 1.0
    ensures forall k :: 0 <= k < |tv| ==> 0.0 <= tv[k] <= 1.0
    ensures forall k :: 0 <= k < |hs| ==> Clamp01(hs[k].t) in tv
    ensures forall y :: y in tv <==> y == 0.0 || y == 1.0 || exists k :: 0 <= k < |hs| && y == Clamp01(hs[k].t)
  {
    var cl := ClampAll([0.0] + HitTs(hs) + [1.0]);
    var tv := SortedSet(cl);
    BreakpointsFacts(hs, cl, tv);
    tv
  }

  lemma BreakpointsFacts(hs: seq<Hit>, cl: seq<real>, tv: seq<real>)
    requires cl == ClampAll([0.0] + HitTs(hs) + [1.0])
    requires StrictlyIncreasing(tv) && forall y :: y in tv <==> y in cl
    ensures |tv| >= 2 && tv[0] == 0.0 && tv[|tv| - 1] == 1.0
    ensures forall k :: 0 <= k < |tv| ==> 0.0 <= tv[k] <= 1.0
    ensures forall k :: 0 <= k < |hs| ==> Clamp01(hs[k].t) in tv
    ensures forall y :: y in tv <==> y == 0.0 || y == 1.0 || exists k :: 0 <= k < |hs| && y == Clamp01(hs[k].t)
  {
    CandidateFacts(hs, cl);
    SortedSetEnds(cl, tv);
    BreakpointsMembers(hs, cl, tv);
  }

  /** The clipped candidates: 0, each crossing's t and 1. */
  lemma CandidateFacts(hs: seq<Hit>, cl: seq<real>)
    requires cl == ClampAll([0.0] + HitTs(hs) + [1.0])
    ensures |cl| == |hs| + 2 && cl[0] == 0.0 && cl[|cl| - 1] == 1.0
    ensures 0.0 in cl && 1.0 in cl
    ensures forall k :: 0 <= k < |hs| ==> cl[k + 1] == Clamp01(hs[k].t)
    ensures forall k :: 0 <= k < |cl| ==> 0.0 <= cl[k] <= 1.0
  {
    var ht := HitTs(hs);
    var raw := [0.0] + ht + [1.0];
    assert forall k :: 0 <= k < |hs| ==> raw[k + 1] == ht[k];
    assert cl[0] == 0.0 && cl[|cl| - 1] == 1.0;
  }

  /** The sorted set of values in [0, 1] that include 0 and 1 starts at 0
      and ends at 1. */
  lemma SortedSetEnds(cl: seq<real>, tv: seq<real>)
    requires StrictlyIncreasing(tv) && forall y :: y in tv <==> y in cl
    requires 0.0 in cl && 1.0 in cl
    requires forall k :: 0 <= k < |cl| ==> 0.0 <= cl[k] <= 1.0
    ensures |tv| >= 2 && tv[0] == 0.0 && tv[|tv| - 1] == 1.0
    ensures forall k :: 0 <= k < |tv| ==> 0.0 <= tv[k] <= 1.0
  {
    assert 0.0 in tv && 1.0 in tv;
    forall k | 0 <= k < |tv|
      ensures 0.0 <= tv[k] <= 1.0
    {
      assert tv[k] in cl;
    }
    var q0 :| 0 <= q0 < |tv| && tv[q0] == 0.0;
    var q1 :| 0 <= q1 < |tv| && tv[q1] == 1.0;
    assert q0 != q1;
    assert tv[0] <= tv[q0];
    assert tv[q1] <= tv[|tv| - 1];
  }

  lemma BreakpointsMembers(hs: seq<Hit>, cl: seq<real>, tv: seq<real>)
    requires |cl| == |hs| + 2 && cl[0] == 0.0 && cl[|cl| - 1] == 1.0
    requires forall k :: 0 <= k < |hs| ==> cl[k + 1] == Clamp01(hs[k].t)
    requires forall y :: y in tv <==> y in cl
    ensures forall k :: 0 <= k < |hs| ==> Clamp01(hs[k].t) in tv
    ensures forall y :: y in tv <==> y == 0.0 || y == 1.0 || exists k :: 0 <= k < |hs| && y == Clamp01(hs[k].t)
  {
    forall k | 0 <= k < |hs|
      ensures Clamp01(hs[k].t) in tv
    {
      assert cl[k + 1] in cl;
    }
    forall y
      ensures y in tv <==> y == 0.0 || y == 1.0 || exists k :: 0 <= k < |hs| && y == Clamp01(hs[k].t)
    {
      if y in tv && y != 0.0 && y != 1.0 {
        var q :| 0 <= q < |cl| && cl[q] == y;
        assert 0 < q < |cl| - 1;
        assert y == Clamp01(hs[q - 1].t);
      }
    }
  }

  /** A kept piece of the spline: its parameter range, the sample parameters
      and the UV and 3-D points sampled there. */
  datatype Segment = Segment(t0: real, t1: real, ts: seq<real>, uv: seq<Vec2>, pts3d: seq<Sample3D>)

  function MakeSegment(c: Curve, ms: MultiSurface, a: real, b: real, n: nat): (sg: Segment)
    requires Evaluable(c) && WellIndexed(ms)
    ensures sg.t0 == a && sg.t1 == b && |sg.ts| == n && |sg.uv| == n && |sg.pts3d| == n
    ensures forall k :: 0 <= k < n ==>
      sg.uv[k] == EvalUV(c, sg.ts[k]) && sg.pts3d[k] == Evaluate3D(c, sg.ts[k], ms)
  {
    var ts := Linspace(a, b, n);
    Segment(a, b, ts,
      seq(n, k requires 0 <= k < n => EvalUV(c, ts[k])),
      seq(n, k requires 0 <= k < n => Evaluate3D(c, ts[k], ms)))
  }

  /** A span is kept when it is not degenerate and the spline's point at its
      middle lies inside the trim polygon. */
  predicate KeepSpan(c: Curve, poly: seq<Vec2>, a: real, b: real)
    requires Evaluable(c)
  {
    b - a >= SpanTol && PointInPolygon(EvalUV(c, 0.5 * (a + b)), poly)
  }

  /** The segment loop over consecutive breakpoints k, k + 1, ...: the
      intervals that pass the span test `keep`, in order. */
  function KeptSpans(keep: (real, real) -> bool, tv: seq<real>, k: nat): (r: seq<(real, real)>)
    requires StrictlyIncreasing(tv) && k < |tv|
    ensures forall m :: 0 <= m < |r| ==>
      && tv[k] <= r[m].0 < r[m].1 <= tv[|tv| - 1]
      && keep(r[m].0, r[m].1)
    ensures forall m, m' :: 0 <= m < m' < |r| ==> r[m].1 <= r[m'].0
    decreases |tv| - k
  {
    if k + 1 == |tv| then []
    else
      var rest := KeptSpans(keep, tv, k + 1);
      if keep(tv[k], tv[k + 1]) then [(tv[k], tv[k + 1])] + rest
      else rest
  }

  /** An interval between consecutive breakpoints is kept exactly when it
      passes the test. */
  lemma {:induction false} SpansExact(keep: (real, real) -> bool, tv: seq<real>, k: nat, q: nat)
    requires StrictlyIncreasing(tv) && k <= q && q + 1 < |tv|
    ensures (tv[q], tv[q + 1]) in KeptSpans(keep, tv, k) <==> keep(tv[q], tv[q + 1])
    decreases |tv| - k
  {
    var r := KeptSpans(keep, tv, k);
    var rest := KeptSpans(keep, tv, k + 1);
    var kept := keep(tv[k], tv[k + 1]);
    assert r == if kept then [(tv[k], tv[k + 1])] + rest else rest;
    if k < q {
      SpansExact(keep, tv, k + 1, q);
      assert tv[k] != tv[q];
    } else {
      NotBefore(keep, tv, k + 1, tv[q], tv[q + 1]);
    }
  }

  /** No interval kept from breakpoint k on starts before tv[k]. */
  lemma NotBefore(keep: (real, real) -> bool, tv: seq<real>, k: nat, a: real, b: real)
    requires StrictlyIncreasing(tv) && k < |tv|
    requires a < tv[k]
    ensures (a, b) !in KeptSpans(keep, tv, k)
  {
    var r := KeptSpans(keep, tv, k);
    forall m | 0 <= m < |r|
      ensures r[m] != (a, b)
    {
      assert tv[k] <= r[m].0;
    }
  }

  /** Every kept interval lies between two consecutive breakpoints. */
  lemma SpansConsecutive(keep: (real, real) -> bool, tv: seq<real>, k: nat, m: nat)
    requires StrictlyIncreasing(tv) && k < |tv|
    requires m < |KeptSpans(keep, tv, k)|
    ensures exists q :: k <= q < |tv| - 1 && KeptSpans(keep, tv, k)[m] == (tv[q], tv[q + 1])
  {
    var q := SpanIndex(keep, tv, k, m);
  }

  /** The breakpoint index at which kept interval m starts. */
  lemma {:induction false} SpanIndex(keep: (real, real) -> bool, tv: seq<real>, k: nat, m: nat)
    returns (q: nat)
    requires StrictlyIncreasing(tv) && k < |tv|
    requires m < |KeptSpans(keep, tv, k)|
    ensures k <= q < |tv| - 1
    ensures KeptSpans(keep, tv, k)[m] == (tv[q], tv[q + 1])
    decreases |tv| - k
  {
    var r := KeptSpans(keep, tv, k);
    var rest := KeptSpans(keep, tv, k + 1);
    var kept := |r| == |rest| + 1;
    if kept && m == 0 {
      q := k;
    } else {
      var m' := if kept then m - 1 else m;
      assert r[m] == rest[m'];
      q := SpanIndex(keep, tv, k + 1, m');
    }
  }

  /** One segment per kept interval, in the same order. */
  function SegmentsOf(c: Curve, ms: MultiSurface, spans: seq<(real, real)>, n: nat): (r: seq<Segment>)
    requires Evaluable(c) && WellIndexed(ms)
    ensures |r| == |spans|
    ensures forall m :: 0 <= m < |r| ==> r[m].t0 == spans[m].0 && r[m].t1 == spans[m].1 && |r[m].ts| == n
    ensures forall m :: 0 <= m < |r| ==> r[m] == MakeSegment(c, ms, spans[m].0, spans[m].1, n)
  {
    seq(|spans|, m requires 0 <= m < |spans| => MakeSegment(c, ms, spans[m].0, spans[m].1, n))
  }

  /** The keep test of the clip as a function value, so that the segment
      loop can be stated for any test. */
  function KeepOf(c: Curve, poly: seq<Vec2>): (real, real) -> bool {
    (a: real, b: real) => Evaluable(c) && KeepSpan(c, poly, a, b)
  }

  /** With the clip's own test: an interval between consecutive breakpoints
      becomes a segment exactly when it is long enough and its midpoint lies
      inside the trim polygon. */
  lemma ClipSpanKept(c: Curve, ms: MultiSurface, poly: seq<Vec2>, tv: seq<real>, n: nat, q: nat)
    requires Evaluable(c) && WellIndexed(ms)
    requires StrictlyIncreasing(tv) && q + 1 < |tv|
    ensures MakeSegment(c, ms, tv[q], tv[q + 1], n) in SegmentsOf(c, ms, KeptSpans(KeepOf(c, poly), tv, 0), n)
            <==> KeepSpan(c, poly, tv[q], tv[q + 1])
  {
    var spans := KeptSpans(KeepOf(c, poly), tv, 0);
    var segs := SegmentsOf(c, ms, spans, n);
    var sg := MakeSegment(c, ms, tv[q], tv[q + 1], n);
    SpansExact(KeepOf(c, poly), tv, 0, q);
    if sg in segs {
      var m :| 0 <= m < |segs| && segs[m] == sg;
      assert spans[m] == (tv[q], tv[q + 1]);
    }
    if (tv[q], tv[q + 1]) in spans {
      var m :| 0 <= m < |spans| && spans[m] == (tv[q], tv[q + 1]);
      assert segs[m] == sg;
    }
  }

  /** What the clip returns: the kept segments, the clustered crossings, and
      the two sampled polylines with their parameters. */
  datatype Clip = Clip(segments: seq<Segment>, hits: seq<Hit>,
                       spine: seq<Vec2>, ts: seq<real>, trimPts: seq<Vec2>, ss: seq<real>)

  /** The only failure: the spline is an empty polyline, on which sampling raises. */
  datatype ClipError = EmptySpline

  function SampleCurve(f: real -> Vec2, ts: seq<real>): (r: seq<Vec2>)
    ensures |r| == |ts| && forall k :: 0 <= k < |ts| ==> r[k] == f(ts[k])
  {
    seq(|ts|, k requires 0 <= k < |ts| => f(ts[k]))
  }

  /** Sorting then clustering refined crossings with parameters in [0, 1]. */
  function SortAndCluster(hits: seq<Hit>): (r: seq<Hit>)
    requires forall k :: 0 <= k < |hits| ==> 0.0 <= hits[k].t <= 1.0 && 0.0 <= hits[k].s <= 1.0
    ensures SortedByT(r) && Separated(r) && |r| <= |hits|
    ensures forall k :: 0 <= k < |r| ==> 0.0 <= r[k].t <= 1.0 && 0.0 <= r[k].s <= 1.0
  {
    var sorted := SortByT(hits);
    ClusterProps(sorted);
    var r := Cluster(sorted);
    forall k | 0 <= k < |r|
      ensures 0.0 <= r[k].t <= 1.0 && 0.0 <= r[k].s <= 1.0
    {
      assert r[k] in sorted;
      assert r[k] in multiset(hits);
    }
    SeparatedSorted(r);
    r
  }

  lemma {:induction false} SeparatedSorted(s: seq<Hit>)
    requires Separated(s)
    ensures SortedByT(s)
    decreases |s|
  {
    if |s| > 1 {
      var pre := s[..|s| - 1];
      assert Separated(pre);
      SeparatedSorted(pre);
      forall i, j | 0 <= i < j < |s|
        ensures s[i].t <= s[j].t
      {
        if j == |s| - 1 && i < j - 1 {
          assert pre[i].t <= pre[j - 1].t;
        }
      }
    }
  }

  /** The segments the clip builds over a partition of [0, 1]: in order,
      within [0, 1], and each passing the span test. */
  lemma ClipSegmentFacts(c: Curve, ms: MultiSurface, poly: seq<Vec2>, hs: seq<Hit>, n: nat, segs: seq<Segment>)
    requires Evaluable(c) && WellIndexed(ms)
    requires segs == SegmentsOf(c, ms, KeptSpans(KeepOf(c, poly), Breakpoints(hs), 0), n)
    ensures forall m :: 0 <= m < |segs| ==>
      && 0.0 <= segs[m].t0 && segs[m].t1 <= 1.0
      && KeepSpan(c, poly, segs[m].t0, segs[m].t1)
      && |segs[m].ts| == n
    ensures forall m, m' :: 0 <= m < m' < |segs| ==> segs[m].t1 <= segs[m'].t0
  {
    var tv := Breakpoints(hs);
    var spans := KeptSpans(KeepOf(c, poly), tv, 0);
    forall m | 0 <= m < |segs|
      ensures 0.0 <= segs[m].t0 && segs[m].t1 <= 1.0
      ensures KeepSpan(c, poly, segs[m].t0, segs[m].t1)
    {
      assert segs[m].t0 == spans[m].0 && segs[m].t1 == spans[m].1;
      assert tv[0] <= segs[m].t0 && segs[m].t1 <= tv[|tv| - 1];
      KeptSpanFacts(c, poly, KeepOf(c, poly), segs[m].t0, segs[m].t1);
    }
  }

  /** Some segment runs exactly from `a` to `b`. */
  predicate HasSegment(segs: seq<Segment>, a: real, b: real) {
    exists m :: 0 <= m < |segs| && segs[m].t0 == a && segs[m].t1 == b
  }

  /** Over the breakpoints `tv`, a segment spans [tv[k], tv[k + 1]] exactly
      when that interval passes the span test. */
  predicate SegmentsMatchTest(c: Curve, poly: seq<Vec2>, tv: seq<real>, segs: seq<Segment>)
    requires Evaluable(c)
  {
    forall k :: 0 <= k < |tv| - 1 ==> (KeepSpan(c, poly, tv[k], tv[k + 1]) <==> HasSegment(segs, tv[k], tv[k + 1]))
  }

  /** The segment loop leaves out no interval that passes the test, and keeps
      none that fails it. */
  lemma ClipSegmentsExact(c: Curve, ms: MultiSurface, poly: seq<Vec2>, hs: seq<Hit>, n: nat, segs: seq<Segment>)
    requires Evaluable(c) && WellIndexed(ms)
    requires segs == SegmentsOf(c, ms, KeptSpans(KeepOf(c, poly), Breakpoints(hs), 0), n)
    ensures SegmentsMatchTest(c, poly, Breakpoints(hs), segs)
  {
    var tv := Breakpoints(hs);
    forall k | 0 <= k < |tv| - 1
      ensures KeepSpan(c, poly, tv[k], tv[k + 1]) <==> HasSegment(segs, tv[k], tv[k + 1])
    {
      SegmentExactAt(c, ms, poly, tv, n, segs, k);
    }
  }

  /** One interval of the segment loop: [tv[q], tv[q + 1]] becomes a segment
      exactly when it passes the span test. */
  lemma SegmentExactAt(c: Curve, ms: MultiSurface, poly: seq<Vec2>, tv: seq<real>, n: nat, segs: seq<Segment>, q: nat)
    requires Evaluable(c) && WellIndexed(ms)
    requires StrictlyIncreasing(tv) && q + 1 < |tv|
    requires segs == SegmentsOf(c, ms, KeptSpans(KeepOf(c, poly), tv, 0), n)
    ensures KeepSpan(c, poly, tv[q], tv[q + 1]) <==> HasSegment(segs, tv[q], tv[q + 1])
  {
    var keep := KeepOf(c, poly);
    SpansExact(keep, tv, 0, q);
    SegmentOfSpan(c, ms, KeptSpans(keep, tv, 0), n, tv[q], tv[q + 1]);
  }

  /** A segment runs from `a` to `b` exactly when (a, b) is one of the spans. */
  lemma SegmentOfSpan(c: Curve, ms: MultiSurface, spans: seq<(real, real)>, n: nat, a: real, b: real)
    requires Evaluable(c) && WellIndexed(ms)
    ensures HasSegment(SegmentsOf(c, ms, spans, n), a, b) <==> (a, b) in spans
  {
    var segs := SegmentsOf(c, ms, spans, n);
    if (a, b) in spans {
      var m :| 0 <= m < |spans| && spans[m] == (a, b);
      assert segs[m].t0 == a && segs[m].t1 == b;
    }
    if HasSegment(segs, a, b) {
      var m :| 0 <= m < |segs| && segs[m].t0 == a && segs[m].t1 == b;
      assert spans[m] == (a, b);
    }
  }

  lemma KeptSpanFacts(c: Curve, poly: seq<Vec2>, keep: (real, real) -> bool, a: real, b: real)
    requires Evaluable(c) && keep == KeepOf(c, poly) && keep(a, b)
    ensures KeepSpan(c, poly, a, b)
  {
  }

  /** `clip_spline_by_geomdl_trim(spline, trim, surface, N, M, ..., samples)`. */
  function ClipSplineByTrim(c: Curve, trim: real -> Vec2, ms: MultiSurface, newton: (real, real) -> Hit,
                            nSpline: nat, nTrim: nat, samplesPerSegment: nat): (res: Result<Clip, ClipError>)
    requires WellIndexed(ms)
    ensures res.Failure? <==> !Evaluable(c)
    ensures res.Success? ==>
      var cl := res.value;
      && |cl.spine| == nSpline + 1 && |cl.ts| == nSpline + 1
      && |cl.trimPts| == nTrim + 1 && |cl.ss| == nTrim + 1
      && SortedByT(cl.hits) && Separated(cl.hits)
      && (forall k :: 0 <= k < |cl.hits| ==> 0.0 <= cl.hits[k].t <= 1.0 && 0.0 <= cl.hits[k].s <= 1.0)
      && (forall m :: 0 <= m < |cl.segments| ==>
            && 0.0 <= cl.segments[m].t0 && cl.segments[m].t1 <= 1.0
            && KeepSpan(c, cl.trimPts, cl.segments[m].t0, cl.segments[m].t1)
            && |cl.segments[m].ts| == samplesPerSegment)
      && (forall m, m' :: 0 <= m < m' < |cl.segments| ==> cl.segments[m].t1 <= cl.segments[m'].t0)
    ensures res.Success? ==> res.value.ts == Linspace(0.0, 1.0, nSpline + 1)
    ensures res.Success? ==> res.value.ss == Linspace(0.0, 1.0, nTrim + 1)
    ensures res.Success? ==> forall k :: 0 <= k < |res.value.ts| ==> res.value.spine[k] == EvalUV(c, res.value.ts[k])
    ensures res.Success? ==> forall k :: 0 <= k < |res.value.ss| ==> res.value.trimPts[k] == trim(res.value.ss[k])
    ensures res.Success? ==>
      res.value.hits == SortAndCluster(RefineAll(newton, res.value.ts, res.value.ss, AllSeeds(res.value.spine, res.value.trimPts, 0)))
    ensures res.Success? ==> SegmentsMatchTest(c, res.value.trimPts, Breakpoints(res.value.hits), res.value.segments)
    ensures res.Success? ==> forall m :: 0 <= m < |res.value.segments| ==>
      res.value.segments[m] == MakeSegment(c, ms, res.value.segments[m].t0, res.value.segments[m].t1, samplesPerSegment)
  {
    if !Evaluable(c) then Failure(EmptySpline)
    else
      var ts := Linspace(0.0, 1.0, nSpline + 1);
      var spine := SampleCurve(t => EvalUV(c, t), ts);
      var ss := Linspace(0.0, 1.0, nTrim + 1);
      var trimPts := SampleCurve(trim, ss);
      var seeds := AllSeeds(spine, trimPts, 0);
      var hits := RefineAll(newton, ts, ss, seeds);
      var clustered := SortAndCluster(hits);
      var tv := Breakpoints(clustered);
      var segs := SegmentsOf(c, ms, KeptSpans(KeepOf(c, trimPts), tv, 0), samplesPerSegment);
      ClipSegmentFacts(c, ms, trimPts, clustered, samplesPerSegment, segs);
      ClipSegmentsExact(c, ms, trimPts, clustered, samplesPerSegment, segs);
      Success(Clip(segs, clustered, spine, ts, trimPts, ss))
  }
}

=== FILE: uv_curve.dfy ===
/** `GlobalUVSpline`: a curve in the surface's global UV parameter space,
    either backed by an external NURBS evaluator or by the polyline fallback
    through its control points, and its mapping onto the patch surface. */
module UVCurve {
  import opened Wrappers
  import opened Bezier
  import opened PatchGrid

  datatype Vec2 = Vec2(u: real, v: real)

  /** The external evaluator (`evaluate_single`) is an opaque total function;
      the fallback interpolates its control points at parameters linspace(0, 1, n). */
  datatype Curve = External(eval: real -> Vec2) | Polyline(pts: seq<Vec2>)

  /** An empty polyline makes `np.interp` raise on every evaluation. */
  predicate Evaluable(c: Curve) {
    c.External? || |c.pts| > 0
  }

  /** `np.interp(t, linspace(0, 1, n), ys)` for n >= 2 knots k / (n - 1):
      clamped to the end values outside [0, 1], linear between knots. */
  function Interp(ys: seq<real>, t: real): real
    requires |ys| >= 2
  {
    var n := |ys|;
    if t <= 0.0 then ys[0]
    else if t >= 1.0 then ys[n - 1]
    else
      ScaleBelow(t, (n - 1) as real);
      InterpAt(ys, t * (n - 1) as real)
  }

  /** Interpolation at position x strictly inside the knot range [0, n - 1]:
      the piece is the one starting at knot floor(x). */
  function InterpAt(ys: seq<real>, x: real): real
    requires |ys| >= 2 && 0.0 < x < (|ys| - 1) as real
  {
    var k := x.Floor;
    Blend(ys[k], ys[k + 1], x - k as real)
  }

  lemma ScaleBelow(t: real, m: real)
    requires 0.0 < t < 1.0 && m > 0.0
    ensures 0.0 < t * m < m
  {
    assert m - t * m == (1.0 - t) * m;
  }

  /** The point at weight w on the way from a to b. */
  function Blend(a: real, b: real, w: real): real {
    a + w * (b - a)
  }

  function Us(pts: seq<Vec2>): (r: seq<real>)
    ensures |r| == |pts| && forall i :: 0 <= i < |pts| ==> r[i] == pts[i].u
  {
    seq(|pts|, i requires 0 <= i < |pts| => pts[i].u)
  }

  function Vs(pts: seq<Vec2>): (r: seq<real>)
    ensures |r| == |pts| && forall i :: 0 <= i < |pts| ==> r[i] == pts[i].v
  {
    seq(|pts|, i requires 0 <= i < |pts| => pts[i].v)
  }

  /** The polyline branch of `evaluate_uv(t)`. */
  function PolylineEval(pts: seq<Vec2>, t: real): Vec2
    requires |pts| > 0
  {
    if |pts| == 1 then pts[0]
    else Vec2(Interp(Us(pts), t), Interp(Vs(pts), t))
  }

  /** `evaluate_uv(t)` for a curve that can be evaluated. */
  function EvalUV(c: Curve, t: real): Vec2
    requires Evaluable(c)
  {
    match c
    case External(f) => f(t)
    case Polyline(pts) => PolylineEval(pts, t)
  }

  /** `evaluate_uv(t)`: `None` where `evaluate_uv` raises (empty polyline). */
  function EvaluateUV(c: Curve, t: real): (r: Option<Vec2>)
    ensures r.None? <==> c.Polyline? && |c.pts| == 0
  {
    if Evaluable(c) then Some(EvalUV(c, t)) else None
  }

  /** One linear piece: `a + w * (b - a)`. */
  function Lerp(a: Vec2, b: Vec2, w: real): Vec2 {
    Vec2(Blend(a.u, b.u, w), Blend(a.v, b.v, w))
  }

  lemma InterpPiece(ys: seq<real>, t: real, k: nat, w: real)
    requires |ys| >= 2 && k + 1 < |ys|
    requires w == t * (|ys| - 1) as real - k as real
    requires 0.0 <= w <= 1.0
    ensures Interp(ys, t) == Blend(ys[k], ys[k + 1], w)
  {
    var n := |ys|;
    var x := t * (n - 1) as real;
    if t <= 0.0 {
      ScaleMonotone(t, 0.0, (n - 1) as real);
      PinLow(x, k, w);
      BlendEnds(ys[0], ys[1]);
    } else if t >= 1.0 {
      ScaleMonotone(1.0, t, (n - 1) as real);
      PinHigh(x, k, w, n);
      BlendEnds(ys[n - 2], ys[n - 1]);
    } else {
      ScaleBelow(t, (n - 1) as real);
      InterpAtPiece(ys, x, k, w);
    }
  }

  /** Below the first knot the only piece with a weight in [0, 1] is the first, at weight 0. */
  lemma PinLow(x: real, k: nat, w: real)
    requires w == x - k as real && x <= 0.0 && w >= 0.0
    ensures k == 0 && w == 0.0
  {
  }

  /** Beyond the last knot it is the last piece, at weight 1. */
  lemma PinHigh(x: real, k: nat, w: real, n: nat)
    requires w == x - k as real && x >= (n - 1) as real && w <= 1.0 && k + 1 < n
    ensures k == n - 2 && w == 1.0
  {
  }

  lemma InterpAtPiece(ys: seq<real>, x: real, k: nat, w: real)
    requires |ys| >= 2 && k + 1 < |ys| && 0.0 < x < (|ys| - 1) as real
    requires w == x - k as real && 0.0 <= w <= 1.0
    ensures InterpAt(ys, x) == Blend(ys[k], ys[k + 1], w)
  {
    if w < 1.0 {
      assert x.Floor == k;
    } else {
      assert x.Floor == k + 1;
      BlendEnds(ys[k + 1], ys[k + 2]);
      BlendEnds(ys[k], ys[k + 1]);
    }
  }

  lemma BlendEnds(a: real, b: real)
    ensures Blend(a, b, 0.0) == a && Blend(a, b, 1.0) == b
  {
  }

  /** Between the knots k / (n - 1) and (k + 1) / (n - 1) the polyline is the
      straight segment from control point k to control point k + 1. */
  lemma PolylinePiece(pts: seq<Vec2>, t: real, k: nat, w: real)
    requires |pts| >= 2 && k + 1 < |pts|
    requires w == t * (|pts| - 1) as real - k as real
    requires 0.0 <= w <= 1.0
    ensures PolylineEval(pts, t) == Lerp(pts[k], pts[k + 1], w)
  {
    PolylineCoords(pts, t, k, w);
    LerpByFields(pts[k], pts[k + 1], w, PolylineEval(pts, t));
  }

  /** Both coordinates of the polyline interpolate on piece k with weight w. */
  lemma PolylineCoords(pts: seq<Vec2>, t: real, k: nat, w: real)
    requires |pts| >= 2 && k + 1 < |pts|
    requires w == t * (|pts| - 1) as real - k as real
    requires 0.0 <= w <= 1.0
    ensures PolylineEval(pts, t).u == Blend(pts[k].u, pts[k + 1].u, w)
    ensures PolylineEval(pts, t).v == Blend(pts[k].v, pts[k + 1].v, w)
  {
    var us, vs := Us(pts), Vs(pts);
    InterpPiece(us, t, k, w);
    InterpPiece(vs, t, k, w);
    assert us[k] == pts[k].u && us[k + 1] == pts[k + 1].u;
    assert vs[k] == pts[k].v && vs[k + 1] == pts[k + 1].v;
  }

  lemma LerpByFields(a: Vec2, b: Vec2, w: real, e: Vec2)
    requires e.u == Blend(a.u, b.u, w) && e.v == Blend(a.v, b.v, w)
    ensures e == Lerp(a, b, w)
  {
  }

  /** The polyline passes through control point k at parameter k / (n - 1). */
  lemma PolylineKnot(pts: seq<Vec2>, k: nat)
    requires |pts| >= 2 && k < |pts|
    ensures PolylineEval(pts, k as real / (|pts| - 1) as real) == pts[k]
  {
    var n := |pts|;
    var t := k as real / (n - 1) as real;
    assert t * (n - 1) as real == k as real;
    if k + 1 < n {
      PolylinePiece(pts, t, k, 0.0);
    } else {
      PolylinePiece(pts, t, k - 1, 1.0);
    }
  }

  /** With one control point the curve is constant; with more it is clamped
      to its first point for t <= 0 and its last point for t >= 1. */
  lemma PolylineEnds(pts: seq<Vec2>, t: real)
    requires |pts| > 0
    ensures |pts| == 1 ==> PolylineEval(pts, t) == pts[0]
    ensures |pts| > 1 && t <= 0.0 ==> PolylineEval(pts, t) == pts[0]
    ensures |pts| > 1 && t >= 1.0 ==> PolylineEval(pts, t) == pts[|pts| - 1]
  {
  }

  /** Two control points: the ends and the midpoint of the segment. */
  lemma TwoPointFallback(p0: Vec2, p1: Vec2)
    ensures PolylineEval([p0, p1], 0.0) == p0
    ensures PolylineEval([p0, p1], 1.0) == p1
    ensures PolylineEval([p0, p1], 0.5) == Vec2((p0.u + p1.u) / 2.0, (p0.v + p1.v) / 2.0)
  {
    PolylinePiece([p0, p1], 0.5, 0, 0.5);
  }

  /** A point of the 3-D result: on a patch, or the all-NaN sentinel. */
  datatype Sample3D = OnSurface(p: Vec3) | OutOfDomain

  /** The offset of `x` from its floor: always in [0, 1), so the clip to
      [0, 1] in `evaluate3D` leaves it unchanged. */
  function LocalCoord(x: real): (r: real)
    ensures 0.0 <= r < 1.0 && x == x.Floor as real + r
  {
    var r := x - x.Floor as real;
    var c := if r < 0.0 then 0.0 else if r > 1.0 then 1.0 else r;
    assert c == r;
    c
  }

  /** The body of `evaluate3D` for one UV point: patch (floor U, floor V) at
      local (U - floor U, V - floor V), or the sentinel off the patch grid. */
  function MapUV(ms: MultiSurface, uv: Vec2): (r: Sample3D)
    requires WellIndexed(ms)
    ensures r.OutOfDomain? <==> PatchFromCoord(ms, uv.u.Floor, uv.v.Floor).None?
  {
    match PatchFromCoord(ms, uv.u.Floor, uv.v.Floor)
    case None => OutOfDomain
    case Some(idx) =>
      assert (uv.u.Floor, uv.v.Floor) in ms.idxByCoord;
      OnSurface(EvalPatch(ms, idx, LocalCoord(uv.u), LocalCoord(uv.v)))
  }

  /** `evaluate3D(t, multi_surf)` */
  function Evaluate3D(c: Curve, t: real, ms: MultiSurface): Sample3D
    requires Evaluable(c) && WellIndexed(ms)
  {
    MapUV(ms, EvalUV(c, t))
  }

  /** On a built surface the sentinel appears exactly when the floored UV
      coordinate falls outside [0, px) x [0, py); otherwise the point is the
      patch (floor U, floor V) evaluated at a local coordinate in [0, 1)^2. */
  lemma MapUVDomain(ms: MultiSurface, g: ControlGrid, p: nat, uv: Vec2)
    requires Assembled(ms, g, p)
    ensures WellIndexed(ms)
    ensures MapUV(ms, uv).OutOfDomain? <==>
      !(0 <= uv.u.Floor < ms.px && 0 <= uv.v.Floor < ms.py)
    ensures MapUV(ms, uv).OnSurface? ==>
      var k := uv.u.Floor * ms.py + uv.v.Floor;
      && 0 <= k < |ms.patches|
      && IsBlock(ms.patches[k].ctrl)
      && ms.patches[k].pi == uv.u.Floor && ms.patches[k].pj == uv.v.Floor
      && MapUV(ms, uv).p == SurfaceEval(ms.patches[k].ctrl, LocalCoord(uv.u), LocalCoord(uv.v))
  {
    AssembledWellIndexed(ms, g, p);
    PatchLookup(ms, g, p, uv.u.Floor, uv.v.Floor);
  }

  /** At an integer UV point inside the grid the surface passes through the
      control point (U * step, V * step) of the whole grid. */
  lemma GridPointSample(ms: MultiSurface, g: ControlGrid, p: nat, i: int, j: int)
    requires Assembled(ms, g, p)
    requires 0 <= i < ms.px && 0 <= j < ms.py
    ensures WellIndexed(ms)
    ensures 0 <= i * (p - 1) < g.nx && 0 <= j * (p - 1) < g.ny
    ensures MapUV(ms, Vec2(i as real, j as real)) == OnSurface(g.pts[i * (p - 1)][j * (p - 1)])
  {
    var uv := Vec2(i as real, j as real);
    assert uv.u.Floor == i && uv.v.Floor == j;
    assert (i, j) in ms.idxByCoord;
    assert Entry(g, p, ms.py, ms.patches, ms.idxByCoord, (i, j));
    NonNegProduct(i, p - 1);
    NonNegProduct(j, p - 1);
    MapUVDomain(ms, g, p, uv);
    PatchLookup(ms, g, p, i, j);
    var k := i * ms.py + j;
    var ctrl := ms.patches[k].ctrl;
    assert ctrl[0][0] == g.pts[i * (p - 1) + 0][j * (p - 1) + 0];
    PatchCorners(ctrl);
    assert LocalCoord(uv.u) == 0.0 && LocalCoord(uv.v) == 0.0;
    assert MapUV(ms, uv).p == SurfaceEval(ctrl, 0.0, 0.0);
  }

  lemma ScaleMonotone(x: real, y: real, c: real)
    requires x <= y && c >= 0.0
    ensures x * c <= y * c
  {
    assert (y - x) * c >= 0.0;
  }

  lemma NonNegProduct(a: int, b: int)
    requires 0 <= a && 0 <= b
    ensures 0 <= a * b
  {
  }
}

=== FILE: validation.dfy ===
/** `validate_taxonomy`: header check, per-row checks (empty ID, duplicate
    ID, parent normalisation) and, when the rows are clean, the structural
    checks (missing parents, parent-chain cycles). */
module Validation {
  import opened Wrappers
  import opened Dicts
  import opened Strings
  import opened Chains
  import opened TaxonomyModel

  /** The reported problems; `validate_taxonomy` appends each as a message string. */
  datatype ValidationError =
    | MissingHeader(fields: set<string>)
    | FoundColumns(columns: seq<string>)
    | EmptyId(excelRow: nat)
    | DuplicateId(id: string, excelRow: nat)
    | MissingParent(child: string, parent: string)
    | CycleDetected(id: string)

  /** The state of the row loop: the IDs seen, the parent of each ID
      (`None` for a root), and the errors so far. */
  datatype Scan = Scan(ids: set<string>, parents: Dict<string, Option<string>>, errors: seq<ValidationError>) {
    ghost predicate Valid() {
      && parents.Valid()
      && (forall k :: k in ids <==> k in parents.m)
      && (forall k :: k in parents.m && parents.m[k].Some? ==> parents.m[k].value != "")
    }
  }

  /** The normalised ID of a row, or `None` when its ID cell is empty. */
  function RowId(row: Row): (r: Option<string>)
    ensures r == CleanCell(CellAt(row, IdField))
  {
    CleanCell(CellAt(row, IdField))
  }

  /** The normalised parent: an empty cell, an empty string and a string of
      whitespace all mean "no parent". */
  function NormalizeParent(c: Cell): (r: Option<string>)
    ensures c.Missing? || c == Text("") ==> r.None?
    ensures r.Some? ==> r.value != "" && Some(r.value) == CleanCell(c)
    ensures !c.Missing? && Strip(CellStr(c)) != "" ==> r == CleanCell(c)
  {
    if c.Missing? || c == Text("") then None
    else
      var p := Strip(CellStr(c));
      if p == "" then None else Some(p)
  }

  /** A parent cell holding only whitespace is a root marker. */
  lemma BlankParentIsRoot(s: string)
    requires forall i :: 0 <= i < |s| ==> s[i] in Whitespace
    ensures NormalizeParent(Text(s)).None?
  {
    StripAllSpace(s);
  }

  /** The body of the row loop for the row at spreadsheet line `excelRow`. */
  function ScanRow(st: Scan, row: Row, excelRow: nat): (r: Scan)
    requires st.Valid()
    ensures r.Valid()
    ensures RowId(row).None? ==> r == st.(errors := st.errors + [EmptyId(excelRow)])
    ensures RowId(row).Some? ==>
      var id := RowId(row).value;
      && r.ids == st.ids + {id}
      && r.parents.m == st.parents.m[id := NormalizeParent(CellAt(row, ParentField))]
      && r.errors == st.errors + (if id in st.ids then [DuplicateId(id, excelRow)] else [])
  {
    match RowId(row)
    case None => st.(errors := st.errors + [EmptyId(excelRow)])
    case Some(id) =>
      var p := NormalizeParent(CellAt(row, ParentField));
      Scan(st.ids + {id}, st.parents.Put(id, p),
           st.errors + (if id in st.ids then [DuplicateId(id, excelRow)] else []))
  }

  /** The row loop over all rows; the row at index i is spreadsheet line i + 2. */
  function ScanRows(rows: seq<Row>): (r: Scan)
    ensures r.Valid()
  {
    if |rows| == 0 then Scan({}, Empty(), [])
    else ScanRow(ScanRows(rows[..|rows| - 1]), rows[|rows| - 1], |rows| + 1)
  }

  /** How many rows carry the ID `x`. */
  function Occurrences(rows: seq<Row>, x: string): nat {
    if |rows| == 0 then 0
    else Occurrences(rows[..|rows| - 1], x) + (if RowId(rows[|rows| - 1]) == Some(x) then 1 else 0)
  }

  /** How many rows have an empty ID cell. */
  function EmptyIdRows(rows: seq<Row>): nat {
    if |rows| == 0 then 0
    else EmptyIdRows(rows[..|rows| - 1]) + (if RowId(rows[|rows| - 1]).None? then 1 else 0)
  }

  /** The parent recorded by the last row with ID `x`, if any row has it. */
  function LastParent(rows: seq<Row>, x: string): Option<Option<string>> {
    if |rows| == 0 then None
    else if RowId(rows[|rows| - 1]) == Some(x) then Some(NormalizeParent(CellAt(rows[|rows| - 1], ParentField)))
    else LastParent(rows[..|rows| - 1], x)
  }

  function CountDuplicates(errs: seq<ValidationError>, x: string): nat {
    if |errs| == 0 then 0
    else CountDuplicates(errs[..|errs| - 1], x) + (if errs[|errs| - 1].DuplicateId? && errs[|errs| - 1].id == x then 1 else 0)
  }

  function CountEmpty(errs: seq<ValidationError>): nat {
    if |errs| == 0 then 0
    else CountEmpty(errs[..|errs| - 1]) + (if errs[|errs| - 1].EmptyId? then 1 else 0)
  }

  lemma {:induction false} CountAppend(a: seq<ValidationError>, b: seq<ValidationError>, x: string)
    ensures CountDuplicates(a + b, x) == CountDuplicates(a, x) + CountDuplicates(b, x)
    ensures CountEmpty(a + b) == CountEmpty(a) + CountEmpty(b)
    decreases |b|
  {
    if |b| == 0 {
      assert a + b == a;
    } else {
      assert (a + b)[..|a + b| - 1] == a + b[..|b| - 1];
      CountAppend(a, b[..|b| - 1], x);
    }
  }

  /** After the row loop an ID is known exactly when some row carries it,
      and its recorded parent is the one of its last row. */
  lemma {:induction false} ScanRowsParents(rows: seq<Row>, x: string)
    ensures x in ScanRows(rows).ids <==> Occurrences(rows, x) > 0
    ensures ScanRows(rows).parents.Get(x) == LastParent(rows, x)
  {
    if |rows| > 0 {
      ScanRowsParents(rows[..|rows| - 1], x);
    }
  }

  /** Each repeat occurrence of an ID left one duplicate error. */
  lemma {:induction false} ScanRowsDuplicates(rows: seq<Row>, x: string)
    ensures CountDuplicates(ScanRows(rows).errors, x) ==
      (if Occurrences(rows, x) == 0 then 0 else Occurrences(rows, x) - 1)
  {
    if |rows| > 0 {
      var pre := rows[..|rows| - 1];
      var row := rows[|rows| - 1];
      ScanRowsDuplicates(pre, x);
      ScanRowsParents(pre, x);
      var st := ScanRows(pre);
      var extra := ScanRows(rows).errors[|st.errors|..];
      assert ScanRows(rows) == ScanRow(st, row, |rows| + 1);
      assert ScanRows(rows).errors == st.errors + extra;
      CountAppend(st.errors, extra, x);
      assert CountDuplicates(extra, x) == (if RowId(row) == Some(x) && x in st.ids then 1 else 0);
    }
  }

  /** Each row with an empty ID cell left one error. */
  lemma {:induction false} ScanRowsEmpty(rows: seq<Row>)
    ensures CountEmpty(ScanRows(rows).errors) == EmptyIdRows(rows)
  {
    if |rows| > 0 {
      var pre := rows[..|rows| - 1];
      var row := rows[|rows| - 1];
      ScanRowsEmpty(pre);
      var st := ScanRows(pre);
      match RowId(row)
      case None =>
        CountAppend(st.errors, [EmptyId(|rows| + 1)], "");
      case Some(id) =>
        CountAppend(st.errors, if id in st.ids then [DuplicateId(id, |rows| + 1)] else [], "");
    }
  }

  /** The parent edges: child to parent, for the IDs that have a parent. */
  function ParentEdges(parents: Dict<string, Option<string>>): (pm: map<string, string>)
    ensures forall k :: k in pm <==> k in parents.m && parents.m[k].Some?
    ensures forall k :: k in pm ==> parents.m[k] == Some(pm[k])
  {
    map k | k in parents.m && parents.m[k].Some? :: parents.m[k].value
  }

  /** `has_cycle(n, path)`: the answer and the `path` set as the call leaves it. */
  function HasCycleFrom(pm: map<string, string>, n: string, path: set<string>): (r: (bool, set<string>))
    decreases pm.Keys - path
  {
    if n in path then (true, path)
    else if n !in pm then (false, path + {n})
    else
      var sub := HasCycleFrom(pm, pm[n], path + {n});
      (sub.0, sub.1 - {n})
  }

  /** The check made for each ID, with a fresh `path`. */
  function HasCycle(pm: map<string, string>, n: string): bool {
    HasCycleFrom(pm, n, {}).0
  }

  lemma {:induction false} HasCycleChain(pm: map<string, string>, n0: string, i: nat, path: set<string>)
    requires Anc(pm, n0, i).Some? && ChainPrefix(pm, n0, path, i)
    ensures HasCycleFrom(pm, Anc(pm, n0, i).value, path).0 <==> Cyclic(pm, n0)
    decreases pm.Keys - path
  {
    var n := Anc(pm, n0, i).value;
    if n in path {
      var j: nat :| j < i && Anc(pm, n0, j) == Some(n);
      RevisitCyclic(pm, n0, j, i);
    } else if n !in pm {
      AncStep(pm, n0, i, n);
      EndedNotCyclic(pm, n0, i + 1);
    } else {
      AncStep(pm, n0, i, n);
      var path' := path + {n};
      forall y | y in path'
        ensures exists j: nat :: j < i + 1 && Anc(pm, n0, j) == Some(y)
      {
        if y == n {
          assert Anc(pm, n0, i) == Some(y);
        } else {
          var j: nat :| j < i && Anc(pm, n0, j) == Some(y);
          assert j < i + 1;
        }
      }
      forall j: nat | j < i + 1
        ensures Anc(pm, n0, j).Some? && Anc(pm, n0, j).value in path'
      {
      }
      HasCycleChain(pm, n0, i + 1, path');
    }
  }

  /** `has_cycle(n)` holds exactly when the parent chain from `n` never
      ends, that is, when it revisits a node. */
  lemma HasCycleIff(pm: map<string, string>, n: string)
    ensures HasCycle(pm, n) <==> Cyclic(pm, n)
  {
    HasCycleChain(pm, n, 0, {});
  }

  /** `path` is left as it was when a cycle is found; when the chain ends,
      the one node at which it ended stays in `path`. */
  lemma {:induction false} HasCycleFromPath(pm: map<string, string>, n: string, path: set<string>)
    ensures HasCycleFrom(pm, n, path).0 ==> HasCycleFrom(pm, n, path).1 == path
    ensures !HasCycleFrom(pm, n, path).0 ==>
      exists t :: t !in pm && t !in path && HasCycleFrom(pm, n, path).1 == path + {t}
    decreases pm.Keys - path
  {
    if n !in path && n in pm {
      HasCycleFromPath(pm, pm[n], path + {n});
      var sub := HasCycleFrom(pm, pm[n], path + {n});
      if !sub.0 {
        var t :| t !in pm && t !in path + {n} && sub.1 == path + {n} + {t};
        assert sub.1 - {n} == path + {t};
      }
    }
  }

  /** The missing-parent loop over the IDs in `keys`. */
  function MissingParents(keys: seq<string>, parents: map<string, Option<string>>, ids: set<string>): (r: seq<ValidationError>)
    requires forall k :: k in keys ==> k in parents
    requires forall i, j :: 0 <= i < j < |keys| ==> keys[i] != keys[j]
    ensures forall e :: e in r ==> e.MissingParent?
    ensures forall c, p :: MissingParent(c, p) in r <==>
      c in keys && parents[c] == Some(p) && p != "" && p !in ids
    ensures forall i, j :: 0 <= i < j < |r| ==> r[i] != r[j]
  {
    if |keys| == 0 then []
    else
      var k := keys[0];
      var rest := MissingParents(keys[1..], parents, ids);
      assert forall c :: c in keys <==> c == k || c in keys[1..];
      assert k !in keys[1..];
      if Truthy(parents[k]) && parents[k].value !in ids then [MissingParent(k, parents[k].value)] + rest
      else rest
  }

  /** The cycle loop over the IDs in `keys`. */
  function Cycles(pm: map<string, string>, keys: seq<string>): (r: seq<ValidationError>)
    requires forall i, j :: 0 <= i < j < |keys| ==> keys[i] != keys[j]
    ensures forall e :: e in r ==> e.CycleDetected?
    ensures forall k :: CycleDetected(k) in r <==> k in keys && Cyclic(pm, k)
    ensures forall i, j :: 0 <= i < j < |r| ==> r[i] != r[j]
  {
    if |keys| == 0 then []
    else
      var rest := Cycles(pm, keys[1..]);
      assert forall c :: c in keys <==> c == keys[0] || c in keys[1..];
      assert keys[0] !in keys[1..];
      HasCycleIff(pm, keys[0]);
      if HasCycle(pm, keys[0]) then [CycleDetected(keys[0])] + rest else rest
  }

  /** The structural checks run after a clean row loop: missing parents
      first, then cycles. */
  function StructureChecks(st: Scan): (r: seq<ValidationError>)
    requires st.Valid()
    ensures forall e :: e in r ==> e.MissingParent? || e.CycleDetected?
    ensures forall c, p :: MissingParent(c, p) in r <==> c in st.ids && st.parents.m[c] == Some(p) && p !in st.ids
    ensures forall k :: CycleDetected(k) in r <==> k in st.ids && Cyclic(ParentEdges(st.parents), k)
    ensures forall i, j :: 0 <= i < j < |r| ==> r[i] != r[j]
  {
    var mp := MissingParents(st.parents.keys, st.parents.m, st.ids);
    var cy := Cycles(ParentEdges(st.parents), st.parents.keys);
    assert forall e :: e in mp + cy <==> e in mp || e in cy;
    assert forall i, j :: 0 <= i < |mp| <= j < |mp + cy| ==> (mp + cy)[i].MissingParent? && (mp + cy)[j].CycleDetected?;
    mp + cy
  }

  /** `validate_taxonomy` on a sheet that could be read. The IDs are visited
      in first-seen order in the cycle loop. */
  function ValidateTaxonomy(sheet: Sheet): (r: seq<ValidationError>)
    ensures MissingColumns(TaxonomyFieldNames, sheet.columns) != {} ==>
      r == [MissingHeader(MissingColumns(TaxonomyFieldNames, sheet.columns)), FoundColumns(sheet.columns)]
    ensures MissingColumns(TaxonomyFieldNames, sheet.columns) == {} && ScanRows(sheet.rows).errors != [] ==>
      r == ScanRows(sheet.rows).errors
    ensures MissingColumns(TaxonomyFieldNames, sheet.columns) == {} && ScanRows(sheet.rows).errors == [] ==>
      var st := ScanRows(sheet.rows);
      && (forall e :: e in r ==> e.MissingParent? || e.CycleDetected?)
      && (forall c, p :: MissingParent(c, p) in r <==> c in st.ids && st.parents.m[c] == Some(p) && p !in st.ids)
      && (forall k :: CycleDetected(k) in r <==> k in st.ids && Cyclic(ParentEdges(st.parents), k))
      && (forall i, j :: 0 <= i < j < |r| ==> r[i] != r[j])
  {
    var missing := MissingColumns(TaxonomyFieldNames, sheet.columns);
    if missing != {} then [MissingHeader(missing), FoundColumns(sheet.columns)]
    else
      var st := ScanRows(sheet.rows);
      if st.errors != [] then st.errors else StructureChecks(st)
  }

  /** With a column missing from the header no row is looked at. */
  lemma HeaderShortCircuit(columns: seq<string>, rows1: seq<Row>, rows2: seq<Row>)
    requires MissingColumns(TaxonomyFieldNames, columns) != {}
    ensures ValidateTaxonomy(Sheet(columns, rows1)) == ValidateTaxonomy(Sheet(columns, rows2))
    ensures |ValidateTaxonomy(Sheet(columns, rows1))| == 2
  {
  }
}

=== FILE: wrappers.dfy ===
/** Option and Result values shared by every module of the model. A Python
    `None` return becomes `None`; a raised exception becomes `Failure`. */
module Wrappers {

  datatype Option<+T> = None | Some(value: T) {

    predicate IsFailure() {
      None?
    }

    function PropagateFailure<U>(): Option<U>
      requires None?
    {
      None
    }

    function Extract(): T
      requires Some?
    {
      value
    }

    /** Python's `d.get(k, default)` shape: the carried value or a fallback. */
    function GetOr(default: T): T {
      match this
      case Some(v) => v
      case None => default
    }
  }

  datatype Result<+R, +E> = Success(value: R) | Failure(error: E) {

    predicate IsFailure() {
      Failure?
    }

    function PropagateFailure<U>(): Result<U, E>
      requires Failure?
    {
      Failure(error)
    }

    function Extract(): R
      requires Success?
    {
      value
    }
  }
}
